=== FILE: README.md ===
# Mindful breathing pacer — a Dafny model of its shared logic

The breathing-animation repository ships one idea many times over. It paces
breathing through a fixed table of phases: box breathing (4 × 4 s),
diaphragmatic breathing (5 s in, 5 s out) and alternate-nostril breathing
(8 × 4 s). The ports are written in JavaScript, TypeScript, Swift, Kotlin,
Python, Go, Rust, Java, C++, Ruby and PHP. Under their UI code they share a
small amount of sequential logic. This project models that logic and proves
properties of it.

## What is modelled

- **Waveforms.**
  - The 16-second trapezoid lung-volume curve and the input checks of the curve generator.
  - The square and triangle breathing patterns.
  - Linear interpolation and per-second sampling.
  - The p5 sketch's smoothstep inhale and exhale scale.

  All of these use `real`. Python's float `%` is modelled as the floored remainder and JavaScript's `%` as the truncated remainder (`RealArith`).
- **Technique tables and phase schedulers.** Every front end's table and fallback are modelled, and so is the way it steps through phases:
  - an index moved to `(i + 1) % n`;
  - an index that wraps before each lookup;
  - an ever-growing index read modulo `n`;
  - the named four-state machine `inhale → hold → exhale → holdAfterExhale`.

  A timer firing is an explicit event (`Fire`, `Tick`). A React effect is a `Settle` step applied after each state change.
- **Input normalisation and lookup.**
  - The `|| 4` duration clamping of the class-based web front end.
  - The (0, 60] validation of the TypeScript front end.
  - The MCP technique tool: type check, then length check, then lower-casing, then the first key contained in the name.
  - The exercise and style allowlists.
  - The choice handling of the six command-line ports.
- **Small formatters and parsers.**
  - The `mm:ss` session timer.
  - The SwiftUI hex colour initialiser: its 3, 6 and 8 digit forms, where 8 digits are read as AARRGGBB.
  - The Python progress bar.
  - The CSS transform-string builder.
  - The VS Code icon map.
  - Progress-to-phase classification.
  - The terminal colour codes.

Durations are kept in each port's own unit: milliseconds in most JavaScript ports, seconds in the MCP, Python, Rust and Ruby ports. The Angular, React and Obsidian tables are the Electron table verbatim, so those modules reuse `ElectronRenderer.Lookup`. Where the phase table is the same everywhere, `Techniques` holds it once. Each port's own table is proved equal to it (`TablesAgree`, `TablesAreShared`).

### Where the model follows the code

Where the code and its documentation disagree, the model follows the code:

- **Swift hex input.** `trimmingCharacters(in: alphanumerics.inverted)` strips non-alphanumeric characters only at the two ends of the string, not inside it. `IosContentView.TrimNonAlnum` does the same.
- **Curve generator check order.** The duration check comes first. So a call with duration 10000 and rate 1001 fails with the duration error, not the sample-count error (`Waveform.DurationCheckedFirst`). The sample-count check can fire only when both arguments are negative.
- **`currentPhase` declared twice.** The vanilla `BoxBreathing.js` declares `currentPhase` with `const` at line 7 and again with `let` at line 44, in the same function body. `src/components/BreathingAnimation.js` does the same at lines 6 and 37. A second declaration of a name in one scope is an early `SyntaxError` in JavaScript, so neither file parses as written. The model takes the evident intent: the phase is the value the `let` block computes (`BoxCountdown.PhaseOf`, `Progress.Classify`), and the unused `useState` pair is dropped.
- **Electron `setTechnique`.** It has no allowlist. With a key that names nothing it throws at line 166, after it has reset the index but before it marks the buttons. A property name every object inherits, such as "constructor", gets past line 166, the buttons are marked, and `updatePhase` throws at line 137. `ElectronRenderer.SetTechnique` returns each of these states as an error.

## Model

| member | source | states |
|---|---|---|
| Waveform.PiecewiseBox | breathing-animation/math/jax/breathing.py:5-20 | the box lung volume lies in [0, 1] for every real time |
| Waveform.BoxIsTrapezoid | breathing-animation/math/jax/breathing.py:5-20 | the curve is one fixed trapezoid applied to the floored remainder of t by 16 |
| Waveform.BoxPeriodic | breathing-animation/math/jax/breathing.py:7 | shifting the time by any whole number of 16 s periods, negative ones included, leaves the volume unchanged |
| Waveform.BoxSegments | breathing-animation/math/jax/breathing.py:9-14 | within one period: u/4 on [0,4), 1 on [4,8), 1-(u-8)/4 on [8,12), 0 on [12,16) |
| Waveform.TrapezoidLipschitz | breathing-animation/math/jax/breathing.py:9-14 | the four segments join without jumps: the trapezoid moves by at most a quarter of the time difference |
| Waveform.BoxLipschitz | breathing-animation/math/jax/breathing.py:5-20 | the periodic curve is continuous everywhere, including the wrap from 16 back to 0, with slope at most 1/4 |
| Waveform.BoxMarks | breathing-animation/math/jax/breathing.py:9-14 | sample values at the joints and mid-ramps (0, 0.5, 1, 1, 0.5, 0 at t = 0, 2, 4, 8, 10, 12) |
| Waveform.Linspace | breathing-animation/math/jax/breathing.py:38 | n points, the first 0 and the last `stop` when n ≥ 2, evenly spaced by stop/(n-1) |
| Waveform.GenerateCurve | breathing-animation/math/jax/breathing.py:22-56 | the three checks in order with the first failure winning (as an if-and-only-if per error); on success the time axis is the linspace of duration·rate points, the volume has the same length, and box, diaphragmatic and any other technique map their curve over every sample |
| Waveform.ProductBound | breathing-animation/math/jax/breathing.py:30-35 | once the first two checks pass, non-negative arguments give at most 3,600,000 samples |
| Waveform.SampleLimitNeedsNegatives | breathing-animation/math/jax/breathing.py:34-35 | the sample-limit error occurs only when both the duration and the rate are negative |
| Waveform.DurationCheckedFirst | breathing-animation/math/jax/breathing.py:30-35 | (10000, 1001) reports the duration error; (-4000, -4000) reports the sample-limit error |
| Patterns.Square | breathing-animation/web/src/utils/breathingPatterns.js:2-14 | for time ≥ 0 the square pattern lies in [0, 1] when speed > 0 and is 0 when speed < 0 (the cycle and the remainder are then negative) |
| Patterns.Triangle | breathing-animation/web/src/utils/breathingPatterns.js:15-23 | for time ≥ 0 the triangle pattern lies in [0, 1] when speed > 0 and is at least 2 when speed < 0 |
| Patterns.SquareShapeIsSegment | breathing-animation/web/src/utils/breathingPatterns.js:5-13 | the four branches are the box trapezoid's segments with time rescaled from the cycle to 16 s |
| Patterns.SquareIsBox | breathing-animation/web/src/utils/breathingPatterns.js:2-14 | the square pattern is the lung-volume box curve at time·16/cycle, so both ports draw the same shape |
| Patterns.SquarePeriodic | breathing-animation/web/src/utils/breathingPatterns.js:3-4 | for time ≥ 0, adding any whole number of cycles (60/speed) leaves the value unchanged |
| Patterns.JsRemShift | breathing-animation/web/src/utils/breathingPatterns.js:4 | JavaScript's remainder of a non-negative time ignores whole multiples of the cycle |
| Patterns.TrianglePeriodic | breathing-animation/web/src/utils/breathingPatterns.js:16-17 | the triangle repeats after 120/speed |
| Patterns.TriangleSymmetric | breathing-animation/web/src/utils/breathingPatterns.js:18-22 | within one cycle the triangle is mirror-symmetric about its half-cycle |
| Patterns.TriangleMarks | breathing-animation/web/src/utils/breathingPatterns.js:18-22 | 0 at phase 0, 0.5 at a quarter cycle, 1 at exactly half a cycle |
| Patterns.SquareMarks | breathing-animation/web/src/utils/breathingPatterns.js:5-13 | 0 at the start, 1 at the quarter and the half, 0 at three quarters |
| Patterns.NegativeTimeLeavesRange | breathing-animation/web/src/utils/breathingPatterns.js:2-17 | for negative time the remainder is negative and both patterns leave [0, 1] (square -2 at t = -0.5, triangle -1 at t = -1, speed 60) |
| Patterns.NegativeSpeedLeavesRange | breathing-animation/web/src/utils/breathingPatterns.js:2-23 | at speed -12 and time 0 the triangle is 2 and the square 0: a negative speed takes the triangle out of [0, 1] |
| RealArith.JsRem | breathing-animation/web/src/utils/breathingPatterns.js:4 | JavaScript's `%` takes the dividend's sign and stays below the divisor's magnitude, for a divisor of either sign |
| RealArith.JsRemNegDivisor | breathing-animation/web/src/utils/breathingPatterns.js:4 | the divisor's sign does not matter to JavaScript's `%` |
| Animation.AnimateValue | breathing-animation/web/src/utils/animationHelpers.js:1-6 | exactly the final value once the time reaches the duration; the initial value at time 0; between the two ends for times inside the duration; no division when the time has reached the duration, so duration 0 is safe there |
| Animation.InterpolationBounds | breathing-animation/web/src/utils/animationHelpers.js:5 | the interpolation formula stays between its two ends for 0 ≤ t < duration |
| Animation.AnimateMonotone | breathing-animation/web/src/utils/animationHelpers.js:1-6 | the interpolated value moves monotonically toward the final value as time grows, across the switch to the final value |
| Animation.GenerateBreathingAnimation | breathing-animation/web/src/utils/animationHelpers.js:8-14 | one sample per whole second, `duration` of them (none for duration ≤ 0), sample i being the pattern at time i |
| P5Sketch.TablesAreShared | breathing-animation/frontend/p5-sketch/sketch.js:9-30 | the sketch's three tables are the shared box, diaphragmatic and alternate-nostril tables in milliseconds |
| P5Sketch.Setup | breathing-animation/frontend/p5-sketch/sketch.js:32-35 | the sketch starts in a valid state: box breathing at phase 0 |
| P5Sketch.SetTechnique | breathing-animation/frontend/p5-sketch/sketch.js:92-100 | a key present in the table switches to it at phase 0 and restarts the phase clock; any other key changes nothing (inherited `Object.prototype` names aside; see Left out) |
| P5Sketch.KeyPressed | breathing-animation/frontend/p5-sketch/sketch.js:85-90 | '1', '2' and '3' select box, diaphragmatic and alternate-nostril; every other key leaves the state unchanged |
| P5Sketch.SmoothStep | breathing-animation/frontend/p5-sketch/sketch.js:127 | smoothstep maps [0, 1] into [0, 1] |
| P5Sketch.SmoothStepMonotone | breathing-animation/frontend/p5-sketch/sketch.js:127 | smoothstep is non-decreasing on [0, 1] |
| P5Sketch.InhaleScale | breathing-animation/frontend/p5-sketch/sketch.js:125-128 | the inhale scale stays in [1, 1.5] for progress in [0, 1] |
| P5Sketch.ExhaleScale | breathing-animation/frontend/p5-sketch/sketch.js:129-132 | the exhale scale stays in [1, 1.5] for progress in [0, 1] |
| P5Sketch.ScaleEnds | breathing-animation/frontend/p5-sketch/sketch.js:125-132 | inhale runs from 1 to 1.5, exhale from 1.5 to 1, and at equal progress the two sum to 2.5 |
| P5Sketch.ScaleMonotone | breathing-animation/frontend/p5-sketch/sketch.js:125-132 | inhale grows and exhale shrinks monotonically with progress |
| P5Sketch.HoldScale | breathing-animation/frontend/p5-sketch/sketch.js:133-141 | a hold shows 1.5 exactly when the previous phase (wrapping from 0 to the last) starts with "Inhale", otherwise 1.0 |
| P5Sketch.Tick | breathing-animation/frontend/p5-sketch/sketch.js:106-115 | the phase advances only when the elapsed time strictly exceeds its duration, then by exactly one modulo the count, restarting the clock; otherwise nothing changes; the index stays in bounds |
| P5Sketch.DurationsPositive | breathing-animation/frontend/p5-sketch/sketch.js:9-30 | every phase of a valid sketch has a positive duration, so the progress division is defined |
| P5Sketch.DrawAsWritten | breathing-animation/frontend/p5-sketch/sketch.js:102-141 | `draw` as written advances the clock exactly as Tick does (the drawn phase is the one read before the advance) |
| P5Sketch.Draw | breathing-animation/frontend/p5-sketch/sketch.js:102-141 | corrected `draw`: it advances as Tick does and draws the phase now current |
| P5Sketch.DrawScaleInRange | breathing-animation/frontend/p5-sketch/sketch.js:117-141 | while the clock runs forward every frame's scale lies in [1, 1.5], as written and corrected |
| P5Sketch.TablesSeamless | breathing-animation/frontend/p5-sketch/sketch.js:125-141 | in all three tables each phase starts at the scale its predecessor ended on |
| P5Sketch.DrawSeamless | breathing-animation/frontend/p5-sketch/sketch.js:106-141 | with the corrected draw, the frame that ends a phase shows the scale that phase finished on |
| P5Sketch.DrawAsWrittenJumps | breathing-animation/frontend/p5-sketch/sketch.js:106-118 | as written, at 4001 ms the finished inhale (which ended at 1.5) is drawn at scale 1.0 instead of the hold at 1.5 |
| Progress.Tick | breathing-animation/src/components/BreathingAnimation.js:19-27 | a running counter adds one; passing the total resets it to 0 and stops it; a stopped counter stays put |
| Progress.CountsUp | breathing-animation/src/components/BreathingAnimation.js:19-27 | k ticks from the start reach k while k ≤ total |
| Progress.TicksSplit | breathing-animation/src/components/BreathingAnimation.js:19-27 | m + n ticks are m ticks followed by n ticks |
| Progress.StoppedStays | breathing-animation/src/components/BreathingAnimation.js:22-24 | once the interval is cleared no tick changes anything |
| Progress.OneCycle | breathing-animation/src/components/BreathingAnimation.js:20-26 | after more than `total` ticks the counter is 0 and stopped: only one cycle runs |
| Progress.PhaseProgress | breathing-animation/src/components/BreathingAnimation.js:36 | the position in the cycle lies below the total and equals the progress within the first cycle; it is undefined exactly when the total is 0 |
| Progress.PhaseProgressPeriodic | breathing-animation/src/components/BreathingAnimation.js:36 | adding a whole cycle leaves the position unchanged |
| Progress.Classify | breathing-animation/src/components/BreathingAnimation.js:37-44 | inhale iff position < inhale; hold iff inhale ≤ position < inhale + hold; exhale otherwise, including an undefined position |
| Progress.PhasesInOrder | breathing-animation/src/components/BreathingAnimation.js:37-44 | within one cycle the phase never goes back: inhale, then hold, then exhale |
| Progress.PhaseSpans | breathing-animation/src/components/BreathingAnimation.js:37-44 | each phase covers exactly its interval of the cycle |
| Progress.EndShowsInhale | breathing-animation/src/components/BreathingAnimation.js:36-39 | at progress equal to the total the position is 0 and the phase is inhale |
| Progress.NoHoldNeverShown | breathing-animation/src/components/BreathingAnimation.js:40 | with hold 0 the hold phase is never selected |
| Progress.Percentage | breathing-animation/src/components/BreathingAnimation.js:46 | the percentage lies in [0, 100) and is defined exactly when the total is positive |
| FourPhase.NextIsCycle | breathing-animation/frontend/vanilla-js/js/src/breathing.js:244-283 | each timer moves inhale → hold → exhale → holdAfterExhale → inhale, which is one step of the index cycle modulo 4 |
| FourPhase.AfterIndex | breathing-animation/frontend/vanilla-js/js/src/breathing.js:233-284 | n timer firings move the state n places round the cycle |
| FourPhase.FourStepsBack | breathing-animation/frontend/vanilla-js/js/src/breathing.js:233-284 | four firings return to the starting state |
| FourPhase.Delay | breathing-animation/frontend/vanilla-js/js/src/breathing.js:244-283 | each state's timer uses that state's duration; holdAfterExhale reuses the hold duration |
| FourPhase.RoundTime | breathing-animation/frontend/vanilla-js/js/src/breathing.js:244-283 | one round lasts inhale + 2·hold + exhale |
| FourPhase.ClassNameInjective | breathing-animation/frontend/vanilla-js/js/src/breathing.js:235-275 | the four state classes are distinct |
| FourPhase.ShowClass | breathing-animation/frontend/vanilla-js/js/src/breathing.js:228-275 | after `animate` exactly one state class is present, that of the current state, and other classes are untouched |
| FourPhase.BoxPrompt | breathing-animation/frontend/vanilla-js/js/src/breathing.js:236-276 | the box prompt of each state is the shared box phase name at its position |
| FourPhase.KeyOf | breathing-animation/frontend/vanilla-js/js/src/breathing.js:468-474 | a selector value names an exercise only by exact match; no match means no exercise key equals it |
| FourPhase.KeyOfKey | breathing-animation/frontend/vanilla-js/js/src/breathing.js:468-474 | every exercise's key reads back to that exercise |
| FourPhase.Successor | breathing-animation/frontend/vanilla-js/js/src/breathing.js:309-334 | box and alternate-nostril follow the four-state cycle; diaphragmatic alternates inhale and exhale |
| VanillaExercise.OrFour | breathing-animation/frontend/vanilla-js/js/src/breathing.js:186-188 | `Number(x) \|\| 4` gives 4 exactly for a missing value, 0 or 4, and the value itself otherwise |
| VanillaExercise.GetPhaseDurations | breathing-animation/frontend/vanilla-js/js/src/breathing.js:184-194 | inhale and exhale always in [1000, 60000] ms and hold in [0, 60000] ms, whole seconds; in-range inputs kept; 0 or missing becomes 4 s; negatives clamp to 1 s (hold to 0); above 60 clamps to 60 s |
| VanillaExercise.HoldClampNotIdempotent | breathing-animation/frontend/vanilla-js/js/src/breathing.js:187 | a negative hold clamps to 0, and feeding that 0 back in gives 4000 ms |
| VanillaExercise.InRangeRoundTrip | breathing-animation/frontend/vanilla-js/js/src/breathing.js:184-194 | durations of 1-60 whole seconds come back unchanged when passed in as seconds |
| VanillaExercise.SafeKey | breathing-animation/frontend/vanilla-js/js/src/breathing.js:514-516 | a known exercise key is used as is; anything else becomes box breathing |
| VanillaExercise.SafeKeyOfKey | breathing-animation/frontend/vanilla-js/js/src/breathing.js:468-474 | every exercise key selects its own exercise, and a non-box result always came from its exact key |
| VanillaExercise.SafeStyle | breathing-animation/frontend/vanilla-js/js/src/breathing.js:144-146 | the style is always allowlisted: an allowed style is kept, anything else becomes 'circle' |
| VanillaExercise.Animate | breathing-animation/frontend/vanilla-js/js/src/breathing.js:226-412 | each exercise shows its state's class, prompt and timer; diaphragmatic shows only inhale and exhale classes and does nothing in a hold state |
| VanillaExercise.Start | breathing-animation/frontend/vanilla-js/js/src/breathing.js:214-219 | every start begins in inhale with the clamped durations and the inhale timer |
| VanillaExercise.Stop | breathing-animation/frontend/vanilla-js/js/src/breathing.js:171-182 | stop clears the timer, the prompt and every state class, and leaves other classes alone |
| VanillaExercise.StartRunning | breathing-animation/frontend/vanilla-js/js/src/breathing.js:214-219 | a started exercise satisfies the running invariant |
| VanillaExercise.FireRunning | breathing-animation/frontend/vanilla-js/js/src/breathing.js:244-283 | each timer firing keeps the running invariant |
| VanillaExercise.FiresFollowCycle | breathing-animation/frontend/vanilla-js/js/src/breathing.js:233-412 | after n firings box and alternate-nostril are n places round the four-state cycle; diaphragmatic has alternated n times |
| VanillaExercise.DiaphragmaticSkipsHold | breathing-animation/frontend/vanilla-js/js/src/breathing.js:309-334 | a running diaphragmatic exercise only ever waits an inhale or an exhale duration |
| VanillaExercise.AlternateNeverSwaps | breathing-animation/frontend/vanilla-js/js/src/breathing.js:359-412 | the alternate-nostril prompts are always "Inhale Left", "Hold" or "Exhale Right" and never swap sides |
| WebExercise.GetPhaseDurations | breathing-animation/web/js/src/breathing.js:50-56 | each input is multiplied by 1000 with no clamping: dividing by 1000 gives the input back |
| WebExercise.DurationsRoundTrip | breathing-animation/web/js/src/breathing.js:50-56 | whole-second durations survive a trip through seconds and back |
| WebExercise.Animate | breathing-animation/web/js/src/breathing.js:77-225 | a handled state gets its class, prompt, timer and transform; an unhandled one changes nothing; alternate-nostril carries exactly the side class of its state |
| WebExercise.Start | breathing-animation/web/js/src/breathing.js:71-75 | start begins in inhale with the unclamped durations and the inhale timer |
| WebExercise.Stop | breathing-animation/web/js/src/breathing.js:42-48 | stop clears the timer, prompt, transform and state classes |
| WebExercise.SideInvariant | breathing-animation/web/js/src/breathing.js:175-225 | alternate-nostril starts on the left, and every firing keeps exactly one prompt side class |
| WebExercise.PopulateSelectOptions | breathing-animation/web/js/src/breathing.js:229-236 | appends options 1..maxValue in ascending order after the existing ones (none for maxValue ≤ 0) |
| WebExercise.ChangeExercise | breathing-animation/web/js/src/breathing.js:336-350 | every change stops the running exercise first (`stopBreathing`, line 340); then a known key replaces the exercise, and an unknown key shows the default instructions and keeps the current, now stopped, exercise |
| WebExercise.ChangeIdempotent | breathing-animation/web/js/src/breathing.js:336-350 | the page after a change depends only on the value and the selected exercise, so a repeated change leaves it as it is |
| TsExercise.GetPhaseDurations | breathing-animation/frontend/typescript/breathing.ts:63-69 | accepted durations are stored ×1000, recoverable by dividing by 1000 |
| TsExercise.ApplyTransform | breathing-animation/frontend/typescript/breathing.ts:71-88 | the transform has no leading or trailing whitespace |
| TsExercise.TrimDropsFinalSpace | breathing-animation/frontend/typescript/breathing.ts:74-87 | the output equals the JavaScript `trim()` of the joined pieces, which removes exactly the final space the builder appends |
| TsExercise.RotateFirstIffLotus | breathing-animation/frontend/typescript/breathing.ts:75-77 | the transform starts with `rotate(45deg)` iff the style is lotus |
| TsExercise.ScaleIffGiven | breathing-animation/frontend/typescript/breathing.ts:79-81 | the transform contains `scale(` iff a scale is given |
| TsExercise.TranslateIffNonzero | breathing-animation/frontend/typescript/breathing.ts:83-85 | the transform contains `translateX(` iff the offset is non-zero |
| TsExercise.Start | breathing-animation/frontend/typescript/breathing.ts:97-112 | durations outside inhale, exhale in (0, 60] and hold in [0, 60] leave the state unchanged; accepted ones are stored ×1000 and start in inhale |
| TsExercise.Animate | breathing-animation/frontend/typescript/breathing.ts:114-171 | a no-op without element, prompt or durations; otherwise one state class, the box prompt and that state's timer |
| TsExercise.Stop | breathing-animation/frontend/typescript/breathing.ts:46-61 | stop nulls the timer and, where the elements exist, clears the classes and transform and resets the prompt text and class |
| TsExercise.FiresFollowCycle | breathing-animation/frontend/typescript/breathing.ts:114-171 | n firings move n places round the four-state cycle, each waiting that state's duration |
| McpServer.FirstMatch | breathing-animation/backend/mcp-server/src/index.ts:144 | the selected key is the first key, in declaration order, contained in the name; none iff no key is contained |
| McpServer.TechniqueDetails | breathing-animation/backend/mcp-server/src/index.ts:124-165 | a non-string is refused, then a name over 50 UTF-16 code units (JavaScript `length`), then the lower-cased name is matched; no match lists every key |
| McpServer.CallTool | breathing-animation/backend/mcp-server/src/index.ts:120-167 | any tool name other than `get_technique_details` throws "Tool not found" |
| McpServer.DetailsIgnoreCase | breathing-animation/backend/mcp-server/src/index.ts:140 | a name and its lower-cased form get the same reply |
| McpServer.LongNameRefused | breathing-animation/backend/mcp-server/src/index.ts:132-138 | the length check precedes the lookup: a name over 50 code units is refused even if it mentions a key |
| McpServer.AstralPaddingRefused | breathing-animation/backend/mcp-server/src/index.ts:133 | "box-breathing" plus 19 emoji is 32 characters but 51 code units, so it is refused as too long |
| McpServer.NameFinds | breathing-animation/backend/mcp-server/src/index.ts:140-155 | a short, lower-case name that starts with a key and contains no earlier key returns that key's technique |
| McpServer.KeysFindThemselves | breathing-animation/backend/mcp-server/src/index.ts:140-155 | asking for each key by name returns that key's own technique |
| McpServer.ResourceKeyShape | breathing-animation/backend/mcp-server/src/index.ts:89 | a resource key is the name lower-cased with every space turned into '-': same length, no space, no capital |
| McpServer.ResourceKeysFindTechniques | breathing-animation/backend/mcp-server/src/index.ts:82-95 | every resource key `ReadResource` lists, passed back to the technique tool, returns that technique's details |
| McpServer.ReadResource | breathing-animation/backend/mcp-server/src/index.ts:82-95 | the known URI lists every technique with its key; any other URI throws |
| McpServer.CoachTechnique | breathing-animation/backend/mcp-server/src/index.ts:192 | a missing or empty technique becomes "box-breathing"; any other is kept |
| McpServer.GetPrompt | breathing-animation/backend/mcp-server/src/index.ts:190-206 | the coaching text mentions the technique; any other prompt name throws |
| IosContentView.TrimNonAlnum | breathing-animation/mobile/ios/ContentView.swift:166 | the trimmed text is a substring that starts and ends with an alphanumeric character |
| IosContentView.TrimHash | breathing-animation/mobile/ios/ContentView.swift:166 | a leading '#' is removed from an alphanumeric code |
| IosContentView.ScanHex | breathing-animation/mobile/ios/ContentView.swift:168 | the scanned value is below 16 to the length of the leading hex-digit run |
| IosContentView.TrimKeepsInterior | breathing-animation/mobile/ios/ContentView.swift:166 | a code that already starts and ends alphanumeric is left whole |
| IosContentView.ScanAllHex | breathing-animation/mobile/ios/ContentView.swift:168 | a string made only of hex digits is scanned whole, to its positional value |
| IosContentView.HexRoundTrip | breathing-animation/mobile/ios/ContentView.swift:168 | any value below 16 to the width, written as that many hex digits, scans back to itself |
| IosContentView.NibblesBack | breathing-animation/mobile/ios/ContentView.swift:171-172 | three nibbles packed into a 3-digit value come back as those nibbles times 17, fully opaque |
| IosContentView.FromRgbNibbles | breathing-animation/mobile/ios/ContentView.swift:171-172 | 3 digits: every channel is a nibble times 17, in [0, 255] |
| IosContentView.FromRgbBytes | breathing-animation/mobile/ios/ContentView.swift:173-174 | 6 digits: RRGGBB bytes that recompose the value, with alpha 255 |
| IosContentView.FromArgbBytes | breathing-animation/mobile/ios/ContentView.swift:175-176 | 8 digits: AARRGGBB with alpha first, recomposing the value |
| IosContentView.ColorComponents | breathing-animation/mobile/ios/ContentView.swift:165-179 | any other length gives (1, 1, 1, 0); 3 and 6 digits give alpha 255; every component is in [0, 255] |
| IosContentView.ChannelsInUnitRange | breathing-animation/mobile/ios/ContentView.swift:181-187 | every channel after division by 255 lies in [0, 1] |
| IosContentView.ColorOfCode | breathing-animation/mobile/ios/ContentView.swift:165-176 | after a "#", the code's digit count picks the decoder, applied to the digits' value |
| IosContentView.BytesBack | breathing-animation/mobile/ios/ContentView.swift:173-174 | three bytes packed as RRGGBB decode back to themselves, opaque |
| IosContentView.ArgbBack | breathing-animation/mobile/ios/ContentView.swift:175-176 | four bytes packed as AARRGGBB decode back to themselves, alpha first |
| IosContentView.ThreeDigitRoundTrip | breathing-animation/mobile/ios/ContentView.swift:171-172 | "#" and any three hex digits decode to their nibbles ×17, opaque; with NibblesBack the nibbles come back |
| IosContentView.SixDigitRoundTrip | breathing-animation/mobile/ios/ContentView.swift:173-174 | "#" and any six hex digits decode to the three bytes that recompose the value, opaque |
| IosContentView.EightDigitRoundTrip | breathing-animation/mobile/ios/ContentView.swift:175-176 | "#" and any eight hex digits decode to four bytes that recompose the value, alpha first |
| IosContentView.PhasesFor | breathing-animation/mobile/ios/ContentView.swift:138 | "Diaphragmatic" and "Alternate" pick their tables; any other name falls back to box |
| IosContentView.TablesConsistent | breathing-animation/mobile/ios/ContentView.swift:19-40 | the Swift tables carry the shared phase names, and each phase's colour and scale match its kind |
| IosContentView.RunBreathingLoop | breathing-animation/mobile/ios/ContentView.swift:136-159 | the loop applies phases in table order, round after round |
| ElectronRenderer.Lookup | breathing-animation/desktop/electron/renderer.js:1-31 | exactly the keys box, diaphragmatic and alternate have tables, none of them empty |
| ElectronRenderer.PhasesOrBox | breathing-animation/frontend/react/BreathingVisualizer.jsx:137 | a known key gives its table and an unknown key falls back to box, never empty (Obsidian's `main.ts:258` does the same) |
| ElectronRenderer.TablesAgree | breathing-animation/desktop/electron/renderer.js:1-31 | box 4×4000 ms, diaphragmatic 2×5000 ms, alternate 8×4000 ms; alternate offsets as in the p5 sketch; colours by phase kind |
| ElectronRenderer.UpdatePhase | breathing-animation/desktop/electron/renderer.js:135-150 | shows `phases[index]` and schedules its duration; out of bounds it fails with the state unchanged |
| ElectronRenderer.MarkButtons | breathing-animation/desktop/electron/renderer.js:168-171 | a button is disabled iff its technique equals the key |
| ElectronRenderer.SetTechnique | breathing-animation/desktop/electron/renderer.js:159-174 | a known key resets the index to 0, marks the buttons and shows the first phase; a key naming nothing throws after the reset with the buttons untouched; an inherited property name throws in `updatePhase` after the buttons are marked |
| ElectronRenderer.Fire | breathing-animation/desktop/electron/renderer.js:153-156 | the index becomes (i + 1) mod the phase count, staying in bounds |
| ElectronRenderer.Fires | breathing-animation/desktop/electron/renderer.js:153-156 | any number of firings keep the technique, the buttons and a valid index |
| ElectronRenderer.FiresCycle | breathing-animation/desktop/electron/renderer.js:153-156 | k firings advance the index by k modulo the phase count |
| ElectronRenderer.ExactlyOneDisabled | breathing-animation/desktop/electron/renderer.js:168-171 | with distinct technique buttons exactly the selected one is disabled |
| ElectronRenderer.KindRamp | breathing-animation/desktop/electron/renderer.js:115-129 | only a hold keeps the tone steady |
| ElectronRenderer.SetPhase | breathing-animation/desktop/electron/renderer.js:104-129 | no ramp when muted, not playing or without a context; otherwise the ramp of the lower-cased name's kind ("inhale" first, then "exhale", else hold) |
| ElectronRenderer.RampsMirror | breathing-animation/desktop/electron/renderer.js:115-124 | the exhale ramp is the inhale ramp reversed, in pitch and in gain |
| ReactVisualizer.Render | breathing-animation/frontend/react/BreathingVisualizer.jsx:137-138 | a render succeeds iff the index is within the current table, and shows that phase and the shape's border radius |
| ReactVisualizer.Tick | breathing-animation/frontend/react/BreathingVisualizer.jsx:163-166 | the index advances to (prev + 1) mod the phase count |
| ReactVisualizer.SelectAsWritten | breathing-animation/frontend/react/BreathingVisualizer.jsx:155-161 | as written, the render after a switch uses the old index and only the effect then resets it to 0 |
| ReactVisualizer.Select | breathing-animation/frontend/react/BreathingVisualizer.jsx:155-161 | corrected: switching technique resets the index to 0 in the same update |
| ReactVisualizer.SwitchCrashes | breathing-animation/frontend/react/BreathingVisualizer.jsx:130-171 | alternate at index 2 switched to diaphragmatic renders out of bounds |
| ReactVisualizer.SelectKeepsInBounds | breathing-animation/frontend/react/BreathingVisualizer.jsx:155-161 | with the reset in the same update every switch renders successfully |
| ReactVisualizer.TickKeepsInBounds | breathing-animation/frontend/react/BreathingVisualizer.jsx:163-166 | advancing keeps the index in bounds and is one step of the index cycle |
| ReactVisualizer.NeverCrashes | breathing-animation/frontend/react/BreathingVisualizer.jsx:130-171 | with the corrected switch, any sequence of switches, timer firings and shape changes keeps every render in bounds |
| AngularVisualizer.Current | breathing-animation/frontend/angular/breathing-visualizer.component.ts:138-141 | an unknown selected key falls back to box |
| AngularVisualizer.BorderRadius | breathing-animation/frontend/angular/breathing-visualizer.component.ts:151-155 | circle iff 50%, lotus iff the petal outline, anything else 12px |
| AngularVisualizer.PhaseTone | breathing-animation/frontend/angular/breathing-visualizer.component.ts:246-270 | when audible, the ramp of the name's kind by case-insensitive "inhale", then "exhale", else hold; otherwise no change |
| AngularVisualizer.RunPhase | breathing-animation/frontend/angular/breathing-visualizer.component.ts:183-191 | schedules the current phase's duration and sets its tone, leaving the index alone |
| AngularVisualizer.Fire | breathing-animation/frontend/angular/breathing-visualizer.component.ts:187-190 | the index becomes (i + 1) mod the phase count |
| AngularVisualizer.SelectTechnique | breathing-animation/frontend/angular/breathing-visualizer.component.ts:167-177 | the current key or an unknown key changes nothing; a new valid key resets the index to 0 and restarts the timer |
| AngularVisualizer.SelectTechniqueAsWritten | breathing-animation/frontend/angular/breathing-visualizer.component.ts:167-177 | an inherited property name passes the `this.techniques[key]` test and is stored with the index reset, and `runPhase` then throws; every other key behaves as `SelectTechnique` |
| AngularVisualizer.Init | breathing-animation/frontend/angular/breathing-visualizer.component.ts:157-160 | the component starts valid on box and circle at phase 0 with the first phase's timer, and the first phase carries no tone ramp because the tone starts after it |
| AngularVisualizer.Fires | breathing-animation/frontend/angular/breathing-visualizer.component.ts:183-191 | any number of firings keep the selection and a valid index |
| AngularVisualizer.FiresCycle | breathing-animation/frontend/angular/breathing-visualizer.component.ts:183-191 | k firings advance the index by k modulo the phase count |
| AngularVisualizer.SelectIdempotent | breathing-animation/frontend/angular/breathing-visualizer.component.ts:167-177 | selecting the same technique twice is the same as once |
| WebComponent.Lookup | breathing-animation/frontend/web-components/breathing-component.js:54 | corrected allowlist: exactly the own keys box, diaphragmatic and alternate are known values |
| WebComponent.TablesAgree | breathing-animation/frontend/web-components/breathing-component.js:3-33 | the tables are the shared ones in milliseconds, and every phase's text equals its name |
| WebComponent.RunAnimation | breathing-animation/frontend/web-components/breathing-component.js:138-166 | without a rendered shadow tree nothing happens; otherwise the view shows the phase text, class and duration and the timer is set |
| WebComponent.Fire | breathing-animation/frontend/web-components/breathing-component.js:162-165 | the index becomes (i + 1) mod the phase count |
| WebComponent.AttributeChanged | breathing-animation/frontend/web-components/breathing-component.js:51-65 | corrected: only a changed 'technique' attribute acts; a value that is not an own key becomes box, the index resets to 0 and a connected element re-runs the animation |
| WebComponent.AttributeAlwaysKnown | breathing-animation/frontend/web-components/breathing-component.js:52-61 | after any change the technique is a known key at phase 0 |
| WebComponent.RunAnimationAsWritten | breathing-animation/frontend/web-components/breathing-component.js:138-144 | as written: nothing happens before rendering; a known technique runs as `RunAnimation`; a technique with no table throws at the `phases` read |
| WebComponent.AttributeChangedAsWritten | breathing-animation/frontend/web-components/breathing-component.js:51-65 | as written: unchanged or other attributes do nothing, and for every value that is not an inherited `Object.prototype` name the result is the corrected `AttributeChanged` |
| WebComponent.InheritedNameCrashes | breathing-animation/frontend/web-components/breathing-component.js:54-55 | as written, an inherited name such as "constructor" passes the allowlist and is stored; a connected, rendered element then throws, and any other is left with no table |
| WebComponent.TextMatchesStatus | breathing-animation/frontend/web-components/breathing-component.js:155-156 | the visualiser text and the status text are always the same string |
| WebComponent.Fires | breathing-animation/frontend/web-components/breathing-component.js:162-165 | firings keep the technique and a valid index |
| WebComponent.FiresCycle | breathing-animation/frontend/web-components/breathing-component.js:162-165 | k firings advance the index by k modulo the phase count |
| ObsidianView.Run | breathing-animation/desktop/obsidian/main.ts:261-285 | an index at or past the end wraps to 0 before the lookup; the shown phase and its transition both use that phase's duration |
| ObsidianView.StartAnimation | breathing-animation/desktop/obsidian/main.ts:254-288 | starts at index 0 of the chosen table and shows its first phase |
| ObsidianView.Fire | breathing-animation/desktop/obsidian/main.ts:281-284 | a firing keeps the table and a valid index |
| ObsidianView.FireIsNext | breathing-animation/desktop/obsidian/main.ts:281-284 | increment-then-wrap is one step of the index cycle |
| ObsidianView.Fires | breathing-animation/desktop/obsidian/main.ts:281-284 | firings keep the table and a valid index |
| ObsidianView.FiresCycle | breathing-animation/desktop/obsidian/main.ts:263-284 | k firings land on index (i + k) mod n, always in bounds |
| ObsidianView.ShownAfter | breathing-animation/desktop/obsidian/main.ts:254-288 | after k firings the view shows phase k mod n with its duration: table order, cyclically |
| ObsidianView.ShownAfterFire | breathing-animation/desktop/obsidian/main.ts:263-284 | after any firing the shown phase is the one at the current in-bounds index |
| ObsidianView.SetPhase | breathing-animation/desktop/obsidian/main.ts:101-126 | no ramp when muted, silent or unready; otherwise the ramp of the case-insensitive kind |
| VscodeExtension.FamilyOf | breathing-animation/desktop/vscode/extension.js:51-61 | square and lotus have their own icons; every other shape uses the circle icons |
| VscodeExtension.GetIcon | breathing-animation/desktop/vscode/extension.js:47-62 | the icon is fixed by the shape family and whether the name contains "Hold" (case-sensitive) |
| VscodeExtension.IconDecodes | breathing-animation/desktop/vscode/extension.js:47-62 | the six icons are distinct: the icon determines the family and the hold flag |
| VscodeExtension.PhasesFor | breathing-animation/desktop/vscode/extension.js:90 | diaphragmatic and alternate pick their tables; anything else falls back to box (inherited `Object.prototype` names aside; see Left out) |
| VscodeExtension.TablesAgree | breathing-animation/desktop/vscode/extension.js:67-88 | the extension's tables are the shared ones in milliseconds |
| VscodeExtension.Show | breathing-animation/desktop/vscode/extension.js:97-99 | status text is icon, space, name; tooltip is "Mindful Breathing: " followed by the name; colour from the phase |
| VscodeExtension.NameAfterIcon | breathing-animation/desktop/vscode/extension.js:97 | the status text splits back into the icon and the phase name |
| VscodeExtension.Tick | breathing-animation/desktop/vscode/extension.js:93-105 | shows the current phase and schedules its duration |
| VscodeExtension.StartBreathing | breathing-animation/desktop/vscode/extension.js:64-108 | starts at index 0 of the chosen table |
| VscodeExtension.Fire | breathing-animation/desktop/vscode/extension.js:101-104 | the index becomes (i + 1) mod the phase count |
| VscodeExtension.SetShape | breathing-animation/desktop/vscode/extension.js:41-45 | only the shape changes |
| VscodeExtension.ShapeAtNextTick | breathing-animation/desktop/vscode/extension.js:41-45 | a new shape does not disturb the cycle and shows from the next tick |
| VscodeExtension.PickTechnique | breathing-animation/desktop/vscode/extension.js:26-31 | the three labels map to their techniques; any other or absent choice does nothing |
| VscodeExtension.PickShape | breathing-animation/desktop/vscode/extension.js:33-36 | a picked label sets the lower-cased shape; no choice does nothing |
| VscodeExtension.PickedShapeFamily | breathing-animation/desktop/vscode/extension.js:34-35 | the labels Square, Lotus and Circle reach their own icon families |
| IosWidget.Placeholder | breathing-animation/mobile/ios/BreathingWidget.swift:5-7 | the placeholder shows "Inhale" now |
| IosWidget.Snapshot | breathing-animation/mobile/ios/BreathingWidget.swift:9-12 | the snapshot is the placeholder entry |
| IosWidget.GetTimeline | breathing-animation/mobile/ios/BreathingWidget.swift:14-33 | exactly 15 entries, entry k dated 4k seconds after now with box phase k mod 4 |
| IosWidget.ScaleFor | breathing-animation/mobile/ios/BreathingWidget.swift:51 | scale 1.0 iff the phase is "Inhale" or "Hold", else 0.5 |
| IosWidget.ColorFor | breathing-animation/mobile/ios/BreathingWidget.swift:57-64 | green iff Inhale, red iff Exhale, blue for everything else |
| IosWidget.TimelineLooks | breathing-animation/mobile/ios/BreathingWidget.swift:14-64 | the timeline's circles cycle full, full, half, full with green, blue, red, blue every 4 entries, 4 s apart |
| TerminalColor.Code | breathing-animation/cli/go/breathing.go:62-67 | each colour is an ESC [ n m escape of five characters |
| TerminalColor.KindColor | breathing-animation/cli/ruby/lib/mindful_breathing.rb:5-10 | inhale iff green, exhale iff red, hold iff blue |
| TerminalColor.CodesDistinct | breathing-animation/cli/go/breathing.go:62-67 | different colours have different codes, none of them the reset |
| PythonCli.Choose | breathing-animation/cli/python/breathing.py:12-23 | given a line read, '2' iff diaphragmatic (5, 5), '3' iff alternate (8×4), anything else iff box (4×4) |
| PythonCli.Progress | breathing-animation/cli/python/breathing.py:34 | for 0 ≤ elapsed ≤ duration the progress is in [0, 20], below 20 before the end |
| PythonCli.ProgressMonotone | breathing-animation/cli/python/breathing.py:32-34 | the progress never goes back as time passes |
| PythonCli.Repeat | breathing-animation/cli/python/breathing.py:35 | Python string repetition: n copies, none for n ≤ 0 |
| PythonCli.Bar | breathing-animation/cli/python/breathing.py:35 | the bar is 20 cells for progress in [0, 20] (longer beyond) |
| PythonCli.BarRoundTrip | breathing-animation/cli/python/breathing.py:35 | the bar's leading filled cells count the progress, and the rest are dashes |
| PythonCli.BoxCycle | breathing-animation/cli/python/breathing.py:22 | the fallback box table has four 4 s phases totalling 16 s |
| GoCli.Choose | breathing-animation/cli/go/breathing.go:24-57 | the trimmed choice "2" iff diaphragmatic, "3" iff alternate, anything else iff box, in milliseconds |
| GoCli.PaddedChoice | breathing-animation/cli/go/breathing.go:26 | surrounding whitespace does not change the choice |
| GoCli.ColorFor | breathing-animation/cli/go/breathing.go:71-76 | prefix "Inhale" iff green; prefix "Exhale" (and not "Inhale") iff red; otherwise blue |
| GoCli.ColorIsKindColor | breathing-animation/cli/go/breathing.go:71-76 | the prefix colour is the colour of the name's prefix kind |
| GoCli.BoxCycle | breathing-animation/cli/go/breathing.go:49-56 | the box table shows 4 s per phase and totals 16,000 ms |
| RubyCli.TablesAgree | breathing-animation/cli/ruby/lib/mindful_breathing.rb:12-33 | keys 1, 2, 3 carry the shared tables in seconds, each phase coloured by its kind |
| RubyCli.Lookup | breathing-animation/cli/ruby/lib/mindful_breathing.rb:43 | exactly "1", "2" and "3" are table keys |
| RubyCli.Choose | breathing-animation/cli/ruby/lib/mindful_breathing.rb:42-43 | the chomped line selects its table, anything else key "1" |
| RubyCli.ChompedChoice | breathing-animation/cli/ruby/lib/mindful_breathing.rb:42-43 | "2" with its newline selects diaphragmatic |
| RubyCli.PaddedChoiceFallsBack | breathing-animation/cli/ruby/lib/mindful_breathing.rb:42-43 | "2 " is not a key after chomp and falls back to box |
| RubyCli.Line | breathing-animation/cli/ruby/lib/mindful_breathing.rb:49-50 | each line starts with a carriage return and the phase's colour code and ends with the reset code and three spaces |
| RustCli.Choose | breathing-animation/cli/rust/src/main.rs:22-54 | the trimmed choice "2" iff diaphragmatic, "3" iff alternate, anything else iff box, in seconds |
| RustCli.NewlineIgnored | breathing-animation/cli/rust/src/main.rs:21-22 | the newline `read_line` keeps does not change the choice |
| JavaCli.Arrays | breathing-animation/cli/java/BreathingVisualizer.java:20-38 | in every branch the name and duration arrays have equal length; "1" and unmatched inputs pick box |
| JavaCli.ArraysAreTable | breathing-animation/cli/java/BreathingVisualizer.java:20-38 | the parallel arrays pair up into the shared tables in milliseconds |
| JavaCli.ExactMatch | breathing-animation/cli/java/BreathingVisualizer.java:14-20 | the line is matched exactly: " 2" and "2 " fall back to box |
| JavaCli.WaitPhase | breathing-animation/cli/java/BreathingVisualizer.java:48-51 | the wait ends at the first whole number of sleep steps that reaches the duration |
| CppCli.ReadChoice | breathing-animation/cli/cpp/breathing.cpp:22-24 | the choice is the first non-space character; none iff the input is all space |
| CppCli.Choose | breathing-animation/cli/cpp/breathing.cpp:28-52 | '2' iff diaphragmatic, '3' iff alternate, anything else iff box, in milliseconds |
| CppCli.FirstCharOnly | breathing-animation/cli/cpp/breathing.cpp:22-24 | only the first character counts: "22" reads '2', " 31" reads '3' |
| AndroidScreen.PhasesFor | breathing-animation/mobile/android/BreathingScreen.kt:76-80 | "Diaphragmatic" iff diaphragmatic, "Alternate" iff alternate, anything else iff box |
| AndroidScreen.TablesAgree | breathing-animation/mobile/android/BreathingScreen.kt:40-61 | the shared tables in milliseconds, colours by kind, alternate scales following the box pattern |
| AndroidScreen.Show | breathing-animation/mobile/android/BreathingScreen.kt:84-87 | text, scale, colour and duration all come from the same phase record |
| AndroidScreen.ShowRoundTrip | breathing-animation/mobile/android/BreathingScreen.kt:84-87 | the screen state determines the phase it came from |
| AndroidScreen.RunLoop | breathing-animation/mobile/android/BreathingScreen.kt:82-94 | step k shows phase k mod n and waits exactly its duration, restarting at the first phase |
| AndroidScreen.RunTable | breathing-animation/mobile/android/BreathingScreen.kt:84-93 | for any non-empty table, step k shows phase k mod n and then waits that phase's own duration |
| BoxCountdown.Settle | breathing-animation/frontend/vanilla-js/src/exercises/AlternateNostrilBreathing/BoxBreathing.js:9-27 | reaching 0 makes the component inactive; inactive with seconds not 5 resets to 5 |
| BoxCountdown.Step | breathing-animation/frontend/vanilla-js/src/exercises/AlternateNostrilBreathing/BoxBreathing.js:9-35 | an inactive component ignores ticks |
| BoxCountdown.StepReachable | breathing-animation/frontend/vanilla-js/src/exercises/AlternateNostrilBreathing/BoxBreathing.js:5-35 | every event keeps seconds in [0, 5] with 0 never shown as active |
| BoxCountdown.RunReachable | breathing-animation/frontend/vanilla-js/src/exercises/AlternateNostrilBreathing/BoxBreathing.js:5-35 | any event sequence from the start stays reachable |
| BoxCountdown.FullRound | breathing-animation/frontend/vanilla-js/src/exercises/AlternateNostrilBreathing/BoxBreathing.js:9-27 | start and four ticks reach 1; the fifth tick returns to the initial state |
| BoxCountdown.PhaseOf | breathing-animation/frontend/vanilla-js/src/exercises/AlternateNostrilBreathing/BoxBreathing.js:44-59 | ≤ 5 iff inhale, 6..10 iff hold, 11..15 iff exhale, above 15 iff hold2 |
| BoxCountdown.AlwaysInhale | breathing-animation/frontend/vanilla-js/src/exercises/AlternateNostrilBreathing/BoxBreathing.js:5-59 | on every reachable state the computed phase is inhale |
| DiaphragmaticCountdown.Settle | breathing-animation/src/exercises/DiaphragmaticBreathing/DiaphragmaticBreathing.js:8-19 | inactive resets to 5; active is left alone, with no stop at 0 |
| DiaphragmaticCountdown.ButtonFor | breathing-animation/src/exercises/DiaphragmaticBreathing/DiaphragmaticBreathing.js:45-49 | Start iff seconds > 0, else Reset |
| DiaphragmaticCountdown.Press | breathing-animation/src/exercises/DiaphragmaticBreathing/DiaphragmaticBreathing.js:21-27 | Start activates; Reset deactivates and so restores 5 |
| DiaphragmaticCountdown.Tick | breathing-animation/src/exercises/DiaphragmaticBreathing/DiaphragmaticBreathing.js:10-13 | an active tick takes one second off and stays active |
| DiaphragmaticCountdown.Ticks | breathing-animation/src/exercises/DiaphragmaticBreathing/DiaphragmaticBreathing.js:8-19 | the component never stops by itself |
| DiaphragmaticCountdown.CountsPastZero | breathing-animation/src/exercises/DiaphragmaticBreathing/DiaphragmaticBreathing.js:8-19 | k ticks take k seconds off, below zero too |
| DiaphragmaticCountdown.Width | breathing-animation/src/exercises/DiaphragmaticBreathing/DiaphragmaticBreathing.js:35 | the bar is 20% per second: within [0, 100] for 0..5 and negative below 0 |
| DiaphragmaticCountdown.SixTicks | breathing-animation/src/exercises/DiaphragmaticBreathing/DiaphragmaticBreathing.js:8-49 | six ticks after Start show -1 second, width -20% and the Reset button |
| DiaphragmaticCountdown.ResetRestores | breathing-animation/src/exercises/DiaphragmaticBreathing/DiaphragmaticBreathing.js:14-27 | pressing Reset at 0 or below restores the initial state |
| Timer.Effect | breathing-animation/web/src/components/Timer.js:6-17 | the effect deactivates iff the time left is exactly 0 (or already deactivated) |
| Timer.Mount | breathing-animation/web/src/components/Timer.js:4 | the time left starts equal to `seconds` |
| Timer.Tick | breathing-animation/web/src/components/Timer.js:8-11 | while positive, each tick takes exactly one off |
| Timer.CountsDown | breathing-animation/web/src/components/Timer.js:6-17 | k ticks leave timeLeft - k, deactivated exactly on reaching 0 |
| Timer.Outcome | breathing-animation/web/src/components/Timer.js:4-17 | a positive start ends at 0 deactivated; a negative start never ticks and never deactivates |
| ShopifyComponent.ClassOf | breathing-animation/frontend/shopify/assets/breathing-component.js:72-75 | the four states have the classes inhale, hold, exhale and hold-empty, one each |
| ShopifyComponent.TextOf | breathing-animation/frontend/shopify/assets/breathing-component.js:72-75 | hold and hold-empty both display "Hold" |
| ShopifyComponent.SetPhase | breathing-animation/frontend/shopify/assets/breathing-component.js:83-86 | class "visualizer " plus the phase class; visualiser text and status both the phase text |
| ShopifyComponent.ClassIdentifiesState | breathing-animation/frontend/shopify/assets/breathing-component.js:72-86 | the class tells the states apart though the text does not |
| ShopifyComponent.Loop | breathing-animation/frontend/shopify/assets/breathing-component.js:70-81 | the k-th view is state k mod 4 of inhale, hold, exhale, hold-empty, repeating every 4 |
| WordpressWidget.Lookup | breathing-animation/backend/wordpress/mindful-breathing/mindful-breathing.php:35-59 | exactly box, diaphragmatic and alternate are known |
| WordpressWidget.PhasesFor | breathing-animation/backend/wordpress/mindful-breathing/mindful-breathing.php:68 | an unknown technique falls back to box |
| WordpressWidget.TablesAgree | breathing-animation/backend/wordpress/mindful-breathing/mindful-breathing.php:35-59 | box equals the desktop table; alternate has the same names, durations and colours with ±30 px offsets (3/5 of the desktop's ±50) |
| WordpressWidget.Tick | breathing-animation/backend/wordpress/mindful-breathing/mindful-breathing.php:65-81 | shows `phases[idx mod n]`, always in bounds, with its duration as transition and timeout |
| WordpressWidget.Fire | breathing-animation/backend/wordpress/mindful-breathing/mindful-breathing.php:77-80 | a firing increments idx without bound |
| WordpressWidget.Fires | breathing-animation/backend/wordpress/mindful-breathing/mindful-breathing.php:77-80 | k firings add k to idx |
| WordpressWidget.ShownAt | breathing-animation/backend/wordpress/mindful-breathing/mindful-breathing.php:65-81 | after k firings the phase shown is (idx + k) mod n |
| WordpressWidget.ShowsCyclically | breathing-animation/backend/wordpress/mindful-breathing/mindful-breathing.php:65-81 | the unbounded counter visits the phases exactly as a wrapped index would |
| WordpressWidget.Click | breathing-animation/backend/wordpress/mindful-breathing/mindful-breathing.php:95-106 | only a known technique acts: it resets idx to 0, cancels the timeout and shows the first phase |
| WordpressWidget.ClickShowsFirst | breathing-animation/backend/wordpress/mindful-breathing/mindful-breathing.php:98-104 | a switch shows the chosen technique's first phase |
| WordpressWidget.TimerStep | breathing-animation/backend/wordpress/mindful-breathing/mindful-breathing.php:65-111 | a click starts a new tick chain only when `timeoutId` names no pending timer; a firing never changes the number of chains |
| WordpressWidget.ChainsKept | breathing-animation/backend/wordpress/mindful-breathing/mindful-breathing.php:77-101 | once `timeoutId` names a pending timer the number of chains never changes again |
| WordpressWidget.EarlyClickTwoChains | breathing-animation/backend/wordpress/mindful-breathing/mindful-breathing.php:63-111 | as written, a click before the untracked start-up tick leaves two chains running for good; had the start-up tick fired first, one chain runs |
| WordpressWidget.OneChainAlways | breathing-animation/backend/wordpress/mindful-breathing/mindful-breathing.php:63-111 | corrected: with the start-up timer stored in `timeoutId`, exactly one chain runs after any events |
| WordpressWidget.Label | breathing-animation/backend/wordpress/mindful-breathing/mindful-breathing.php:88 | the label is the key with its first letter upper-cased |
| WordpressWidget.ButtonsAreKnown | breathing-animation/backend/wordpress/mindful-breathing/mindful-breathing.php:86-88 | every button's key is known, and its label lower-cases back to the key |
| Techniques.CycleLengths | breathing-animation/desktop/electron/renderer.js:1-31 | cycles last 16, 10 and 32 seconds in any time unit |
| Techniques.Seconds | breathing-animation/cli/go/breathing.go:78 | the seconds shown are the whole seconds in the duration (the Java port at BreathingVisualizer.java:46 and the C++ port at breathing.cpp:65 divide the same way) |
| Techniques.SecondsRoundTrip | breathing-animation/cli/go/breathing.go:78 | whole-second durations show exactly their seconds |
| Techniques.KindOfIgnoresCase | breathing-animation/desktop/electron/renderer.js:112-113 | the substring classifier reads a name and its lower-cased form alike |
| Techniques.InhalePrefixIsInhale | breathing-animation/frontend/p5-sketch/sketch.js:125 | a name starting with "Inhale" is an inhale for both the prefix and the substring classifier |
| Techniques.ExhalePrefixIsExhale | breathing-animation/frontend/p5-sketch/sketch.js:129 | a name starting with "Exhale" and without the letter n is an exhale for both the prefix and the substring classifier |
| Techniques.TableKinds | breathing-animation/desktop/electron/renderer.js:112-129 | both classifiers read every phase name of the three tables as its intended kind |
| Shapes.BorderRadius | breathing-animation/desktop/electron/renderer.js:192-194 | circle iff 50%, lotus iff the petal outline, anything else iff 12px; the React (line 193) and Angular ports agree |
| Audio.ToggleMute | breathing-animation/desktop/electron/renderer.js:61-67 | flips the flag and returns it; an existing gain becomes 0 when muted and 0.1 otherwise; as in the React and Obsidian ports |
| Audio.ToggleMuteWhilePlaying | breathing-animation/frontend/vanilla-js/js/src/breathing.js:104-113 | flips the flag; muting zeroes the gain; unmuting restores 0.1 only while playing |
| Audio.ToggleKeepsSilent | breathing-animation/frontend/vanilla-js/js/src/breathing.js:104-113 | with no gain node nothing becomes audible, and toggling twice restores the flag |
| Audio.ToggleTwice | breathing-animation/desktop/electron/renderer.js:61-67 | toggling twice restores the flag and leaves the gain at the value the flag implies |
| Clock.ClockText | breathing-animation/frontend/vanilla-js/js/src/breathing.js:624-626 | the text is minutes (at least two digits), a colon and two seconds digits, and parsing it gives back exactly the seconds it was made from, so no two counts share a text |
| Clock.Pad2Value | breathing-animation/frontend/vanilla-js/js/src/breathing.js:626 | zero-padding does not change the number read back |
| SessionTimer.Tick | breathing-animation/web/js/src/breathing.js:433-443 | each update writes mm:ss of the seconds left and ends the session iff they reached 0 |
| SessionTimer.Countdown | breathing-animation/frontend/vanilla-js/js/src/breathing.js:605-636 | a session of m minutes leaves m·60 texts on screen, counting down by one second to 00:01, then an empty display: "00:00" is written and cleared in the same callback, so it is never left on screen |
| SessionTimer.OnlyZeroReadsZero | breathing-animation/frontend/vanilla-js/js/src/breathing.js:622-624 | no count of seconds other than 0 is written as "00:00" |
| SessionTimer.Clear | breathing-animation/frontend/vanilla-js/js/src/breathing.js:614 | clearing the display after a countdown keeps the texts already shown and adds only the empty one |
| Cycle.Next | breathing-animation/desktop/electron/renderer.js:154 | `(i + 1) % n` stays in bounds and wraps from the last index to 0 |
| Cycle.AfterShift | breathing-animation/desktop/electron/renderer.js:153-156 | one firing followed by k - 1 more lands where k firings do |
| Cycle.PrevNextInverse | breathing-animation/frontend/p5-sketch/sketch.js:135 | the wrapped predecessor used for holds undoes the successor |
| Cycle.Replay | breathing-animation/desktop/electron/renderer.js:153-156 | the phases shown from the first one on are the table read cyclically |
| Cycle.RunRounds | breathing-animation/cli/rust/src/main.rs:58-65 | the command-line loop shows the phases in table order, round after round |
| Text.Trim | breathing-animation/cli/go/breathing.go:26 | the trimmed text is a substring with no whitespace at either end |
| Text.TrimPadded | breathing-animation/cli/go/breathing.go:26 | trimming removes exactly the surrounding whitespace |
| Text.Chomp | breathing-animation/cli/ruby/lib/mindful_breathing.rb:42 | chomp drops only a trailing line ending and keeps the line otherwise |
| Text.Lower | breathing-animation/backend/mcp-server/src/index.ts:140 | lower-casing keeps the length and maps each character |
| Text.Utf16Length | breathing-animation/backend/mcp-server/src/index.ts:133 | a string's code-unit count lies between its character count and twice that |
| Text.Utf16LengthBmp | breathing-animation/backend/mcp-server/src/index.ts:133 | without characters outside the Basic Multilingual Plane the code-unit count is the character count |
| Text.Utf16LengthAppend | breathing-animation/backend/mcp-server/src/index.ts:133 | code units add up over concatenation |
| Text.Utf16LengthAstralRun | breathing-animation/backend/mcp-server/src/index.ts:133 | k copies of a character outside the Basic Multilingual Plane are 2k code units |
| Text.LowerKeepsUtf16Length | breathing-animation/backend/mcp-server/src/index.ts:133-140 | lower-casing keeps the code-unit count, so the length check reads a name and its lower-cased form alike |
| Text.Capitalize | breathing-animation/backend/wordpress/mindful-breathing/mindful-breathing.php:88 | only the first character is upper-cased |

## Left out

- Audio synthesis: oscillators, gain ramps over time, AVAudioEngine and the Android AudioTrack loop are not modelled. Only the mute flag, the gain value it writes and the ramp a phase name selects are modelled.
- Timers, sleeps and cancellation are modelled as explicit events (`Fire`, `Tick`, one loop step). Wall-clock time is a parameter wherever the code reads it: `now` in the p5 sketch and the widget, the sleep step of the Java wait loop.
- Rendering: the DOM, CSS, SwiftUI, Compose, Shadow DOM and the editor APIs are not modelled. Elements are taken to exist where the code guards on them, except in the TypeScript `animate` and `stop`, which model the guards. `aria-label`, announcer text and CSS transition strings are not modelled.
- The cosine and sine branches of the curve generator are parameters of `Waveform.GenerateCurve`, because transcendental functions have no exact real model. For the same reason the `sine` pattern of the web front end is left out.
- `simulate_session`, the JAX driver, is left out: it is compilation, timing and printing.
- The p5 particle system and the `lerp` of the horizontal offset are left out: they are randomness and floating-point smoothing.
- MCP server wiring (transport, request routing, the list handlers) is left out. The tool reply carries the technique record, not its pretty-printed JSON text.
- IosContentView.ScanHex: `Scanner.scanHexInt64` is modelled as reading the leading run of hex digits. Its acceptance of a "0x" prefix and its saturation on 64-bit overflow are not modelled.
- GoCli.Choose: whitespace trimming covers the ASCII space, tab, LF, VT, FF and CR only, not the non-ASCII spaces `strings.TrimSpace` also removes.
- RustCli.Choose: whitespace trimming covers the ASCII space, tab, LF, VT, FF and CR only, not the non-ASCII spaces `str::trim` also removes. The input is already a string of characters, so the panic of `read_line(&mut input).unwrap()` (main.rs:21) on bytes that are not valid UTF-8 is not modelled.
- PythonCli.Choose: a line is taken to be present. On empty stdin `input()` (breathing.py:10) raises `EOFError`, which nothing catches because the `try` starts at line 27; the model has no end-of-input case.
- Text.Trim: removes the six ASCII whitespace characters only. JavaScript `trim`, Go `strings.TrimSpace` and Rust `str::trim` also remove non-ASCII spaces such as U+00A0 and U+2028.
- Text.TrimPadded: holds for ASCII whitespace padding only, for the same reason as `Text.Trim`.
- Text.Lower: lower-cases ASCII letters only. JavaScript `toLowerCase` is Unicode-aware and can change the length: 'İ' (U+0130) becomes two code units.
- McpServer.TechniqueDetails: the lower-casing is ASCII only (see `Text.Lower`). For a name with non-ASCII capitals, the not-found reply echoes a lower-cased name that differs from the code's. The length check counts UTF-16 code units exactly.
- McpServer.DetailsIgnoreCase: holds of the model's ASCII lower-casing only. Under Unicode `toLowerCase` it fails near the limit: a 50-unit name containing 'İ' is accepted, but its lower-cased form is 51 units and is refused as too long.
- IosContentView.TrimNonAlnum: treats only ASCII letters and digits as alphanumeric and counts characters. Swift's `CharacterSet.alphanumerics` includes Unicode letters and marks, and `count` counts grapheme clusters. So "#12ab3é" keeps its final 'é' in Swift and is 6 characters long there, but the model trims it to 5.
- TsExercise.Start: durations are reals, and reals have no NaN. In the code, `NaN` passes both guards at lines 100 and 104, because every comparison with NaN is false. It is then stored, and `setTimeout` with NaN fires at once. The model's claim that rejected durations leave the state unchanged covers finite numbers only.
- WebComponent.Lookup: the inherited `Object.prototype` names are listed explicitly (`Techniques.InheritedNames`). Names added to the prototype at run time by other code are not modelled.
- P5Sketch.SetTechnique: `if (TECHNIQUES[key])` (sketch.js:94) is also true for an inherited `Object.prototype` name such as "constructor", which the code would store along with a built-in function as its phases; the model leaves the state unchanged for every key outside the table. The only callers pass the literals "box", "diaphragmatic" and "alternate" (sketch.js:86-88), so such a name cannot reach it.
- VscodeExtension.PhasesFor: `techniques[technique] || techniques['box']` (extension.js:90) returns a built-in function for an inherited `Object.prototype` name, and the first `tick` would then throw; the model falls back to box for every key outside the table. Every caller passes one of the literals "box", "diaphragmatic" and "alternate", from the commands and the quick pick (extension.js:18-30), so such a name cannot reach it.
- ElectronRenderer.PhasesOrBox: React and Obsidian index their tables with keys that come from their own buttons and select options, so an inherited `Object.prototype` name cannot reach them. The model's own-key lookup is exact there.
- JavaCli.ExactMatch: `scanner.nextLine()` throws `NoSuchElementException` when standard input is empty; the model takes a line to be present.
- AngularVisualizer.Current: for an inherited property name such as "constructor" the getter returns the built-in found under it rather than box. `Current` is never reached with such a key: the buttons offer only `Object.keys` (line 68), `SelectTechnique` stores only own keys, and `SelectTechniqueAsWritten` models the throw an inherited name causes.
- AngularVisualizer.SelectTechnique: is the allowlist as the buttons use it, own keys only. The inherited-name path of the code's test is modelled separately by `SelectTechniqueAsWritten`.
- AngularVisualizer.RunPhase: whether the tone is playing is a parameter; `startTone`, `stopTone` and the audio context are not modelled.
- ElectronRenderer.SetTechnique: the technique-name label is not modelled, so the built-in's `name` an inherited key writes there at line 166 does not appear in the state.
- WordpressWidget.Click: `Widget` has one pending timeout, the corrected behaviour. The as-written second tick chain after an early click is modelled by `TimerStep` and recorded under Findings.
- RubyCli.Choose: `gets` returning nil at end of input raises in the code; the model takes a line to be present.
- CppCli.ReadChoice: when no character can be read, `choice` stays uninitialised and its value is indeterminate. The model returns None and picks no table.
- WordpressWidget.Fire: `idx` is a JavaScript number; past 2^53 increments stop being exact, and the model's unbounded integer does not show that.
- The Rust test that a `Phase` keeps the name and duration it was built with holds by construction of the datatype and has no lemma of its own.
- The Shopify component's `phaseDurations` field is never read by its loop, which uses 4000 ms everywhere. The model keeps only the constant.
- AndroidScreen.TablesAgree: the colours are kept as 32-bit ARGB integers and are not linked to the Swift hex parser.
- The Angular template, the transform strings of the framework front ends and the vanilla `announce` calls are not modelled.
- Patterns.Square: requires speed ≠ 0. With speed 0 the code divides by zero and computes with Infinity and NaN, which reals do not represent. Negative speeds are modelled.
- Patterns.Triangle: requires speed ≠ 0, for the same reason as the square pattern. Negative speeds are modelled.
- Patterns.SquarePeriodic: the periodicity, symmetry and mark lemmas are stated for speed > 0 only; the negative-speed behaviour is stated by `Square`, `Triangle` and `NegativeSpeedLeavesRange`.
- Animation.AnimateValue: requires that no division by a zero duration happens. The code would return NaN or Infinity there.
- PythonCli.Progress: requires a positive duration, which every table supplies. Elapsed time is a real, not a float.
- The '4-7-8' technique appears only in test files and is not modelled.
- Files with no modellable core are left out: the Electron main process, the Spring Boot controller, the Drupal and Moodle blocks, the Android widget provider, the React Native box exercise, the settings modal and the end-to-end browser tests.

## Findings

| source | as written | input that shows it | evidently intended | confidence | as-written member | corrected member |
|---|---|---|---|---|---|---|
| breathing-animation/frontend/p5-sketch/sketch.js:106-118 | `currentPhase` is read before the phase advances, so the frame that advances draws the finished phase at progress 0 | box breathing from the start, frame at 4001 ms: the inhale that ended at scale 1.5 is drawn at 1.0 for one frame before the hold's 1.5 | draw the phase that is current after the advance, so the scale never jumps | medium, not executed | P5Sketch.DrawAsWrittenJumps | P5Sketch.DrawSeamless |
| breathing-animation/frontend/react/BreathingVisualizer.jsx:130-171 | the index is reset to 0 by an effect that runs after the render for the new technique, so that render indexes the new table with the old index | alternate-nostril after two phases (index 2), then diaphragmatic: `phases[2]` of a two-phase table is undefined and `phase.duration` throws | reset the index together with the technique, in the same update | high, not executed | ReactVisualizer.SwitchCrashes | ReactVisualizer.NeverCrashes |
| breathing-animation/frontend/web-components/breathing-component.js:54-55 | the allowlist test `if (TECHNIQUES[newValue])` is a property read, so it is truthy for names inherited from `Object.prototype` as well as for the three own keys | `technique="constructor"` on a connected, rendered element: line 55 stores "constructor", and `runAnimation` throws at line 144 because `technique.phases` is undefined | accept own keys only (`Object.hasOwn`), so every other value falls back to box | high, not executed | WebComponent.InheritedNameCrashes | WebComponent.AttributeAlwaysKnown |
| breathing-animation/backend/wordpress/mindful-breathing/mindful-breathing.php:63-111 | the start-up `setTimeout(tick, 100)` at line 111 is not stored in `timeoutId`, which is still null, so a click before it fires cancels nothing | a technique button clicked within 100 ms of the widget loading: the click's `tick` and the start-up `tick` each start a chain, every later click cancels only the latest timer, and `idx` advances twice per phase from then on | store the start-up timer in `timeoutId` (or cancel it on click), so one chain runs | medium, not executed | WordpressWidget.EarlyClickTwoChains | WordpressWidget.OneChainAlways |

=== FILE: android_screen.dfy ===
/**
 * The Android Compose screen: the technique picked by its display name,
 * the three tables (colours as ARGB integers), and the coroutine loop
 * that copies each phase record into the screen state and waits for its
 * duration. Durations are milliseconds.
 */
module AndroidScreen {
  import Techniques
  import Cycle

  datatype AndroidPhase = AndroidPhase(name: string, durationMillis: nat, color: int, scale: real)

  const Green: int := 0xFF34D399
  const Blue: int := 0xFF60A5FA
  const Rose: int := 0xFFFB7185

  const BoxPhases: seq<AndroidPhase> := [
    AndroidPhase("Inhale", 4000, Green, 1.5), AndroidPhase("Hold", 4000, Blue, 1.5),
    AndroidPhase("Exhale", 4000, Rose, 1.0), AndroidPhase("Hold", 4000, Blue, 1.0)]
  const DiaphragmaticPhases: seq<AndroidPhase> := [
    AndroidPhase("Inhale", 5000, Green, 1.5), AndroidPhase("Exhale", 5000, Rose, 1.0)]
  const AlternatePhases: seq<AndroidPhase> := [
    AndroidPhase("Inhale Left", 4000, Green, 1.5), AndroidPhase("Hold", 4000, Blue, 1.5),
    AndroidPhase("Exhale Right", 4000, Rose, 1.0), AndroidPhase("Hold", 4000, Blue, 1.0),
    AndroidPhase("Inhale Right", 4000, Green, 1.5), AndroidPhase("Hold", 4000, Blue, 1.5),
    AndroidPhase("Exhale Left", 4000, Rose, 1.0), AndroidPhase("Hold", 4000, Blue, 1.0)]

  /** The `when (selectedTechnique)`: "Diaphragmatic", "Alternate", or box for anything else. */
  function PhasesFor(technique: string): (ps: seq<AndroidPhase>)
    ensures technique == "Diaphragmatic" <==> ps == DiaphragmaticPhases
    ensures technique == "Alternate" <==> ps == AlternatePhases
    ensures technique != "Diaphragmatic" && technique != "Alternate" <==> ps == BoxPhases
  {
    match technique
    case "Diaphragmatic" => DiaphragmaticPhases
    case "Alternate" => AlternatePhases
    case _ => BoxPhases
  }

  function Plain(t: seq<AndroidPhase>): (ps: seq<Techniques.Phase>)
    ensures |ps| == |t|
    ensures forall i :: 0 <= i < |t| ==> ps[i] == Techniques.Phase(t[i].name, t[i].durationMillis)
  {
    seq(|t|, i requires 0 <= i < |t| => Techniques.Phase(t[i].name, t[i].durationMillis))
  }

  /** The ARGB colour of each kind of phase. */
  function KindArgb(k: Techniques.Kind): int {
    match k
    case Inhale => Green
    case Hold => Blue
    case Exhale => Rose
  }

  /**
   * The screen's tables are the shared ones in milliseconds, each phase in
   * its kind's colour; alternate-nostril breathing repeats the box
   * breathing scales twice, growing on each inhale and its hold.
   */
  lemma TablesAgree()
    ensures Plain(BoxPhases) == Techniques.BoxPhases(1000)
    ensures Plain(DiaphragmaticPhases) == Techniques.DiaphragmaticPhases(1000)
    ensures Plain(AlternatePhases) == Techniques.AlternatePhases(1000)
    ensures forall i :: 0 <= i < |BoxPhases| ==> BoxPhases[i].color == KindArgb(Techniques.BoxKinds[i])
    ensures forall i :: 0 <= i < |AlternatePhases| ==> AlternatePhases[i].color == KindArgb(Techniques.AlternateKinds[i])
    ensures forall i :: 0 <= i < |AlternatePhases| ==> AlternatePhases[i].scale == BoxPhases[i % 4].scale
  {
    forall i | 0 <= i < |AlternatePhases|
      ensures AlternatePhases[i].scale == BoxPhases[i % 4].scale
    {
      assert i == 0 || i == 1 || i == 2 || i == 3 || i == 4 || i == 5 || i == 6 || i == 7;
    }
  }

  /** The state one loop step writes: phase text, scale target, colour target and tween duration. */
  datatype Screen = Screen(phase: string, scaleTarget: real, colorTarget: int, currentDuration: nat)

  /** One step of the loop: every field comes from the same phase record. */
  function Show(p: AndroidPhase): (s: Screen)
    ensures s.phase == p.name && s.scaleTarget == p.scale && s.colorTarget == p.color && s.currentDuration == p.durationMillis
  {
    Screen(p.name, p.scale, p.color, p.durationMillis)
  }

  /** Reading the record back from the screen: nothing of the phase is lost or mixed with another. */
  function Record(s: Screen): AndroidPhase {
    AndroidPhase(s.phase, s.currentDuration, s.colorTarget, s.scaleTarget)
  }

  lemma ShowRoundTrip(p: AndroidPhase)
    ensures Record(Show(p)) == p
  {
  }

  /**
   * The loop run for `steps` phases: the screen after each step and the
   * delay that follows it, restarting at the first phase after the last.
   */
  method RunLoop(technique: string, steps: nat) returns (screens: seq<Screen>, delays: seq<nat>)
    ensures |screens| == steps && |delays| == steps
    ensures forall k :: 0 <= k < steps ==> var p := PhasesFor(technique)[k % |PhasesFor(technique)|];
      screens[k] == Show(p) && delays[k] == p.durationMillis
  {
    var phases := PhasesFor(technique);
    assert |phases| > 0;
    screens, delays := RunTable(phases, steps);
  }

  /** The loop over a non-empty table: step `k` shows phase `k mod n` and waits its duration. */
  method RunTable(phases: seq<AndroidPhase>, steps: nat) returns (screens: seq<Screen>, delays: seq<nat>)
    requires |phases| > 0
    ensures |screens| == steps && |delays| == steps
    ensures forall k :: 0 <= k < steps ==>
      screens[k] == Show(phases[k % |phases|]) && delays[k] == phases[k % |phases|].durationMillis
  {
    var n := |phases|;
    screens, delays := [], [];
    var i := 0;
    var k := 0;
    while k < steps
      invariant 0 <= k <= steps && 0 <= i < n
      invariant i == k % n
      invariant |screens| == k && |delays| == k
      invariant forall j :: 0 <= j < k ==> screens[j] == Show(phases[j % n])
      invariant forall j :: 0 <= j < k ==> delays[j] == phases[j % n].durationMillis
    {
      var p := phases[i];
      screens, delays := screens + [Show(p)], delays + [p.durationMillis];
      Cycle.ModSucc(k, n);
      i := Cycle.Next(i, n);
      k := k + 1;
    }
  }

}

=== FILE: angular_visualizer.dfy ===
/**
 * The Angular visualiser component: `selectTechnique` with its same-key
 * and allowlist guards, the self-rescheduling `runPhase`, the technique
 * getter's fallback to box breathing and the tone chosen for a phase. The
 * table is the Electron renderer's. Durations are milliseconds.
 */
module AngularVisualizer {
  import opened Wrappers
  import ElectronRenderer
  import Techniques
  import Cycle
  import Shapes

  /** The component's fields: selected key and shape, phase index, pending timer delay, the tone's last ramp. */
  datatype Component = Component(selectedKey: string, shape: string, index: nat,
                                 timer: Option<nat>, tone: Option<ElectronRenderer.Ramp>)

  /** The `currentTechnique` getter: `techniques[selectedKey] || techniques['box']`. */
  function Current(c: Component): (ps: seq<ElectronRenderer.ElectronPhase>)
    ensures |ps| > 0
    ensures ElectronRenderer.Lookup(c.selectedKey).Some? ==> ps == ElectronRenderer.Lookup(c.selectedKey).value.phases
    ensures ElectronRenderer.Lookup(c.selectedKey).None? ==> ps == ElectronRenderer.BoxTable
  {
    match ElectronRenderer.Lookup(c.selectedKey)
    case Some(t) => t.phases
    case None => ElectronRenderer.BoxTable
  }

  /** The index points into the current technique. */
  predicate Valid(c: Component) {
    c.index < |Current(c)|
  }

  /** The `currentPhase` getter. */
  function CurrentPhase(c: Component): ElectronRenderer.ElectronPhase
    requires Valid(c)
  {
    Current(c)[c.index]
  }

  /** `borderRadius`: the shared shape mapping. */
  function BorderRadius(c: Component): (r: string)
    ensures c.shape == "circle" <==> r == Shapes.Round
    ensures c.shape == "lotus" <==> r == Shapes.Petal
  {
    Shapes.BorderRadius(c.shape)
  }

  /**
   * `setPhaseTone` as seen from the component: the tone ramps by the
   * phase's kind while playing and unmuted, and is left alone otherwise.
   */
  function PhaseTone(c: Component, audible: bool, name: string): (r: Option<ElectronRenderer.Ramp>)
    ensures !audible ==> r == c.tone
    ensures audible ==> r == Some(ElectronRenderer.KindRamp(Techniques.KindOf(name)))
  {
    if audible then Some(ElectronRenderer.KindRamp(Techniques.KindOf(name))) else c.tone
  }

  /** `runPhase`: sound the current phase and schedule the next after its duration. */
  function RunPhase(c: Component, audible: bool): (d: Component)
    requires Valid(c)
    ensures Valid(d) && d.selectedKey == c.selectedKey && d.index == c.index && d.shape == c.shape
    ensures d.timer == Some(CurrentPhase(c).duration)
    ensures d.tone == PhaseTone(c, audible, CurrentPhase(c).name)
  {
    var p := CurrentPhase(c);
    c.(timer := Some(p.duration), tone := PhaseTone(c, audible, p.name))
  }

  /** The timeout fires: the index moves on cyclically and the next phase runs. */
  function Fire(c: Component, audible: bool): (d: Component)
    requires Valid(c)
    ensures Valid(d) && d.selectedKey == c.selectedKey
    ensures d.index == Cycle.Next(c.index, |Current(c)|)
  {
    RunPhase(c.(index := Cycle.Next(c.index, |Current(c)|)), audible)
  }

  /**
   * `selectTechnique(key)`: the current key does nothing, a key outside the
   * table does nothing, and any other key is taken with the index reset to
   * 0, the old timer cleared and the first phase run.
   */
  function SelectTechnique(c: Component, key: string, audible: bool): (d: Component)
    requires Valid(c)
    ensures Valid(d)
    ensures key == c.selectedKey || ElectronRenderer.Lookup(key).None? ==> d == c
    ensures key != c.selectedKey && ElectronRenderer.Lookup(key).Some? ==>
      d.selectedKey == key && d.index == 0 && d.shape == c.shape &&
      d.timer == Some(ElectronRenderer.Lookup(key).value.phases[0].duration)
  {
    if c.selectedKey == key then c
    else if ElectronRenderer.Lookup(key).Some? then
      RunPhase(c.(selectedKey := key, index := 0, timer := None), audible)
    else c
  }

  /**
   * `selectTechnique(key)` as written. Its test `this.techniques[key]` is a
   * property read, so an inherited property name passes it as well as an
   * own key. Such a name is stored with the index reset and the timer
   * cleared, and `runPhase` then throws: the `currentTechnique` getter
   * returns the built-in found under the name, which has no `phases`. For
   * every other key this is `SelectTechnique`.
   */
  function SelectTechniqueAsWritten(c: Component, key: string, audible: bool): (r: Result<Component, Component>)
    requires Valid(c)
    ensures key !in Techniques.InheritedNames ==> r == Ok(SelectTechnique(c, key, audible))
    ensures key in Techniques.InheritedNames && key != c.selectedKey ==>
      r == Err(c.(selectedKey := key, index := 0, timer := None))
  {
    if c.selectedKey == key then Ok(c)
    else if ElectronRenderer.Lookup(key).Some? then Ok(RunPhase(c.(selectedKey := key, index := 0, timer := None), audible))
    else if key in Techniques.InheritedNames then Err(c.(selectedKey := key, index := 0, timer := None))
    else Ok(c)
  }

  /**
   * The component as constructed and initialised: box breathing, circle,
   * phase 0 running. `ngOnInit` runs the first phase before it starts the
   * tone, so `setPhaseTone` finds nothing playing and phase 0 gets no ramp.
   */
  function Init(): (c: Component)
    ensures Valid(c) && c.selectedKey == "box" && c.index == 0 && c.shape == "circle"
    ensures c.timer == Some(ElectronRenderer.BoxTable[0].duration)
    ensures c.tone == None
  {
    RunPhase(Component("box", "circle", 0, None, None), false)
  }

  /** `k` timer firings. */
  function Fires(c: Component, k: nat, audible: bool): (d: Component)
    requires Valid(c)
    ensures Valid(d) && d.selectedKey == c.selectedKey
    decreases k
  {
    if k == 0 then c else Fires(Fire(c, audible), k - 1, audible)
  }

  /** After `k` firings the component plays phase `(i + k) mod n` of the same technique. */
  lemma {:induction false} FiresCycle(c: Component, k: nat, audible: bool)
    requires Valid(c)
    ensures Fires(c, k, audible).index == Cycle.After(c.index, |Current(c)|, k)
    ensures Fires(c, k, audible).index == (c.index + k) % |Current(c)|
    decreases k
  {
    var n := |Current(c)|;
    if k > 0 {
      FiresCycle(Fire(c, audible), k - 1, audible);
      Cycle.AfterShift(c.index, n, k);
    }
    Cycle.AfterIsModular(c.index, n, k);
  }

  /** Selecting the same technique twice is selecting it once. */
  lemma SelectIdempotent(c: Component, key: string, audible: bool)
    requires Valid(c)
    ensures SelectTechnique(SelectTechnique(c, key, audible), key, audible) ==
      SelectTechnique(c, key, audible)
  {
  }
}

=== FILE: animation.dfy ===
/**
 * Interpolation and sampling helpers of the web front end: a value moved
 * linearly from a start to an end over a duration, and a pattern sampled
 * once per whole second.
 */
module Animation {
  import opened RealArith

  /**
   * `animateValue`: the end value once the duration is reached, otherwise
   * the linear interpolation `initial + (final - initial) * current / duration`.
   * Only the interpolating branch divides, so a zero duration is allowed
   * whenever the current time has already reached it.
   */
  function AnimateValue(initial: real, final: real, duration: real, current: real): (r: real)
    requires current >= duration || duration != 0.0
    ensures current >= duration ==> r == final
    ensures duration > 0.0 && current == 0.0 ==> r == initial
    ensures 0.0 <= current < duration && initial <= final ==> initial <= r <= final
    ensures 0.0 <= current < duration && final <= initial ==> final <= r <= initial
  {
    if current >= duration then final
    else
      InterpolationBounds(initial, final, duration, current);
      initial + (final - initial) * current / duration
  }

  /** Before the end, the interpolated value lies between the start and end values. */
  lemma InterpolationBounds(initial: real, final: real, duration: real, current: real)
    requires duration != 0.0
    ensures 0.0 <= current < duration && initial <= final ==>
      initial <= initial + (final - initial) * current / duration <= final
    ensures 0.0 <= current < duration && final <= initial ==>
      final <= initial + (final - initial) * current / duration <= initial
  {
    if 0.0 <= current < duration {
      var f := current / duration;
      MulLeNonneg(0.0, current, 1.0 / duration);
      MulLeNonneg(current, duration, 1.0 / duration);
      assert 0.0 <= f <= 1.0;
      assert (final - initial) * current / duration == (final - initial) * f;
      if initial <= final {
        MulLeNonneg(0.0, f, final - initial);
        MulLeNonneg(f, 1.0, final - initial);
      } else {
        MulLeNonneg(0.0, f, initial - final);
        MulLeNonneg(f, 1.0, initial - final);
        assert (final - initial) * f == -((initial - final) * f);
      }
    }
  }

  lemma MulLeNonneg(x: real, y: real, m: real)
    requires x <= y && m >= 0.0
    ensures x * m <= y * m
    ensures m * x <= m * y
  {
    assert y * m - x * m == (y - x) * m;
  }

  /** The interpolated value moves monotonically toward the end value as time goes on. */
  lemma AnimateMonotone(initial: real, final: real, duration: real, t1: real, t2: real)
    requires duration > 0.0 && 0.0 <= t1 <= t2
    ensures initial <= final ==>
      AnimateValue(initial, final, duration, t1) <= AnimateValue(initial, final, duration, t2)
    ensures final <= initial ==>
      AnimateValue(initial, final, duration, t2) <= AnimateValue(initial, final, duration, t1)
  {
    if t2 < duration {
      InteriorMonotone(initial, final, duration, t1, t2);
    }
  }

  /** Before the end the interpolation moves monotonically from the start value toward the end value. */
  lemma InteriorMonotone(initial: real, final: real, duration: real, t1: real, t2: real)
    requires duration > 0.0 && 0.0 <= t1 <= t2 < duration
    ensures initial <= final ==>
      initial + (final - initial) * t1 / duration <= initial + (final - initial) * t2 / duration
    ensures final <= initial ==>
      initial + (final - initial) * t2 / duration <= initial + (final - initial) * t1 / duration
  {
    var a := final - initial;
    var f1, f2 := t1 / duration, t2 / duration;
    DivLe(t1, t2, duration);
    MulDiv(a, t1, duration);
    MulDiv(a, t2, duration);
    if a >= 0.0 {
      MulLeNonneg(f1, f2, a);
    } else {
      MulLeNonneg(f1, f2, -a);
      assert a * f1 == -((-a) * f1);
      assert a * f2 == -((-a) * f2);
    }
  }

  /**
   * `generateBreathingAnimation`: the pattern sampled at every whole second
   * `0, 1, …` below the duration; nothing for a duration of zero or less.
   */
  method GenerateBreathingAnimation(pattern: (real, real) -> real, speed: real, duration: int)
    returns (frames: seq<real>)
    ensures |frames| == if duration > 0 then duration else 0
    ensures forall i :: 0 <= i < |frames| ==> frames[i] == pattern(i as real, speed)
  {
    frames := [];
    var i := 0;
    while i < duration
      invariant 0 <= i && (duration > 0 ==> i <= duration) && (duration <= 0 ==> i == 0)
      invariant |frames| == i
      invariant forall j :: 0 <= j < i ==> frames[j] == pattern(j as real, speed)
    {
      frames := frames + [pattern(i as real, speed)];
      i := i + 1;
    }
  }
}

=== FILE: audio.dfy ===
/**
 * The mute switch of the audio controllers. Only the flag and the gain
 * value it writes are modelled; oscillators and ramps are not.
 */
module Audio {
  import opened Wrappers

  /** Whether sound is muted, whether a tone is playing, and the gain node's value if one exists. */
  datatype Controller = Controller(muted: bool, playing: bool, gain: Option<real>)

  const UnmutedGain: real := 0.1

  /**
   * `toggleMute` of the desktop and framework front ends: flip the flag and,
   * when a gain node exists, write 0 when muting and 0.1 when unmuting.
   * The new flag is returned.
   */
  function ToggleMute(c: Controller): (r: (Controller, bool))
    ensures r.0.muted == !c.muted && r.1 == r.0.muted
    ensures r.0.playing == c.playing
    ensures c.gain.None? ==> r.0.gain.None?
    ensures c.gain.Some? ==> r.0.gain == Some(if r.0.muted then 0.0 else UnmutedGain)
  {
    var m := !c.muted;
    (c.(muted := m, gain := if c.gain.Some? then Some(if m then 0.0 else UnmutedGain) else None), m)
  }

  /**
   * `toggleMute` of the vanilla front end: muting silences an existing gain
   * node; unmuting restores 0.1 only while a tone is playing.
   */
  function ToggleMuteWhilePlaying(c: Controller): (r: (Controller, bool))
    ensures r.0.muted == !c.muted && r.1 == r.0.muted
    ensures r.0.playing == c.playing
    ensures c.gain.None? ==> r.0.gain.None?
    ensures c.gain.Some? && r.0.muted ==> r.0.gain == Some(0.0)
    ensures c.gain.Some? && !r.0.muted ==> r.0.gain == if c.playing then Some(UnmutedGain) else c.gain
  {
    var m := !c.muted;
    if m then
      (c.(muted := m, gain := if c.gain.Some? then Some(0.0) else None), m)
    else
      (c.(muted := m, gain := if c.gain.Some? && c.playing then Some(UnmutedGain) else c.gain), m)
  }

  /** A muted controller with a gain node is silent. */
  predicate Silent(c: Controller) {
    c.muted && c.gain.Some? ==> c.gain.value == 0.0
  }

  /** Both switches keep a muted controller silent, and toggling twice restores the flag. */
  lemma ToggleKeepsSilent(c: Controller)
    ensures Silent(ToggleMute(c).0) && Silent(ToggleMuteWhilePlaying(c).0)
    ensures ToggleMute(ToggleMute(c).0).0.muted == c.muted
    ensures ToggleMuteWhilePlaying(ToggleMuteWhilePlaying(c).0).0.muted == c.muted
  {
  }

  /** Toggling twice with a gain node leaves the gain at the level matching the flag. */
  lemma ToggleTwice(c: Controller)
    requires c.gain.Some?
    ensures ToggleMute(ToggleMute(c).0).0 == c.(gain := Some(if c.muted then 0.0 else UnmutedGain))
  {
  }
}

=== FILE: cli_ports.dfy ===
/**
 * The command-line ports. Each reads one line (or one character), picks a
 * table from it with box breathing as the default, and then prints the
 * phases round after round; the endless loop itself is `Cycle.RunRounds`.
 * Python, Rust and Ruby count seconds; Go, Java and C++ milliseconds.
 */

/** The ANSI colours the Go and Ruby ports print a phase in. */
module TerminalColor {
  import Techniques

  datatype Color = Green | Blue | Red

  const Reset := "\U{1B}[0m"

  function Code(c: Color): (s: string)
    ensures |s| == 5 && s[0] == '\U{1B}' && s[1] == '[' && s[4] == 'm'
  {
    match c
    case Green => "\U{1B}[32m"
    case Blue => "\U{1B}[34m"
    case Red => "\U{1B}[31m"
  }

  /** The colour the ports give each kind of phase: inhale green, hold blue, exhale red. */
  function KindColor(k: Techniques.Kind): (c: Color)
    ensures k == Techniques.Inhale <==> c == Green
    ensures k == Techniques.Exhale <==> c == Red
    ensures k == Techniques.Hold <==> c == Blue
  {
    match k
    case Inhale => Green
    case Hold => Blue
    case Exhale => Red
  }

  /** The three codes differ from each other and from the reset code, so the colour can be read back. */
  lemma CodesDistinct(a: Color, b: Color)
    ensures Code(a) == Code(b) <==> a == b
    ensures Code(a) != Reset
  {
  }
}

/** The Python port: the choice picks a table in seconds, and a 20-cell bar shows progress through a phase. */
module PythonCli {
  import opened Techniques
  import RealArith

  /** `'2'` is diaphragmatic, `'3'` alternate-nostril, anything else box breathing. */
  function Choose(choice: string): (ps: seq<Phase>)
    ensures choice == "2" <==> ps == DiaphragmaticPhases(1)
    ensures choice == "3" <==> ps == AlternatePhases(1)
    ensures choice != "2" && choice != "3" <==> ps == BoxPhases(1)
  {
    if choice == "2" then DiaphragmaticPhases(1)
    else if choice == "3" then AlternatePhases(1)
    else BoxPhases(1)
  }

  const Width: nat := 20

  /** `int((elapsed / duration) * 20)`: Python's `int` truncates toward zero. */
  function Progress(elapsed: real, duration: real): (p: int)
    requires duration > 0.0
    ensures 0.0 <= elapsed ==> 0 <= p
    ensures 0.0 <= elapsed <= duration ==> p <= Width
    ensures 0.0 <= elapsed < duration ==> p < Width
  {
    ScaledBounds(elapsed, duration);
    RealArith.Trunc(elapsed / duration * 20.0)
  }

  /** Where the scaled fraction lies, by the elapsed time's place in the phase. */
  lemma ScaledBounds(elapsed: real, duration: real)
    requires duration > 0.0
    ensures 0.0 <= elapsed ==> 0.0 <= elapsed / duration * 20.0
    ensures 0.0 <= elapsed <= duration ==> elapsed / duration * 20.0 <= 20.0
    ensures 0.0 <= elapsed < duration ==> elapsed / duration * 20.0 < 20.0
  {
    var y := elapsed / duration;
    RealArith.DivMul(elapsed, duration);
    if 0.0 <= elapsed <= duration {
      RealArith.DivUnit(elapsed, duration);
      if elapsed < duration && y >= 1.0 {
        RealArith.MulLe(1.0, y, duration);
      }
    } else if elapsed > duration && y < 0.0 {
      RealArith.MulLt(y, 0.0, duration);
    }
  }

  /** A later moment within a phase never shows less progress. */
  lemma ProgressMonotone(e1: real, e2: real, duration: real)
    requires duration > 0.0 && 0.0 <= e1 <= e2
    ensures Progress(e1, duration) <= Progress(e2, duration)
  {
    RealArith.DivLe(e1, e2, duration);
    ScaledBounds(e1, duration);
  }

  /** Python's `c * n`: `n` copies of `c`, and the empty string for `n <= 0`. */
  function Repeat(c: char, n: int): (r: string)
    ensures |r| == if n <= 0 then 0 else n
    ensures forall i :: 0 <= i < |r| ==> r[i] == c
    decreases if n <= 0 then 0 else n
  {
    if n <= 0 then [] else [c] + Repeat(c, n - 1)
  }

  const Filled := '█'

  /** `"█" * progress + "-" * (20 - progress)`. */
  function Bar(progress: int): (r: string)
    ensures 0 <= progress <= Width ==> |r| == Width
    ensures progress > Width ==> |r| == progress
  {
    Repeat(Filled, progress) + Repeat('-', Width - progress)
  }

  /** The number of filled cells at the start of a bar. */
  function FilledCells(s: string): (n: nat)
    ensures n <= |s|
    ensures forall i :: 0 <= i < n ==> s[i] == Filled
    ensures n < |s| ==> s[n] != Filled
  {
    if s == [] || s[0] != Filled then 0 else 1 + FilledCells(s[1..])
  }

  /** The filled cells read back the progress, and every later cell is a dash. */
  lemma BarRoundTrip(progress: int)
    requires 0 <= progress <= Width
    ensures FilledCells(Bar(progress)) == progress
    ensures forall i :: progress <= i < Width ==> Bar(progress)[i] == '-'
  {
    var b := Bar(progress);
    assert forall i :: 0 <= i < progress ==> b[i] == Repeat(Filled, progress)[i];
    assert forall i :: progress <= i < Width ==> b[i] == Repeat('-', Width - progress)[i - progress];
    FilledPrefix(b, progress);
  }

  lemma {:induction false} FilledPrefix(s: string, n: nat)
    requires n <= |s| && (forall i :: 0 <= i < n ==> s[i] == Filled) && (n < |s| ==> s[n] != Filled)
    ensures FilledCells(s) == n
    decreases n
  {
    if n > 0 {
      assert forall i :: 0 <= i < n - 1 ==> s[1..][i] == s[i + 1];
      FilledPrefix(s[1..], n - 1);
    }
  }

  /** The box table the tests expect: every phase four seconds, sixteen a cycle. */
  lemma BoxCycle()
    ensures forall i :: 0 <= i < |Choose("1")| ==> Choose("1")[i].duration == 4
    ensures Total(Choose("1")) == 16
  {
    CycleLengths(1);
  }
}

/** The Go port: the line is whitespace-trimmed, the table is in milliseconds, and the colour comes from the name's prefix. */
module GoCli {
  import opened Techniques
  import opened Text
  import TerminalColor

  /** `strings.TrimSpace`, then `"2"`, `"3"` or the box default. */
  function Choose(line: string): (ps: seq<Phase>)
    ensures Trim(line) == "2" <==> ps == DiaphragmaticPhases(1000)
    ensures Trim(line) == "3" <==> ps == AlternatePhases(1000)
    ensures Trim(line) != "2" && Trim(line) != "3" <==> ps == BoxPhases(1000)
  {
    var choice := Trim(line);
    if choice == "2" then DiaphragmaticPhases(1000)
    else if choice == "3" then AlternatePhases(1000)
    else BoxPhases(1000)
  }

  /** Surrounding spaces and the line's own newline do not change the choice. */
  lemma PaddedChoice(pre: string, c: string, post: string)
    requires forall i :: 0 <= i < |pre| ==> IsWhite(pre[i])
    requires forall i :: 0 <= i < |post| ==> IsWhite(post[i])
    requires c == "2" || c == "3"
    ensures Choose(pre + c + post) == Choose(c)
  {
    TrimPadded(pre, c, post);
    TrimTidy(c);
  }

  /** A prefix "Inhale" is green, otherwise a prefix "Exhale" red, anything else blue. */
  function ColorFor(name: string): (c: TerminalColor.Color)
    ensures c == TerminalColor.Green <==> StartsWith(name, "Inhale")
    ensures c == TerminalColor.Red <==> !StartsWith(name, "Inhale") && StartsWith(name, "Exhale")
  {
    if StartsWith(name, "Inhale") then TerminalColor.Green
    else if StartsWith(name, "Exhale") then TerminalColor.Red
    else TerminalColor.Blue
  }

  /** The prefix colouring is the prefix classifier followed by the kind's colour. */
  lemma ColorIsKindColor(name: string)
    ensures ColorFor(name) == TerminalColor.KindColor(PrefixKind(name))
  {
  }

  /** The box cycle lasts 16 000 ms, the four-second phases the tests expect. */
  lemma BoxCycle()
    ensures forall i :: 0 <= i < |Choose("1")| ==> Seconds(Choose("1")[i].duration) == 4
    ensures Total(Choose("1")) == 16 * 1000
  {
    TrimTidy("1");
    var ps := Choose("1");
    assert ps == BoxPhases(1000);
    CycleLengths(1000);
    forall i | 0 <= i < |ps|
      ensures Seconds(ps[i].duration) == 4
    {
      assert ps[i].duration == 4 * 1000;
      SecondsRoundTrip(4);
    }
  }
}

/** The Ruby gem: a table keyed "1" to "3" with a colour per phase, chosen from the chomped line. */
module RubyCli {
  import opened Wrappers
  import opened Text
  import Techniques
  import TerminalColor

  datatype RubyPhase = RubyPhase(name: string, duration: nat, color: TerminalColor.Color)
  datatype RubyTechnique = RubyTechnique(name: string, phases: seq<RubyPhase>)

  function Colored(names: seq<string>, kinds: seq<Techniques.Kind>, d: nat): (ps: seq<RubyPhase>)
    requires |names| == |kinds|
    ensures |ps| == |names|
    ensures forall i :: 0 <= i < |ps| ==> ps[i] == RubyPhase(names[i], d, TerminalColor.KindColor(kinds[i]))
  {
    seq(|names|, i requires 0 <= i < |names| => RubyPhase(names[i], d, TerminalColor.KindColor(kinds[i])))
  }

  const BoxTechnique := RubyTechnique("Box Breathing",
    [RubyPhase("Inhale", 4, TerminalColor.Green), RubyPhase("Hold", 4, TerminalColor.Blue),
     RubyPhase("Exhale", 4, TerminalColor.Red), RubyPhase("Hold", 4, TerminalColor.Blue)])
  const DiaphragmaticTechnique := RubyTechnique("Diaphragmatic Breathing",
    [RubyPhase("Inhale", 5, TerminalColor.Green), RubyPhase("Exhale", 5, TerminalColor.Red)])
  const AlternateTechnique := RubyTechnique("Alternate Nostril",
    [RubyPhase("Inhale Left", 4, TerminalColor.Green), RubyPhase("Hold", 4, TerminalColor.Blue),
     RubyPhase("Exhale Right", 4, TerminalColor.Red), RubyPhase("Hold", 4, TerminalColor.Blue),
     RubyPhase("Inhale Right", 4, TerminalColor.Green), RubyPhase("Hold", 4, TerminalColor.Blue),
     RubyPhase("Exhale Left", 4, TerminalColor.Red), RubyPhase("Hold", 4, TerminalColor.Blue)])

  /** The gem's table is the shared one in seconds, each phase in the colour of its kind. */
  lemma TablesAgree()
    ensures BoxTechnique.phases == Colored(Techniques.BoxNames, Techniques.BoxKinds, 4)
    ensures DiaphragmaticTechnique.phases == Colored(Techniques.DiaphragmaticNames, Techniques.DiaphragmaticKinds, 5)
    ensures AlternateTechnique.phases == Colored(Techniques.AlternateNames, Techniques.AlternateKinds, 4)
  {
  }

  /** `TECHNIQUES[choice]`. */
  function Lookup(key: string): (t: Option<RubyTechnique>)
    ensures t.Some? <==> key == "1" || key == "2" || key == "3"
  {
    if key == "1" then Some(BoxTechnique)
    else if key == "2" then Some(DiaphragmaticTechnique)
    else if key == "3" then Some(AlternateTechnique)
    else None
  }

  /** `TECHNIQUES[gets.chomp] || TECHNIQUES["1"]`. */
  function Choose(line: string): (t: RubyTechnique)
    ensures Lookup(Chomp(line)).Some? ==> t == Lookup(Chomp(line)).value
    ensures Lookup(Chomp(line)).None? ==> t == BoxTechnique
  {
    Lookup(Chomp(line)).GetOr(BoxTechnique)
  }

  /** The line terminator goes: "2\n" is diaphragmatic. */
  lemma ChompedChoice(line: string)
    requires line == "2\n"
    ensures Choose(line) == DiaphragmaticTechnique
  {
    assert line[|line| - 2..] != "\r\n";
    assert Chomp(line) == line[..1] == "2";
  }

  /** Only the line terminator goes: "2 \n" misses the table and falls back to box. */
  lemma PaddedChoiceFallsBack(line: string)
    requires line == "2 \n"
    ensures Lookup(Chomp(line)).None? && Choose(line) == BoxTechnique
  {
    assert line[|line| - 2..] != "\r\n";
    assert Chomp(line) == line[..2] == "2 ";
  }

  /** The line printed for a phase: carriage return, colour, text, reset, padding. */
  function Line(p: RubyPhase): (s: string)
    ensures |s| > 10
    ensures s[0] == '\r' && s[1..6] == TerminalColor.Code(p.color)
    ensures s[|s| - 3..] == "   " && s[|s| - 7..|s| - 3] == TerminalColor.Reset
  {
    var code := TerminalColor.Code(p.color);
    var body := "Phase: " + p.name + " (" + NatText(p.duration) + "s)";
    var s := "\r" + code + body + TerminalColor.Reset + "   ";
    assert s == "\r" + code + (body + TerminalColor.Reset + "   ");
    assert s == ("\r" + code + body) + TerminalColor.Reset + "   ";
    s
  }
}

/** The Rust port: the trimmed line picks a table in seconds. */
module RustCli {
  import opened Techniques
  import opened Text

  /** `match input.trim()`: `"2"`, `"3"`, or the box arm. */
  function Choose(line: string): (ps: seq<Phase>)
    ensures Trim(line) == "2" <==> ps == DiaphragmaticPhases(1)
    ensures Trim(line) == "3" <==> ps == AlternatePhases(1)
    ensures Trim(line) != "2" && Trim(line) != "3" <==> ps == BoxPhases(1)
  {
    match Trim(line)
    case "2" => DiaphragmaticPhases(1)
    case "3" => AlternatePhases(1)
    case _ => BoxPhases(1)
  }

  /** The line read with its newline selects as the bare digit does. */
  lemma NewlineIgnored(c: string)
    requires c == "2" || c == "3"
    ensures Choose(c + "\n") == Choose(c)
  {
    TrimPadded([], c, "\n");
    assert [] + c + "\n" == c + "\n";
    TrimTidy(c);
  }
}

/** The Java port: the line is matched exactly, and names and durations sit in parallel arrays. */
module JavaCli {
  import opened Techniques

  /** The `switch (choice)`: names and durations in milliseconds. */
  function Arrays(choice: string): (r: (seq<string>, seq<int>))
    ensures |r.0| == |r.1|
    ensures choice == "2" ==> r.0 == DiaphragmaticNames
    ensures choice == "3" ==> r.0 == AlternateNames
    ensures choice != "2" && choice != "3" ==> r.0 == BoxNames
  {
    match choice
    case "2" => (["Inhale", "Exhale"], [5000, 5000])
    case "3" => (["Inhale Left", "Hold", "Exhale Right", "Hold", "Inhale Right", "Hold", "Exhale Left", "Hold"],
                 [4000, 4000, 4000, 4000, 4000, 4000, 4000, 4000])
    case _ => (["Inhale", "Hold", "Exhale", "Hold"], [4000, 4000, 4000, 4000])
  }

  /** Zipping the two arrays gives the shared table in milliseconds; `"1"` and any unmatched line give box. */
  lemma ArraysAreTable(choice: string)
    ensures var (names, ds) := Arrays(choice);
      forall i :: 0 <= i < |names| ==> (ds[i] >= 0 &&
        Phase(names[i], ds[i]) == (if choice == "2" then DiaphragmaticPhases(1000)
                                  else if choice == "3" then AlternatePhases(1000) else BoxPhases(1000))[i])
  {
  }

  /** No trimming: a padded digit is not the digit. */
  lemma ExactMatch()
    ensures Arrays(" 2").0 == BoxNames && Arrays("2 ").0 == BoxNames && Arrays("2").0 == DiaphragmaticNames
  {
  }

  /**
   * The busy wait of one phase, with the clock advancing `step` ms per
   * `Thread.sleep(100)`: it ends at the first multiple of `step` that has
   * reached the duration.
   */
  method WaitPhase(duration: int, step: nat) returns (elapsed: nat, sleeps: nat)
    requires step > 0
    ensures elapsed >= duration
    ensures elapsed == sleeps * step
    ensures sleeps > 0 ==> elapsed - step < duration
  {
    elapsed, sleeps := 0, 0;
    while elapsed < duration
      invariant elapsed == sleeps * step
      invariant sleeps > 0 ==> elapsed - step < duration
      decreases duration - elapsed
    {
      elapsed, sleeps := elapsed + step, sleeps + 1;
    }
  }
}

/** The C++ port: one character is read, skipping leading whitespace, and picks a table in milliseconds. */
module CppCli {
  import opened Wrappers
  import opened Techniques

  /** The characters `std::isspace` accepts in the C locale. */
  predicate IsSpace(c: char) {
    c == ' ' || c == '\t' || c == '\n' || c == '\r' || c == '\U{B}' || c == '\U{C}'
  }

  /** `std::cin >> choice` for a `char`: the first non-space character; none at end of input. */
  function ReadChoice(input: string): (c: Option<char>)
    ensures c.None? <==> forall i :: 0 <= i < |input| ==> IsSpace(input[i])
    ensures c.Some? ==> !IsSpace(c.value)
    ensures c.Some? ==> exists i :: (0 <= i < |input| && input[i] == c.value &&
      forall j :: 0 <= j < i ==> IsSpace(input[j]))
  {
    if input == [] then None
    else if IsSpace(input[0]) then
      var r := ReadChoice(input[1..]);
      assert forall i :: 1 <= i < |input| ==> input[i] == input[1..][i - 1];
      if r.Some? then
        var k :| 0 <= k < |input[1..]| && input[1..][k] == r.value && forall j :: 0 <= j < k ==> IsSpace(input[1..][j]);
        assert input[k + 1] == r.value;
        r
      else r
    else Some(input[0])
  }

  /** The `switch (choice)`. */
  function Choose(choice: char): (ps: seq<Phase>)
    ensures choice == '2' <==> ps == DiaphragmaticPhases(1000)
    ensures choice == '3' <==> ps == AlternatePhases(1000)
    ensures choice != '2' && choice != '3' <==> ps == BoxPhases(1000)
  {
    match choice
    case '2' => DiaphragmaticPhases(1000)
    case '3' => AlternatePhases(1000)
    case _ => BoxPhases(1000)
  }

  /** Only the first character counts: "22" is diaphragmatic and "31" alternate-nostril. */
  lemma FirstCharOnly()
    ensures ReadChoice("22") == Some('2') && ReadChoice(" 31") == Some('3')
  {
  }
}

=== FILE: clock.dfy ===
/**
 * The `mm:ss` text of the session timers: whole minutes and the remaining
 * seconds, each rendered in decimal and zero-padded to at least two digits.
 */
module Clock {
  import opened Wrappers
  import opened Text

  /** Zero-padded decimal, as `n.toString().padStart(2, '0')`. */
  function Pad2(n: nat): (r: string)
    ensures |r| >= 2
    ensures AllDigits(r)
    ensures n < 100 ==> |r| == 2
  {
    PadStart(NatText(n), 2, '0')
  }

  /** Padding with zeros keeps the value of the digits. */
  lemma {:induction false} Pad2Value(n: nat)
    ensures DigitsValue(Pad2(n)) == n
  {
    NatTextRoundTrip(n);
    var s := NatText(n);
    if |s| < 2 {
      assert Pad2(n) == "0" + s;
      LeadingZero(s);
    }
  }

  /** Reads a timer text back into seconds: digits, a colon, then two digits; anything else is not a timer text. */
  function ParseClock(s: string): Option<nat> {
    if |s| >= 3 && AllDigits(s[..|s| - 3]) && s[|s| - 3] == ':' && AllDigits(s[|s| - 2..]) then
      Some(DigitsValue(s[..|s| - 3]) * 60 + DigitsValue(s[|s| - 2..]))
    else None
  }

  /** Parsing splits a timer text at its colon. */
  lemma ParseJoined(a: string, b: string, x: nat, y: nat)
    requires AllDigits(a) && AllDigits(b) && |b| == 2
    requires DigitsValue(a) == x && DigitsValue(b) == y
    ensures ParseClock(a + ":" + b) == Some(x * 60 + y)
  {
    var r := a + ":" + b;
    assert r[..|r| - 3] == a;
    assert r[|r| - 2..] == b;
  }

  /**
   * The timer text for `secs` seconds left: at least two digits of minutes,
   * a colon, then exactly two digits of seconds. It loses nothing: parsing it
   * gives back the seconds it was made from.
   */
  function ClockText(secs: nat): (r: string)
    ensures |r| >= 5 && r[|r| - 3] == ':'
    ensures ParseClock(r) == Some(secs)
  {
    var mins, rest := secs / 60, secs % 60;
    assert mins * 60 + rest == secs;
    Pad2Value(mins);
    Pad2Value(rest);
    ParseJoined(Pad2(mins), Pad2(rest), mins, rest);
    Pad2(mins) + ":" + Pad2(rest)
  }
}

=== FILE: countdowns.dfy ===
/**
 * Three React countdown components. Each keeps a number of seconds that an
 * interval lowers by one while the component is active, and effects that
 * run after each change. An interval firing is a discrete tick here, and
 * the effects a state change triggers are applied before the next event.
 */

/** The five-second box-breathing countdown: it stops at zero and resets to five. */
module BoxCountdown {
  datatype State = State(seconds: int, active: bool)

  const Initial := State(5, false)

  /**
   * The effects after a change: at zero the component deactivates; an
   * inactive component away from five is put back to five.
   */
  function Settle(s: State): (r: State)
    ensures s.seconds == 0 ==> !r.active
    ensures !r.active ==> r.seconds == 5
    ensures s.active && s.seconds != 0 ==> r == s
  {
    var s1 := if s.seconds == 0 then s.(active := false) else s;
    if !s1.active && s1.seconds != 5 then s1.(seconds := 5) else s1
  }

  datatype Event = Start | Reset | Tick

  /** The buttons set the flag; the interval, which exists only while active, lowers the count. */
  function Step(s: State, e: Event): (r: State)
    ensures e == Tick && !s.active ==> r == s
  {
    match e
    case Start => Settle(s.(active := true))
    case Reset => Settle(s.(active := false))
    case Tick => if s.active then Settle(s.(seconds := s.seconds - 1)) else s
  }

  /** The states the component can be in: resting at five, or counting with one to five seconds left. */
  predicate Reachable(s: State) {
    s == Initial || (s.active && 1 <= s.seconds <= 5)
  }

  lemma StepReachable(s: State, e: Event)
    requires Reachable(s)
    ensures Reachable(Step(s, e))
  {
  }

  function Run(s: State, es: seq<Event>): State
    decreases |es|
  {
    if es == [] then s else Run(Step(s, es[0]), es[1..])
  }

  /** Whatever the user and the interval do, the count stays between one and five or rests at five. */
  lemma {:induction false} RunReachable(s: State, es: seq<Event>)
    requires Reachable(s)
    ensures Reachable(Run(s, es))
    decreases |es|
  {
    if es != [] {
      StepReachable(s, es[0]);
      RunReachable(Step(s, es[0]), es[1..]);
    }
  }

  /** Five ticks after a start the countdown has hit zero and is back at rest. */
  lemma FullRound()
    ensures Run(Initial, [Start, Tick, Tick, Tick, Tick]) == State(1, true)
    ensures Run(Initial, [Start, Tick, Tick, Tick, Tick, Tick]) == Initial
  {
  }

  /** The phase the component computes from the seconds left, five seconds a phase. */
  function PhaseOf(seconds: int): (p: string)
    ensures seconds <= 5 <==> p == "inhale"
    ensures 5 < seconds <= 10 <==> p == "hold"
    ensures 10 < seconds <= 15 <==> p == "exhale"
    ensures 15 < seconds <==> p == "hold2"
  {
    if seconds == 5 then "inhale"
    else if seconds == 0 then "inhale"
    else if seconds <= 0 then "inhale"
    else if seconds <= 5 then "inhale"
    else if seconds <= 5 + 5 then "hold"
    else if seconds <= 5 + 5 + 5 then "exhale"
    else "hold2"
  }

  /** Since the count never exceeds five, the component only ever shows the inhale phase. */
  lemma AlwaysInhale(es: seq<Event>)
    ensures PhaseOf(Run(Initial, es).seconds) == "inhale"
  {
    RunReachable(Initial, es);
  }
}

/** The diaphragmatic countdown: like the box one but with no stop at zero. */
module DiaphragmaticCountdown {
  datatype State = State(seconds: int, active: bool)

  const Initial := State(5, false)

  /** The effect after a change: an inactive component away from five is put back to five. */
  function Settle(s: State): (r: State)
    ensures !r.active ==> r.seconds == 5
    ensures s.active ==> r == s
  {
    if !s.active && s.seconds != 5 then s.(seconds := 5) else s
  }

  datatype Button = StartButton | ResetButton

  /** Start while time is left, Reset once the count is at or below zero. */
  function ButtonFor(seconds: int): (b: Button)
    ensures b == StartButton <==> seconds > 0
  {
    if seconds > 0 then StartButton else ResetButton
  }

  /** Pressing the button shown: Start activates, Reset deactivates and so restores five. */
  function Press(s: State): (r: State)
    ensures ButtonFor(s.seconds) == StartButton ==> r == s.(active := true)
    ensures ButtonFor(s.seconds) == ResetButton ==> r == State(5, false)
  {
    match ButtonFor(s.seconds)
    case StartButton => Settle(s.(active := true))
    case ResetButton => Settle(s.(active := false))
  }

  /** The interval firing while active. */
  function Tick(s: State): (r: State)
    requires s.active
    ensures r == State(s.seconds - 1, true)
  {
    Settle(s.(seconds := s.seconds - 1))
  }

  function Ticks(s: State, k: nat): (r: State)
    requires s.active
    ensures r.active
    decreases k
  {
    if k == 0 then s else Ticks(Tick(s), k - 1)
  }

  /** Nothing stops the count: `k` ticks after a start it reads `5 - k`, below zero from the sixth tick on. */
  lemma {:induction false} CountsPastZero(s: State, k: nat)
    requires s.active
    ensures Ticks(s, k) == State(s.seconds - k, true)
    decreases k
  {
    if k > 0 {
      CountsPastZero(Tick(s), k - 1);
    }
  }

  /** The bar's width in percent: `seconds / 5 * 100`. */
  function Width(seconds: int): (w: real)
    ensures 0 <= seconds <= 5 ==> 0.0 <= w <= 100.0
    ensures seconds < 0 ==> w < 0.0
    ensures w == 20.0 * seconds as real
  {
    seconds as real / 5.0 * 100.0
  }

  /** Six ticks after a start the bar is at minus twenty percent and the Reset button shows. */
  lemma SixTicks()
    ensures var s := Ticks(Press(Initial), 6); s.seconds == -1 && Width(s.seconds) == -20.0 && ButtonFor(s.seconds) == ResetButton
  {
    CountsPastZero(Press(Initial), 6);
  }

  /** Reset from any count puts the component back at rest. */
  lemma ResetRestores(s: State)
    requires s.seconds <= 0
    ensures Press(s) == Initial
  {
  }
}

/** The web timer: counts down once a second while positive and deactivates its parent at exactly zero. */
module Timer {
  /** The time left and whether the parent's `setIsActive(false)` has been called. */
  datatype State = State(timeLeft: int, deactivated: bool)

  /** The effect after a change of `timeLeft`: at zero the parent is deactivated; otherwise nothing. */
  function Effect(s: State): (r: State)
    ensures r.timeLeft == s.timeLeft
    ensures r.deactivated <==> s.deactivated || s.timeLeft == 0
  {
    if s.timeLeft == 0 then s.(deactivated := true) else s
  }

  /** Mounting with `seconds`: `timeLeft` starts there and the effect runs. */
  function Mount(seconds: int): (r: State)
    ensures r.timeLeft == seconds && (r.deactivated <==> seconds == 0)
  {
    Effect(State(seconds, false))
  }

  /** An interval is running exactly while time is left. */
  predicate Ticking(s: State) {
    s.timeLeft > 0
  }

  /** The interval fires: one second less, then the effect. */
  function Tick(s: State): (r: State)
    requires Ticking(s)
    ensures r.timeLeft == s.timeLeft - 1 && r.timeLeft >= 0
  {
    Effect(s.(timeLeft := s.timeLeft - 1))
  }

  function Ticks(s: State, k: nat): (r: State)
    requires k <= s.timeLeft
    decreases k
  {
    if k == 0 then s else Ticks(Tick(s), k - 1)
  }

  /** From a start of `n` seconds, after `k <= n` ticks `n - k` remain, and the parent is told exactly when zero is reached. */
  lemma {:induction false} CountsDown(s: State, k: nat)
    requires k <= s.timeLeft && (s.deactivated <==> s.timeLeft == 0)
    ensures Ticks(s, k) == State(s.timeLeft - k, s.timeLeft - k == 0)
    decreases k
  {
    if k > 0 {
      CountsDown(Tick(s), k - 1);
    }
  }

  /** A timer mounted with `n >= 0` seconds ends at zero with its parent deactivated; a negative start never ticks nor deactivates. */
  lemma Outcome(n: int)
    ensures n > 0 ==> Ticks(Mount(n), n) == State(0, true)
    ensures n < 0 ==> !Ticking(Mount(n)) && !Mount(n).deactivated
  {
    if n > 0 {
      CountsDown(Mount(n), n);
    }
  }
}

=== FILE: cycle.dfy ===
/**
 * Cycling through a technique's phases. Every front end keeps an index into
 * the current phase table and, when a phase's time is up, moves to
 * `(index + 1) % length`; the command-line ports instead run an endless
 * loop over the table. Both are modelled here on an abstract table.
 */
module Cycle {

  /** The index after a phase elapses. */
  function Next(i: nat, n: nat): (j: nat)
    requires 0 < n
    ensures j < n
    ensures i < n ==> j == if i + 1 == n then 0 else i + 1
  {
    (i + 1) % n
  }

  /** The index before `i`, as `(i - 1 + n) % n`. */
  function Prev(i: nat, n: nat): (j: nat)
    requires i < n
    ensures j < n
    ensures j == if i == 0 then n - 1 else i - 1
  {
    (i - 1 + n) % n
  }

  /** Prev undoes Next and Next undoes Prev. */
  lemma PrevNextInverse(i: nat, n: nat)
    requires i < n
    ensures Prev(Next(i, n), n) == i
    ensures Next(Prev(i, n), n) == i
  {
  }

  /** Adding one before or after reducing modulo `n` gives the same index. */
  lemma ModSucc(a: nat, n: nat)
    requires 0 < n
    ensures (a % n + 1) % n == (a + 1) % n
  {
    var q, r := a / n, a % n;
    assert a == q * n + r;
    if r + 1 < n {
      assert a + 1 == q * n + (r + 1);
      ModUnique(a + 1, n, q, r + 1);
    } else {
      assert a + 1 == (q + 1) * n;
      ModUnique(a + 1, n, q + 1, 0);
    }
  }

  /** The remainder is the unique `r` in `[0, n)` with `a == q * n + r`. */
  lemma ModUnique(a: nat, n: nat, q: int, r: int)
    requires 0 < n && 0 <= r < n && a == q * n + r
    ensures a % n == r
  {
    var q0, r0 := a / n, a % n;
    assert a == q0 * n + r0;
    var d := q - q0;
    assert d * n == q * n - q0 * n;
    assert d * n == r0 - r;
    if d >= 1 {
      MulAtLeast(d, n);
    } else if d <= -1 {
      MulAtLeast(-d, n);
    }
  }

  lemma MulAtLeast(d: int, n: int)
    requires d >= 1 && n >= 0
    ensures d * n >= n
  {
    assert d * n == n + (d - 1) * n;
  }

  /** Adding the modulus does not change the remainder. */
  lemma ModAddPeriod(a: nat, n: nat)
    requires 0 < n
    ensures (a + n) % n == a % n
  {
    var q, r := a / n, a % n;
    assert a == q * n + r;
    assert a + n == (q + 1) * n + r;
    ModUnique(a + n, n, q + 1, r);
  }

  /** Reducing the first summand does not change a remainder. */
  lemma ModShift(a: nat, b: nat, n: nat)
    requires n > 0
    ensures (a % n + b) % n == (a + b) % n
  {
    var q := a / n;
    assert a == q * n + a % n;
    ModUnique(a + b, n, q + (a % n + b) / n, (a % n + b) % n);
  }

  /** One step with Next followed by `m` more, taken modulo `n`, is `m + 1` steps. */
  lemma NextShift(i: nat, n: nat, m: nat)
    requires i < n
    ensures (Next(i, n) + m) % n == (i + 1 + m) % n
  {
    ModSucc(i, n);
    ModUnique(i, n, 0, i);
    ModShift(i + 1, m, n);
  }

  /** The index after `k` phases have elapsed, starting from `i`. */
  function After(i: nat, n: nat, k: nat): (j: nat)
    requires 0 < n
    ensures j < n || (k == 0 && j == i)
    decreases k
  {
    if k == 0 then i else Next(After(i, n, k - 1), n)
  }

  /** After `k` elapsed phases the index has moved on by `k`, wrapping at the end of the table. */
  lemma {:induction false} AfterIsModular(i: nat, n: nat, k: nat)
    requires i < n
    ensures After(i, n, k) == (i + k) % n
    decreases k
  {
    if k == 0 {
      ModUnique(i, n, 0, i);
    } else {
      AfterIsModular(i, n, k - 1);
      ModSucc(i + k - 1, n);
    }
  }

  /** Taking one step first and `k - 1` after is taking `k` steps. */
  lemma {:induction false} AfterShift(i: nat, n: nat, k: nat)
    requires i < n && k > 0
    ensures After(Next(i, n), n, k - 1) == After(i, n, k)
    decreases k
  {
    if k > 1 {
      AfterShift(i, n, k - 1);
    }
  }

  /** A full round of `n` elapsed phases brings the same phase back. */
  lemma AfterPeriodic(i: nat, n: nat, k: nat)
    requires i < n
    ensures After(i, n, k + n) == After(i, n, k)
  {
    AfterIsModular(i, n, k);
    AfterIsModular(i, n, k + n);
    ModAddPeriod(i + k, n);
  }

  /**
   * The phases shown by a front end started on the first phase, as the
   * table is walked with Next: the first element is the starting phase,
   * and each later one is shown after one more phase elapsed.
   */
  method Replay<T>(table: seq<T>, events: nat) returns (shown: seq<T>)
    requires |table| > 0
    ensures |shown| == events + 1
    ensures forall j :: 0 <= j < |shown| ==> shown[j] == table[j % |table|]
  {
    var n := |table|;
    var i := 0;
    shown := [table[0]];
    var k := 0;
    while k < events
      invariant 0 <= k <= events
      invariant i == k % n
      invariant |shown| == k + 1
      invariant forall j :: 0 <= j < |shown| ==> shown[j] == table[j % n]
    {
      ModSucc(k, n);
      i := Next(i, n);
      k := k + 1;
      shown := shown + [table[i]];
    }
  }

  /**
   * The endless `loop { for phase in phases { … } }` of the command-line
   * ports, cut off after `rounds` complete rounds: the phases come out in
   * table order, round after round.
   */
  method RunRounds<T>(table: seq<T>, rounds: nat) returns (shown: seq<T>)
    requires |table| > 0
    ensures |shown| == rounds * |table|
    ensures forall j :: 0 <= j < |shown| ==> shown[j] == table[j % |table|]
  {
    var n := |table|;
    shown := [];
    var r := 0;
    while r < rounds
      invariant 0 <= r <= rounds
      invariant |shown| == r * n
      invariant forall j :: 0 <= j < |shown| ==> shown[j] == table[j % n]
    {
      var p := 0;
      while p < n
        invariant 0 <= p <= n
        invariant |shown| == r * n + p
        invariant forall j :: 0 <= j < |shown| ==> shown[j] == table[j % n]
      {
        ModUnique(r * n + p, n, r, p);
        shown := shown + [table[p]];
        p := p + 1;
      }
      r := r + 1;
    }
  }
}

=== FILE: electron_renderer.dfy ===
/**
 * The Electron renderer: the technique table, `setTechnique` with its
 * button states, `updatePhase` and its self-rescheduling timer, and the
 * audio ramp chosen by `setPhase` from the phase name. Durations are
 * milliseconds. The DOM elements are taken to be present.
 */
module ElectronRenderer {
  import opened Wrappers
  import Techniques
  import Cycle
  import P5Sketch
  import IosContentView

  /** A phase of the renderer's table. */
  datatype ElectronPhase = ElectronPhase(name: string, duration: nat, scale: real, color: string, x: int)

  datatype Technique = Technique(name: string, phases: seq<ElectronPhase>)

  const Green := IosContentView.Green
  const Blue := IosContentView.Blue
  const Rose := IosContentView.Rose

  const BoxTable: seq<ElectronPhase> := [
    ElectronPhase("Inhale", 4000, 1.5, Green, 0), ElectronPhase("Hold", 4000, 1.5, Blue, 0),
    ElectronPhase("Exhale", 4000, 1.0, Rose, 0), ElectronPhase("Hold", 4000, 1.0, Blue, 0)]

  const DiaphragmaticTable: seq<ElectronPhase> := [
    ElectronPhase("Inhale", 5000, 1.5, Green, 0), ElectronPhase("Exhale", 5000, 1.0, Rose, 0)]

  const AlternateTable: seq<ElectronPhase> := [
    ElectronPhase("Inhale Left", 4000, 1.0, Green, -50), ElectronPhase("Hold", 4000, 1.0, Blue, 0),
    ElectronPhase("Exhale Right", 4000, 1.0, Rose, 50), ElectronPhase("Hold", 4000, 1.0, Blue, 0),
    ElectronPhase("Inhale Right", 4000, 1.0, Green, 50), ElectronPhase("Hold", 4000, 1.0, Blue, 0),
    ElectronPhase("Exhale Left", 4000, 1.0, Rose, -50), ElectronPhase("Hold", 4000, 1.0, Blue, 0)]

  /** `TECHNIQUES[key]`, undefined for any other key. */
  function Lookup(key: string): (t: Option<Technique>)
    ensures t.Some? <==> key == "box" || key == "diaphragmatic" || key == "alternate"
    ensures t.Some? ==> |t.value.phases| > 0
  {
    if key == "box" then Some(Technique("Box Breathing", BoxTable))
    else if key == "diaphragmatic" then Some(Technique("Diaphragmatic", DiaphragmaticTable))
    else if key == "alternate" then Some(Technique("Alternate Nostril", AlternateTable))
    else None
  }

  /**
   * `TECHNIQUES[key] || TECHNIQUES['box']`: the fallback of the front ends
   * that reuse this table, where an unknown key selects box.
   */
  function PhasesOrBox(key: string): (ps: seq<ElectronPhase>)
    ensures |ps| > 0
    ensures Lookup(key).Some? ==> ps == Lookup(key).value.phases
    ensures Lookup(key).None? ==> ps == BoxTable
  {
    match Lookup(key)
    case Some(t) => t.phases
    case None => BoxTable
  }

  /** Names and lengths without the styling. */
  function Plain(t: seq<ElectronPhase>): (ps: seq<Techniques.Phase>)
    ensures |ps| == |t|
    ensures forall i :: 0 <= i < |t| ==> ps[i] == Techniques.Phase(t[i].name, t[i].duration)
  {
    seq(|t|, i requires 0 <= i < |t| => Techniques.Phase(t[i].name, t[i].duration))
  }

  /**
   * The renderer's tables are the shared ones in milliseconds (box 16 s,
   * diaphragmatic 10 s, alternate 32 s a cycle), with the same offsets as
   * the p5 sketch and the same colour per kind as the iOS view.
   */
  lemma TablesAgree()
    ensures Plain(BoxTable) == Techniques.BoxPhases(1000)
    ensures Plain(DiaphragmaticTable) == Techniques.DiaphragmaticPhases(1000)
    ensures Plain(AlternateTable) == Techniques.AlternatePhases(1000)
    ensures forall i :: 0 <= i < |AlternateTable| ==> AlternateTable[i].x == P5Sketch.AlternateTable[i].x
    ensures forall i :: 0 <= i < |BoxTable| ==> BoxTable[i].color == IosContentView.KindColor(Techniques.BoxKinds[i])
    ensures forall i :: 0 <= i < |AlternateTable| ==>
      AlternateTable[i].color == IosContentView.KindColor(Techniques.AlternateKinds[i])
  {
    TablesShared();
    OffsetsAsSketch();
    BoxColorsByKind();
    AlternateColorsByKind();
  }

  lemma TablesShared()
    ensures Plain(BoxTable) == Techniques.BoxPhases(1000)
    ensures Plain(DiaphragmaticTable) == Techniques.DiaphragmaticPhases(1000)
    ensures Plain(AlternateTable) == Techniques.AlternatePhases(1000)
  {
  }

  lemma OffsetsAsSketch()
    ensures forall i :: 0 <= i < |AlternateTable| ==> AlternateTable[i].x == P5Sketch.AlternateTable[i].x
  {
  }

  lemma BoxColorsByKind()
    ensures forall i :: 0 <= i < |BoxTable| ==> BoxTable[i].color == IosContentView.KindColor(Techniques.BoxKinds[i])
  {
    IosContentView.BoxConsistent();
  }

  lemma AlternateColorsByKind()
    ensures forall i :: 0 <= i < |AlternateTable| ==>
      AlternateTable[i].color == IosContentView.KindColor(Techniques.AlternateKinds[i])
  {
    assert forall i :: 0 <= i < |AlternateTable| ==> AlternateTable[i].color == IosContentView.AlternateTable[i].color;
    IosContentView.AlternateConsistent();
  }

  /** What `updatePhase` puts on screen: name, transform parts, colour and transition length. */
  datatype Display = Display(name: string, scale: real, x: int, color: string, transitionMs: nat)

  /** A button and whether it is disabled. */
  datatype Button = Button(technique: Option<string>, disabled: bool)

  /** The renderer's globals: technique key, phase index, pending timer delay, buttons and what is shown. */
  datatype Renderer = Renderer(key: string, index: nat, timer: Option<nat>, buttons: seq<Button>, shown: Option<Display>)

  /** A known technique and an index into its phases. */
  predicate Valid(r: Renderer) {
    Lookup(r.key).Some? && r.index < |Lookup(r.key).value.phases|
  }

  /** `updatePhase`: show the current phase and schedule the next after its duration; a bad key or index throws. */
  function UpdatePhase(r: Renderer): (o: Result<Renderer, Renderer>)
    ensures o.Ok? <==> Valid(r)
    ensures o.Ok? ==> var p := Lookup(r.key).value.phases[r.index];
      o.value == r.(shown := Some(Display(p.name, p.scale, p.x, p.color, p.duration)), timer := Some(p.duration))
    ensures o.Err? ==> o.error == r
  {
    match Lookup(r.key)
    case None => Err(r)
    case Some(t) =>
      if r.index < |t.phases| then
        var p := t.phases[r.index];
        Ok(r.(shown := Some(Display(p.name, p.scale, p.x, p.color, p.duration)), timer := Some(p.duration)))
      else Err(r)
  }

  /** The buttons after a selection: exactly those whose `data-technique` is the key are disabled. */
  function MarkButtons(bs: seq<Button>, key: string): (r: seq<Button>)
    ensures |r| == |bs|
    ensures forall i :: 0 <= i < |bs| ==> r[i].technique == bs[i].technique
    ensures forall i :: 0 <= i < |bs| ==> (r[i].disabled <==> bs[i].technique == Some(key))
  {
    seq(|bs|, i requires 0 <= i < |bs| => Button(bs[i].technique, bs[i].technique == Some(key)))
  }

  /**
   * `setTechnique(key)`: clear the timer, take the key, restart at phase 0,
   * read the technique's name, mark the buttons and show the first phase.
   * The table is looked up with no allowlist. A key that is neither an own
   * key nor an inherited property name makes the name read throw (line
   * 166) before the buttons are marked. An inherited name reads a `name`
   * off a built-in without throwing, so the buttons are marked and
   * `updatePhase` throws when it indexes the missing `phases` (line 137).
   */
  function SetTechnique(r: Renderer, key: string): (o: Result<Renderer, Renderer>)
    ensures Lookup(key).None? && key !in Techniques.InheritedNames ==>
      o == Err(r.(key := key, index := 0, timer := None))
    ensures key in Techniques.InheritedNames ==>
      o == Err(r.(key := key, index := 0, timer := None, buttons := MarkButtons(r.buttons, key)))
    ensures Lookup(key).Some? ==> o.Ok? && Valid(o.value) && o.value.key == key && o.value.index == 0
    ensures Lookup(key).Some? ==> o.value.buttons == MarkButtons(r.buttons, key)
    ensures Lookup(key).Some? ==> o.value.timer == Some(Lookup(key).value.phases[0].duration)
  {
    var s := r.(key := key, index := 0, timer := None);
    if Lookup(key).Some? || key in Techniques.InheritedNames then
      UpdatePhase(s.(buttons := MarkButtons(r.buttons, key)))
    else Err(s)
  }

  /** The pending timer fires: the index moves on cyclically and the next phase is shown. */
  function Fire(r: Renderer): (o: Result<Renderer, Renderer>)
    requires Valid(r)
    ensures o.Ok? && Valid(o.value) && o.value.key == r.key && o.value.buttons == r.buttons
    ensures o.value.index == Cycle.Next(r.index, |Lookup(r.key).value.phases|)
  {
    var n := |Lookup(r.key).value.phases|;
    UpdatePhase(r.(index := Cycle.Next(r.index, n)))
  }

  /** `k` timer firings. */
  function Fires(r: Renderer, k: nat): (o: Renderer)
    requires Valid(r)
    ensures Valid(o) && o.key == r.key && o.buttons == r.buttons
    decreases k
  {
    if k == 0 then r else Fires(Fire(r).value, k - 1)
  }

  /** After `k` firings the renderer shows phase `(i + k) mod n`, so a technique loops through its table. */
  lemma {:induction false} FiresCycle(r: Renderer, k: nat)
    requires Valid(r)
    ensures Fires(r, k).index == (r.index + k) % |Lookup(r.key).value.phases|
    decreases k
  {
    var n := |Lookup(r.key).value.phases|;
    if k == 0 {
      Cycle.ModUnique(r.index, n, 0, r.index);
    } else {
      var r1 := Fire(r).value;
      FiresCycle(r1, k - 1);
      Cycle.NextShift(r.index, n, k - 1);
    }
  }

  /** When the buttons name distinct techniques and one names the key, exactly that one is disabled. */
  lemma ExactlyOneDisabled(bs: seq<Button>, key: string, j: nat)
    requires j < |bs| && bs[j].technique == Some(key)
    requires forall a, b :: 0 <= a < b < |bs| && bs[a].technique.Some? ==> bs[a].technique != bs[b].technique
    ensures var m := MarkButtons(bs, key);
      m[j].disabled && forall i :: 0 <= i < |bs| && i != j ==> !m[i].disabled
  {
    var m := MarkButtons(bs, key);
    forall i | 0 <= i < |bs| && i != j
      ensures !m[i].disabled
    {
      if i < j {
        assert bs[i].technique != bs[j].technique;
      } else {
        assert bs[j].technique != bs[i].technique;
      }
    }
  }

  /** How `setPhase` moves the tone: frequency and gain ramps over the phase, or hold still. */
  datatype Ramp = Ramp(freqFrom: real, freqTo: real, gainFrom: real, gainTo: real) | Steady

  /** The ramp for a phase kind: inhale rises 150→200 Hz, exhale falls back, a hold keeps both. */
  function KindRamp(k: Techniques.Kind): (r: Ramp)
    ensures k == Techniques.Hold <==> r == Steady
  {
    match k
    case Inhale => Ramp(150.0, 200.0, 0.1, 0.2)
    case Exhale => Ramp(200.0, 150.0, 0.2, 0.1)
    case Hold => Steady
  }

  /** `setPhase(name, duration)`: silent when muted, not playing or without a context; otherwise the ramp for the name's kind. */
  function SetPhase(muted: bool, playing: bool, hasContext: bool, name: string): (r: Option<Ramp>)
    ensures r.None? <==> muted || !playing || !hasContext
    ensures r.Some? ==> r.value == KindRamp(Techniques.KindOf(name))
  {
    if muted || !playing || !hasContext then None else Some(KindRamp(Techniques.KindOf(name)))
  }

  /** An inhale's ramp run backwards is the exhale's, so a full breath returns the tone to where it began. */
  lemma RampsMirror()
    ensures var i, e := KindRamp(Techniques.Inhale), KindRamp(Techniques.Exhale);
      i.freqFrom == e.freqTo && i.freqTo == e.freqFrom && i.gainFrom == e.gainTo && i.gainTo == e.gainFrom
  {
  }
}

=== FILE: four_phase.dfy ===
/**
 * The named four-state machine of the class-based web front ends:
 * `inhale → hold → exhale → holdAfterExhale → inhale`, one timer per state,
 * the two holds sharing the hold duration. The animated element carries
 * exactly one of the four state classes at a time. The box and
 * alternate-nostril exercises run the whole cycle; the diaphragmatic
 * exercise alternates inhale and exhale.
 */
module FourPhase {
  import Cycle
  import Techniques
  import opened Wrappers

  datatype Stage = Inhale | Hold | Exhale | HoldAfterExhale

  /** Phase lengths in milliseconds. */
  datatype Durations = Durations(inhale: int, hold: int, exhale: int)

  /** The state the timer of `s` moves to. */
  function Next(s: Stage): Stage {
    match s
    case Inhale => Hold
    case Hold => Exhale
    case Exhale => HoldAfterExhale
    case HoldAfterExhale => Inhale
  }

  /** Position of a state in the cycle. */
  function Index(s: Stage): (i: nat)
    ensures i < 4
  {
    match s
    case Inhale => 0
    case Hold => 1
    case Exhale => 2
    case HoldAfterExhale => 3
  }

  /** The state at a position of the cycle: the inverse of Index. */
  function AtIndex(i: nat): (s: Stage)
    requires i < 4
    ensures Index(s) == i
  {
    if i == 0 then Inhale else if i == 1 then Hold else if i == 2 then Exhale else HoldAfterExhale
  }

  /** Index and AtIndex are inverse bijections between the states and `[0, 4)`. */
  lemma IndexBijection(s: Stage)
    ensures AtIndex(Index(s)) == s
  {
  }

  /** The state machine is the index cycle `(i + 1) % 4`. */
  lemma NextIsCycle(s: Stage)
    ensures Index(Next(s)) == Cycle.Next(Index(s), 4)
  {
  }

  /** The state after `n` timers, starting from `s`. */
  function After(s: Stage, n: nat): Stage
    decreases n
  {
    if n == 0 then s else After(Next(s), n - 1)
  }

  /** After `n` timers from `s` the machine is `n` places further round the cycle. */
  lemma {:induction false} AfterIndex(s: Stage, n: nat)
    ensures Index(After(s, n)) == (Index(s) + n) % 4
    decreases n
  {
    if n > 0 {
      AfterIndex(Next(s), n - 1);
      NextIsCycle(s);
      Cycle.ModSucc(Index(s) + n - 1, 4);
      assert (Index(s) + 1) % 4 + (n - 1) == Index(Next(s)) + (n - 1);
      Cycle.ModShift(Index(s) + 1, n - 1, 4);
    }
  }

  /** Four timers bring every state back to itself. */
  lemma FourStepsBack(s: Stage)
    ensures After(s, 4) == s
  {
  }

  /** How long the timer of state `s` waits: the holds both use the hold duration. */
  function Delay(s: Stage, d: Durations): (r: int)
    ensures s == Inhale ==> r == d.inhale
    ensures s == Exhale ==> r == d.exhale
    ensures (s == Hold || s == HoldAfterExhale) ==> r == d.hold
  {
    match s
    case Inhale => d.inhale
    case Hold => d.hold
    case Exhale => d.exhale
    case HoldAfterExhale => d.hold
  }

  /** The total waited over one round from any state: inhale, two holds and exhale. */
  lemma RoundTime(s: Stage, d: Durations)
    ensures Delay(s, d) + Delay(Next(s), d) + Delay(Next(Next(s)), d) + Delay(Next(Next(Next(s))), d)
         == d.inhale + 2 * d.hold + d.exhale
  {
  }

  /** The class each state puts on the animated element. */
  function ClassName(s: Stage): string {
    match s
    case Inhale => "inhale"
    case Hold => "hold"
    case Exhale => "exhale"
    case HoldAfterExhale => "holdAfterExhale"
  }

  const StageClasses: set<string> := {"inhale", "hold", "exhale", "holdAfterExhale"}

  /** The four class names are distinct: ClassName is one-to-one. */
  lemma ClassNameInjective(a: Stage, b: Stage)
    requires ClassName(a) == ClassName(b)
    ensures a == b
  {
  }

  /** Remove every state class, then add the one for `s`: other classes are untouched. */
  function ShowClass(classes: set<string>, s: Stage): (r: set<string>)
    ensures r * StageClasses == {ClassName(s)}
    ensures r - StageClasses == classes - StageClasses
  {
    classes - StageClasses + {ClassName(s)}
  }

  /** The prompt text of the box exercises: both holds read "Hold". */
  function BoxPrompt(s: Stage): (r: string)
    ensures r == Techniques.BoxNames[Index(s)]
  {
    match s
    case Inhale => "Inhale"
    case Hold => "Hold"
    case Exhale => "Exhale"
    case HoldAfterExhale => "Hold"
  }

  /** The three exercise classes both vanilla front ends offer. */
  datatype ExerciseKind = BoxBreathing | DiaphragmaticBreathing | AlternateNostrilBreathing

  /** The selector value naming each exercise. */
  function KindKey(k: ExerciseKind): string {
    match k
    case BoxBreathing => "boxBreathing"
    case DiaphragmaticBreathing => "diaphragmaticBreathing"
    case AlternateNostrilBreathing => "alternateNostrilBreathing"
  }

  /** The exercise a selector value names exactly, if any. */
  function KeyOf(value: string): (r: Option<ExerciseKind>)
    ensures r.Some? ==> KindKey(r.value) == value
    ensures r.None? ==> forall k :: KindKey(k) != value
  {
    if value == KindKey(BoxBreathing) then Some(BoxBreathing)
    else if value == KindKey(DiaphragmaticBreathing) then Some(DiaphragmaticBreathing)
    else if value == KindKey(AlternateNostrilBreathing) then Some(AlternateNostrilBreathing)
    else None
  }

  /** Different exercises have different selector values, so KeyOf reads every key back. */
  lemma KeyOfKey(k: ExerciseKind)
    ensures KeyOf(KindKey(k)) == Some(k)
  {
  }

  /** The prompt text of each exercise; the alternate-nostril prompts always name the same sides. */
  function Prompt(k: ExerciseKind, s: Stage): string {
    match k
    case AlternateNostrilBreathing =>
      (match s
       case Inhale => "Inhale Left"
       case Exhale => "Exhale Right"
       case _ => "Hold")
    case _ => BoxPrompt(s)
  }

  /** The state each exercise's timer moves to. */
  function Successor(k: ExerciseKind, s: Stage): (t: Stage)
    ensures k != DiaphragmaticBreathing ==> t == Next(s)
    ensures k == DiaphragmaticBreathing && s == Inhale ==> t == Exhale
    ensures k == DiaphragmaticBreathing && s == Exhale ==> t == Inhale
  {
    if k != DiaphragmaticBreathing then Next(s)
    else if s == Inhale then Exhale
    else if s == Exhale then Inhale
    else s
  }
}

=== FILE: ios_content_view.dfy ===
/**
 * The iOS breathing view: the hex colour initialiser, the technique table
 * with its fallback to box breathing, and the order in which the breathing
 * loop applies phases. Durations are seconds.
 */
module IosContentView {
  import opened Wrappers
  import opened Text
  import Techniques
  import Cycle

  /**
   * ASCII letters and digits. Swift's `CharacterSet.alphanumerics` is the
   * Unicode letter, mark and number set, so it also keeps characters such
   * as `é` that this predicate drops; only ASCII input is modelled exactly.
   */
  predicate IsAlnum(c: char) {
    IsDigit(c) || IsUpper(c) || IsLower(c)
  }

  /** Drops leading characters that are not letters or digits. */
  function DropLeading(s: string): (r: string)
    ensures |r| <= |s| && r == s[|s| - |r|..]
    ensures forall i :: 0 <= i < |s| - |r| ==> !IsAlnum(s[i])
    ensures r == [] || IsAlnum(r[0])
  {
    if s != [] && !IsAlnum(s[0]) then
      var r := DropLeading(s[1..]);
      assert forall i :: 1 <= i < |s| - |r| ==> s[i] == s[1..][i - 1];
      r
    else s
  }

  /** Drops trailing characters that are not letters or digits. */
  function DropTrailing(s: string): (r: string)
    ensures |r| <= |s| && r == s[..|r|]
    ensures forall i :: |r| <= i < |s| ==> !IsAlnum(s[i])
    ensures r == [] || IsAlnum(r[|r| - 1])
  {
    if s != [] && !IsAlnum(s[|s| - 1]) then DropTrailing(s[..|s| - 1]) else s
  }

  /**
   * `trimmingCharacters(in: alphanumerics.inverted)`: non-alphanumeric
   * characters are removed from both ends only; the result is a slice of
   * the input that begins and ends with a letter or digit.
   */
  function TrimNonAlnum(s: string): (r: string)
    ensures r == [] || (IsAlnum(r[0]) && IsAlnum(r[|r| - 1]))
    ensures exists k :: OccursAt(s, r, k)
  {
    var t := DropLeading(s);
    var r := DropTrailing(t);
    assert OccursAt(s, r, |s| - |t|);
    r
  }

  /** Characters inside the string are kept, whatever they are: only the ends are trimmed. */
  lemma TrimKeepsInterior(s: string)
    requires s != [] && IsAlnum(s[0]) && IsAlnum(s[|s| - 1])
    ensures TrimNonAlnum(s) == s
  {
  }

  /** A leading `#` is dropped from an alphanumeric colour code. */
  lemma TrimHash(t: string)
    requires t != [] && forall i :: 0 <= i < |t| ==> IsAlnum(t[i])
    ensures TrimNonAlnum("#" + t) == t
  {
    var s := "#" + t;
    assert s[0] == '#' && !IsAlnum('#');
    assert s[1..] == t;
    assert DropLeading(s) == DropLeading(t);
    assert DropLeading(t) == t;
  }

  /** The value of a hexadecimal digit, either case. */
  function HexDigit(c: char): (r: Option<nat>)
    ensures r.Some? ==> r.value < 16
  {
    if IsDigit(c) then Some(c as int - '0' as int)
    else if 'a' <= c <= 'f' then Some(c as int - 'a' as int + 10)
    else if 'A' <= c <= 'F' then Some(c as int - 'A' as int + 10)
    else None
  }

  predicate IsHex(c: char) {
    HexDigit(c).Some?
  }

  /** The number of hexadecimal digits `s` starts with. */
  function HexRun(s: string): (n: nat)
    ensures n <= |s|
    ensures forall i :: 0 <= i < n ==> IsHex(s[i])
    ensures n < |s| ==> !IsHex(s[n])
  {
    if s != [] && IsHex(s[0]) then 1 + HexRun(s[1..]) else 0
  }

  function Pow16(n: nat): (r: nat)
    ensures r >= 1
  {
    if n == 0 then 1 else 16 * Pow16(n - 1)
  }

  /** The value of a run of hexadecimal digits, most significant first. */
  function HexValue(t: string): (v: nat)
    requires forall i :: 0 <= i < |t| ==> IsHex(t[i])
    ensures v < Pow16(|t|)
  {
    if t == [] then 0
    else
      assert IsHex(t[|t| - 1]);
      HexValue(t[..|t| - 1]) * 16 + HexDigit(t[|t| - 1]).value
  }

  /**
   * `Scanner.scanHexInt64`: the value of the hexadecimal digits the string
   * starts with, 0 when it starts with none.
   */
  function ScanHex(s: string): (v: nat)
    ensures v < Pow16(HexRun(s))
  {
    HexValue(s[..HexRun(s)])
  }

  lemma {:induction false} Pow16Monotone(m: nat, n: nat)
    requires m <= n
    ensures Pow16(m) <= Pow16(n)
    decreases n
  {
    if m < n {
      Pow16Monotone(m, n - 1);
    }
  }

  /** The scanned value has no more digits than the string has characters. */
  lemma ScanBound(h: string)
    ensures ScanHex(h) < Pow16(|h|)
  {
    Pow16Monotone(HexRun(h), |h|);
  }

  /** A colour as the initialiser's four 0–255 components. */
  datatype Argb = Argb(a: nat, r: nat, g: nat, b: nat)

  /** The opacity and channels handed to the colour, each component over 255. */
  function Channels(c: Argb): (real, real, real, real) {
    (c.a as real / 255.0, c.r as real / 255.0, c.g as real / 255.0, c.b as real / 255.0)
  }

  predicate InByteRange(c: Argb) {
    c.a <= 255 && c.r <= 255 && c.g <= 255 && c.b <= 255
  }

  /** Three nibbles RGB, each scaled by 17 so that F becomes 255; opaque. */
  function FromRgbNibbles(v: nat): (c: Argb)
    requires v < 4096
    ensures InByteRange(c)
    ensures c.r % 17 == 0 && c.g % 17 == 0 && c.b % 17 == 0
  {
    var b, w := v % 16, v / 16;
    var g, r := w % 16, w / 16;
    Argb(255, r * 17, g * 17, b * 17)
  }

  lemma NibblesBack(r: nat, g: nat, b: nat)
    requires r < 16 && g < 16 && b < 16
    ensures r * 256 + g * 16 + b < 4096
    ensures FromRgbNibbles(r * 256 + g * 16 + b) == Argb(255, 17 * r, 17 * g, 17 * b)
  {
    var v := r * 256 + g * 16 + b;
    assert v % 16 == b && v / 16 == r * 16 + g;
    assert (r * 16 + g) % 16 == g && (r * 16 + g) / 16 == r;
  }

  /** Three bytes RRGGBB; opaque. */
  function FromRgbBytes(v: nat): (c: Argb)
    requires v < 16777216
    ensures InByteRange(c) && c.a == 255
    ensures v == c.r * 65536 + c.g * 256 + c.b
  {
    var b, w := v % 256, v / 256;
    var g, r := w % 256, w / 256;
    Argb(255, r, g, b)
  }

  /** Four bytes AARRGGBB, alpha first. */
  function FromArgbBytes(v: nat): (c: Argb)
    requires v < 4294967296
    ensures InByteRange(c)
    ensures v == c.a * 16777216 + c.r * 65536 + c.g * 256 + c.b
  {
    var b, w := v % 256, v / 256;
    var g, x := w % 256, w / 256;
    var r, a := x % 256, x / 256;
    Argb(a, r, g, b)
  }

  /**
   * `Color(hex:)`: 3 digits are RGB nibbles scaled by 17, 6 digits RRGGBB,
   * 8 digits AARRGGBB; the first two are opaque. Any other length gives
   * (a, r, g, b) = (1, 1, 1, 0).
   */
  function ColorComponents(hex: string): (c: Argb)
    ensures var h := TrimNonAlnum(hex); |h| != 3 && |h| != 6 && |h| != 8 ==> c == Argb(1, 1, 1, 0)
    ensures var h := TrimNonAlnum(hex); |h| == 3 || |h| == 6 ==> c.a == 255
    ensures InByteRange(c)
  {
    var h := TrimNonAlnum(hex);
    var v := ScanHex(h);
    ScanBound(h);
    if |h| == 3 then
      assert Pow16(3) == 4096;
      FromRgbNibbles(v)
    else if |h| == 6 then
      assert Pow16(6) == 16777216;
      FromRgbBytes(v)
    else if |h| == 8 then
      assert Pow16(8) == 4294967296;
      FromArgbBytes(v)
    else Argb(1, 1, 1, 0)
  }

  /** Every channel handed to the colour lies in `[0, 1]`. */
  lemma ChannelsInUnitRange(hex: string)
    ensures var ch := Channels(ColorComponents(hex));
      0.0 <= ch.0 <= 1.0 && 0.0 <= ch.1 <= 1.0 && 0.0 <= ch.2 <= 1.0 && 0.0 <= ch.3 <= 1.0
  {
  }

  /** The lower-case hexadecimal digit of a value below 16. */
  function HexChar(d: nat): (c: char)
    requires d < 16
    ensures IsHex(c) && HexDigit(c) == Some(d) && IsAlnum(c)
  {
    if d < 10 then ('0' as int + d) as char else ('a' as int + d - 10) as char
  }

  /** `v` written with exactly `width` hexadecimal digits. */
  function HexText(v: nat, width: nat): (t: string)
    requires v < Pow16(width)
    ensures |t| == width
    ensures forall i :: 0 <= i < |t| ==> IsHex(t[i]) && IsAlnum(t[i])
  {
    if width == 0 then [] else HexText(v / 16, width - 1) + [HexChar(v % 16)]
  }

  /** Writing a value in hexadecimal and reading it back gives the value. */
  lemma {:induction false} HexRoundTrip(v: nat, width: nat)
    requires v < Pow16(width)
    ensures HexValue(HexText(v, width)) == v
  {
    if width > 0 {
      var t := HexText(v, width);
      assert t[..|t| - 1] == HexText(v / 16, width - 1);
      HexRoundTrip(v / 16, width - 1);
    }
  }

  /** A string of hex digits is scanned whole. */
  lemma {:induction false} ScanAllHex(t: string)
    requires forall i :: 0 <= i < |t| ==> IsHex(t[i])
    ensures HexRun(t) == |t| && ScanHex(t) == HexValue(t)
  {
    if t != [] {
      ScanAllHex(t[1..]);
    }
    assert t[..|t|] == t;
  }

  /** `#` followed by hexadecimal digits is decoded by its digit count from the digits' value. */
  lemma ColorOfCode(t: string, v: nat)
    requires t != [] && forall i :: 0 <= i < |t| ==> IsHex(t[i]) && IsAlnum(t[i])
    requires HexValue(t) == v
    ensures |t| == 3 ==> v < 4096 && ColorComponents("#" + t) == FromRgbNibbles(v)
    ensures |t| == 6 ==> v < 16777216 && ColorComponents("#" + t) == FromRgbBytes(v)
    ensures |t| == 8 ==> v < 4294967296 && ColorComponents("#" + t) == FromArgbBytes(v)
  {
    TrimHash(t);
    ScanAllHex(t);
    if |t| == 3 { assert Pow16(3) == 4096; }
    if |t| == 6 { assert Pow16(6) == 16777216; }
    if |t| == 8 { assert Pow16(8) == 4294967296; }
  }

  lemma BytesBack(r: nat, g: nat, b: nat)
    requires r < 256 && g < 256 && b < 256
    ensures r * 65536 + g * 256 + b < 16777216
    ensures FromRgbBytes(r * 65536 + g * 256 + b) == Argb(255, r, g, b)
  {
    var v := r * 65536 + g * 256 + b;
    assert v % 256 == b && v / 256 == r * 256 + g;
    assert (r * 256 + g) % 256 == g && (r * 256 + g) / 256 == r;
  }

  lemma ArgbBack(a: nat, r: nat, g: nat, b: nat)
    requires a < 256 && r < 256 && g < 256 && b < 256
    ensures a * 16777216 + r * 65536 + g * 256 + b < 4294967296
    ensures FromArgbBytes(a * 16777216 + r * 65536 + g * 256 + b) == Argb(a, r, g, b)
  {
    var v := a * 16777216 + r * 65536 + g * 256 + b;
    var w := a * 65536 + r * 256 + g;
    assert v % 256 == b && v / 256 == w;
    assert w % 256 == g && w / 256 == a * 256 + r;
    assert (a * 256 + r) % 256 == r && (a * 256 + r) / 256 == a;
  }

  /** `#rrggbb`: six hex digits of any value below 2^24 read back as that value's three bytes, fully opaque. */
  lemma SixDigitRoundTrip(v: nat)
    requires v < 16777216
    ensures v < Pow16(6) && ColorComponents("#" + HexText(v, 6)) == FromRgbBytes(v)
  {
    assert Pow16(6) == 16777216;
    HexRoundTrip(v, 6);
    ColorOfCode(HexText(v, 6), v);
  }

  /** `#rgb`: three hex digits read back as their nibbles, each scaled by 17. */
  lemma ThreeDigitRoundTrip(v: nat)
    requires v < 4096
    ensures v < Pow16(3) && ColorComponents("#" + HexText(v, 3)) == FromRgbNibbles(v)
  {
    assert Pow16(3) == 4096;
    HexRoundTrip(v, 3);
    ColorOfCode(HexText(v, 3), v);
  }

  /** `#aarrggbb`: eight hex digits read back as four bytes, alpha first. */
  lemma EightDigitRoundTrip(v: nat)
    requires v < 4294967296
    ensures v < Pow16(8) && ColorComponents("#" + HexText(v, 8)) == FromArgbBytes(v)
  {
    assert Pow16(8) == 4294967296;
    HexRoundTrip(v, 8);
    ColorOfCode(HexText(v, 8), v);
  }

  /** A phase of the iOS table: name, seconds, colour code and the circle's scale. */
  datatype IosPhase = IosPhase(name: string, duration: nat, color: string, scale: real)

  const Green := "#34d399"
  const Blue := "#60a5fa"
  const Rose := "#fb7185"

  const BoxTable: seq<IosPhase> := [
    IosPhase("Inhale", 4, Green, 1.5), IosPhase("Hold", 4, Blue, 1.5),
    IosPhase("Exhale", 4, Rose, 1.0), IosPhase("Hold", 4, Blue, 1.0)]

  const DiaphragmaticTable: seq<IosPhase> := [
    IosPhase("Inhale", 5, Green, 1.5), IosPhase("Exhale", 5, Rose, 1.0)]

  const AlternateTable: seq<IosPhase> := [
    IosPhase("Inhale Left", 4, Green, 1.5), IosPhase("Hold", 4, Blue, 1.5),
    IosPhase("Exhale Right", 4, Rose, 1.0), IosPhase("Hold", 4, Blue, 1.0),
    IosPhase("Inhale Right", 4, Green, 1.5), IosPhase("Hold", 4, Blue, 1.5),
    IosPhase("Exhale Left", 4, Rose, 1.0), IosPhase("Hold", 4, Blue, 1.0)]

  /** `techniques[selectedTechnique] ?? techniques["Box"]!`. */
  function PhasesFor(key: string): (ps: seq<IosPhase>)
    ensures key == "Diaphragmatic" ==> ps == DiaphragmaticTable
    ensures key == "Alternate" ==> ps == AlternateTable
    ensures key != "Diaphragmatic" && key != "Alternate" ==> ps == BoxTable
    ensures ps != []
  {
    if key == "Diaphragmatic" then DiaphragmaticTable
    else if key == "Alternate" then AlternateTable
    else BoxTable
  }

  /** The colour each kind of phase is painted. */
  function KindColor(k: Techniques.Kind): string {
    match k
    case Inhale => Green
    case Hold => Blue
    case Exhale => Rose
  }

  /**
   * A table is consistent with its kinds when every phase has the kind's
   * colour, inhales grow the circle to 1.5, exhales shrink it to 1.0 and a
   * hold keeps the scale of the phase before it (cyclically).
   */
  predicate Consistent(ps: seq<IosPhase>, kinds: seq<Techniques.Kind>) {
    |ps| == |kinds| && |ps| > 0 &&
    forall i :: 0 <= i < |ps| ==> PhaseConsistent(ps, kinds, i)
  }

  predicate PhaseConsistent(ps: seq<IosPhase>, kinds: seq<Techniques.Kind>, i: nat)
    requires |ps| == |kinds| && i < |ps|
  {
    ps[i].color == KindColor(kinds[i]) &&
    (kinds[i] == Techniques.Inhale ==> ps[i].scale == 1.5) &&
    (kinds[i] == Techniques.Exhale ==> ps[i].scale == 1.0) &&
    (kinds[i] == Techniques.Hold ==> ps[i].scale == ps[(i + |ps| - 1) % |ps|].scale)
  }

  /** The three tables carry the shared names and lengths, and colour and scale each phase by its kind. */
  lemma TablesConsistent()
    ensures Consistent(BoxTable, Techniques.BoxKinds)
    ensures Consistent(DiaphragmaticTable, Techniques.DiaphragmaticKinds)
    ensures Consistent(AlternateTable, Techniques.AlternateKinds)
    ensures Names(BoxTable) == Techniques.BoxNames && Names(AlternateTable) == Techniques.AlternateNames
    ensures Names(DiaphragmaticTable) == Techniques.DiaphragmaticNames
  {
    BoxConsistent();
    DiaphragmaticConsistent();
    AlternateConsistent();
    assert Names(BoxTable) == Techniques.BoxNames;
    assert Names(DiaphragmaticTable) == Techniques.DiaphragmaticNames;
    assert Names(AlternateTable) == Techniques.AlternateNames;
  }

  lemma BoxConsistent()
    ensures Consistent(BoxTable, Techniques.BoxKinds)
  {
  }

  lemma DiaphragmaticConsistent()
    ensures Consistent(DiaphragmaticTable, Techniques.DiaphragmaticKinds)
  {
  }

  lemma AlternateConsistent()
    ensures Consistent(AlternateTable, Techniques.AlternateKinds)
  {
    var ps, ks := AlternateTable, Techniques.AlternateKinds;
    forall i | 0 <= i < |ps|
      ensures PhaseConsistent(ps, ks, i)
    {
      if i % 2 == 1 {
        assert ks[i] == Techniques.Hold && ps[i].color == Blue;
        assert ps[i].scale == ps[i - 1].scale;
      } else {
        assert i == 0 || i == 2 || i == 4 || i == 6;
      }
    }
  }

  function Names(ps: seq<IosPhase>): (ns: seq<string>)
    ensures |ns| == |ps| && forall i :: 0 <= i < |ps| ==> ns[i] == ps[i].name
  {
    seq(|ps|, i requires 0 <= i < |ps| => ps[i].name)
  }

  /**
   * `runBreathingLoop`, cancelled after `steps` phases have been applied:
   * the phases are applied round after round in table order, so the k-th
   * applied phase is `phases[k % n]`.
   */
  method RunBreathingLoop(key: string, steps: nat) returns (applied: seq<IosPhase>)
    ensures |applied| == steps
    ensures forall k :: 0 <= k < steps ==> applied[k] == PhasesFor(key)[k % |PhasesFor(key)|]
  {
    var phases := PhasesFor(key);
    var n := |phases|;
    applied := [];
    while |applied| < steps
      invariant |applied| <= steps
      invariant |applied| % n == 0
      invariant forall k :: 0 <= k < |applied| ==> applied[k] == phases[k % n]
      decreases steps - |applied|
    {
      var round := |applied| / n;
      var i := 0;
      while i < n && |applied| < steps
        invariant 0 <= i <= n
        invariant |applied| == round * n + i <= steps
        invariant forall k :: 0 <= k < |applied| ==> applied[k] == phases[k % n]
        decreases n - i
      {
        Cycle.ModUnique(|applied|, n, round, i);
        applied := applied + [phases[i]];
        i := i + 1;
      }
      if |applied| < steps {
        assert |applied| == (round + 1) * n;
        Cycle.ModUnique(|applied|, n, round + 1, 0);
      } else {
        break;
      }
    }
  }
}

=== FILE: ios_widget.dfy ===
/**
 * The iOS home-screen widget: a timeline of box-breathing entries four
 * seconds apart, and the entry view's scale and colour for a phase name.
 * Dates are seconds counted from an arbitrary origin.
 */
module IosWidget {
  import Techniques

  /** One timeline entry: when it is shown and the phase it names. */
  datatype Entry = Entry(date: int, phase: string)

  const EntryCount: nat := 15
  const Spacing: nat := 4

  /** The placeholder and the snapshot both show an inhale, dated now. */
  function Placeholder(now: int): (e: Entry)
    ensures e.phase == "Inhale" && e.date == now
  {
    Entry(now, "Inhale")
  }

  function Snapshot(now: int): (e: Entry)
    ensures e == Placeholder(now)
  {
    Entry(now, "Inhale")
  }

  /** `getTimeline`: fifteen entries, the `k`-th dated `4k` seconds after now and naming box phase `k mod 4`. */
  method GetTimeline(now: int) returns (entries: seq<Entry>)
    ensures |entries| == EntryCount
    ensures forall k :: 0 <= k < |entries| ==>
      entries[k] == Entry(now + k * Spacing, Techniques.BoxNames[k % |Techniques.BoxNames|])
  {
    var names := Techniques.BoxNames;
    entries := [];
    var offset := 0;
    while offset < EntryCount
      invariant 0 <= offset <= EntryCount
      invariant |entries| == offset
      invariant forall k :: 0 <= k < offset ==> entries[k] == Entry(now + k * Spacing, names[k % |names|])
    {
      entries := entries + [Entry(now + offset * Spacing, names[offset % |names|])];
      offset := offset + 1;
    }
  }

  /** The entry's circle: full size for an inhale or a hold, half size otherwise. */
  function ScaleFor(phase: string): (s: real)
    ensures s == 1.0 <==> phase == "Inhale" || phase == "Hold"
    ensures s == 1.0 || s == 0.5
  {
    if phase == "Inhale" || phase == "Hold" then 1.0 else 0.5
  }

  datatype Color = Green | Blue | Red

  /** `colorForPhase`: inhale green, exhale red, a hold and anything else blue. */
  function ColorFor(phase: string): (c: Color)
    ensures c == Green <==> phase == "Inhale"
    ensures c == Red <==> phase == "Exhale"
    ensures c == Blue <==> phase != "Inhale" && phase != "Exhale"
  {
    match phase
    case "Inhale" => Green
    case "Hold" => Blue
    case "Exhale" => Red
    case _ => Blue
  }

  /**
   * Along the timeline the circle goes full, full, half, full and green,
   * blue, red, blue, every four entries: the second hold of box breathing
   * is drawn at full size although the lungs are empty.
   */
  lemma TimelineLooks(now: int, entries: seq<Entry>, k: nat)
    requires |entries| == EntryCount
    requires forall j :: 0 <= j < |entries| ==>
      entries[j] == Entry(now + j * Spacing, Techniques.BoxNames[j % |Techniques.BoxNames|])
    requires k < EntryCount
    ensures ScaleFor(entries[k].phase) == if k % 4 == 2 then 0.5 else 1.0
    ensures ColorFor(entries[k].phase) == if k % 4 == 0 then Green else if k % 4 == 2 then Red else Blue
    ensures k + 4 < EntryCount ==> entries[k + 4].phase == entries[k].phase
    ensures k + 1 < EntryCount ==> entries[k + 1].date == entries[k].date + Spacing
  {
    var names := Techniques.BoxNames;
    assert entries[k].phase == names[k % 4];
  }
}

=== FILE: mcp_server.dfy ===
/**
 * The breathing-technique server's request handlers: the technique tool
 * (type check, length check, case folding, first-substring lookup), the
 * resource listing's keys and the coaching prompt's default technique.
 * Durations are seconds.
 */
module McpServer {
  import opened Wrappers
  import opened Text
  import Techniques

  /** A technique as the server publishes it. */
  datatype Technique = Technique(name: string, phases: seq<Techniques.Phase>, description: string)

  /** The tool's argument: a JavaScript string, or anything else (missing, a number, an object). */
  datatype JsValue = JsString(s: string) | NotAString

  /** The keys of the technique table, in declaration order. */
  const Keys: seq<string> := ["box-breathing", "diaphragmatic", "alternate-nostril"]

  /** The technique table: the entry stored under the `i`-th key. */
  function TechniqueAt(i: nat): Technique
    requires i < |Keys|
  {
    if i == 0 then
      Technique("Box Breathing", Techniques.BoxPhases(1),
        "Equal duration phases (4-4-4-4) for focus and stress relief. Visualized as a square.")
    else if i == 1 then
      Technique("Diaphragmatic Breathing", Techniques.DiaphragmaticPhases(1),
        "Deep belly breathing (5-5) for maximum oxygen intake and relaxation.")
    else
      Technique("Alternate Nostril Breathing", Techniques.AlternatePhases(1),
        "Balancing technique (Nadi Shodhana) using alternate nostrils.")
  }

  const MaxNameLength: nat := 50
  const ToolName := "get_technique_details"
  const PromptName := "breathing_coach"
  const ResourceUri := "breathing://techniques"
  const DefaultTechnique := "box-breathing"

  /** `keys.join(", ")`. */
  function Join(keys: seq<string>, sep: string): string {
    if keys == [] then [] else if |keys| == 1 then keys[0] else keys[0] + sep + Join(keys[1..], sep)
  }

  /** The position of the first key at or after `from` that occurs in `name`. */
  function FirstMatchFrom(name: string, keys: seq<string>, from: nat): (r: Option<nat>)
    requires from <= |keys|
    ensures r.Some? ==> from <= r.value < |keys| && Contains(name, keys[r.value])
    ensures r.Some? ==> forall j :: from <= j < r.value ==> !Contains(name, keys[j])
    ensures r.None? ==> forall j :: from <= j < |keys| ==> !Contains(name, keys[j])
    decreases |keys| - from
  {
    if from == |keys| then None
    else if Contains(name, keys[from]) then Some(from)
    else FirstMatchFrom(name, keys, from + 1)
  }

  /** `Object.keys(TECHNIQUES).find(k => name.includes(k))`, as a position in the table. */
  function FirstMatch(name: string): (r: Option<nat>)
    ensures r.Some? ==> r.value < |Keys| && Contains(name, Keys[r.value])
    ensures r.Some? ==> forall j :: 0 <= j < r.value ==> !Contains(name, Keys[j])
    ensures r.None? <==> forall j :: 0 <= j < |Keys| ==> !Contains(name, Keys[j])
  {
    FirstMatchFrom(name, Keys, 0)
  }

  /** What the tool answers: a technique, or an error text flagged `isError`. */
  datatype ToolReply = Details(technique: Technique) | ToolError(text: string)

  function NotFoundText(name: string): string {
    "Technique '" + name + "' not found. Available: " + Join(Keys, ", ")
  }

  /**
   * The technique tool's body, once the tool name has matched. The length
   * limit counts UTF-16 code units, as JavaScript's `length` does.
   */
  function TechniqueDetails(arg: JsValue): (r: ToolReply)
    ensures arg.NotAString? ==> r == ToolError("Error: techniqueName must be a string.")
    ensures arg.JsString? && Utf16Length(arg.s) > MaxNameLength ==>
      r == ToolError("Error: techniqueName is too long (max 50 chars).")
    ensures arg.JsString? && Utf16Length(arg.s) <= MaxNameLength ==>
      match FirstMatch(Lower(arg.s))
      case Some(i) => r == Details(TechniqueAt(i))
      case None => r == ToolError(NotFoundText(Lower(arg.s)))
  {
    match arg
    case NotAString => ToolError("Error: techniqueName must be a string.")
    case JsString(raw) =>
      if Utf16Length(raw) > MaxNameLength then ToolError("Error: techniqueName is too long (max 50 chars).")
      else
        var name := Lower(raw);
        match FirstMatch(name)
        case Some(i) => Details(TechniqueAt(i))
        case None => ToolError(NotFoundText(name))
  }

  /** The CallTool handler: any other tool name throws "Tool not found". */
  function CallTool(tool: string, arg: JsValue): (r: Result<ToolReply, string>)
    ensures tool != ToolName <==> r == Err("Tool not found")
    ensures tool == ToolName ==> r == Ok(TechniqueDetails(arg))
  {
    if tool == ToolName then Ok(TechniqueDetails(arg)) else Err("Tool not found")
  }

  /** Lookup ignores case: a name and its (ASCII) lower-cased form get the same reply. */
  lemma DetailsIgnoreCase(s: string)
    ensures TechniqueDetails(JsString(s)) == TechniqueDetails(JsString(Lower(s)))
  {
    LowerIdempotent(s);
    LowerKeepsUtf16Length(s);
  }

  /** The length limit comes before the lookup: an over-long name is refused even if it mentions a key. */
  lemma LongNameRefused(s: string)
    requires Utf16Length(s) > MaxNameLength
    ensures TechniqueDetails(JsString(s)).ToolError?
  {
  }

  /**
   * The limit is on code units, not characters: a key followed by 19
   * astral characters is 32 characters long but 51 code units, and is refused.
   */
  lemma AstralPaddingRefused(s: string)
    requires s == Keys[0] + seq(19, _ => '\U{1F600}')
    ensures |s| <= MaxNameLength
    ensures TechniqueDetails(JsString(s)) == ToolError("Error: techniqueName is too long (max 50 chars).")
  {
    KeyFacts(0);
    Utf16LengthBmp(Keys[0]);
    Utf16LengthAstralRun('\U{1F600}', 19);
    Utf16LengthAppend(Keys[0], seq(19, _ => '\U{1F600}'));
  }

  /** A string with no upper-case letter is its own lower-case form. */
  lemma LowerFixed(s: string)
    requires forall c :: c in s ==> !IsUpper(c)
    ensures Lower(s) == s
  {
    assert forall i :: 0 <= i < |s| ==> s[i] in s;
  }

  /** The tool's reply to a short lower-case name whose first matching key is the `i`-th. */
  lemma DetailsAt(s: string, i: nat)
    requires Utf16Length(s) <= MaxNameLength && i < |Keys|
    requires forall c :: c in s ==> !IsUpper(c)
    requires FirstMatch(s) == Some(i)
    ensures TechniqueDetails(JsString(s)) == Details(TechniqueAt(i))
  {
    LowerFixed(s);
  }

  /** The first matching key is the one that matches with no earlier key matching. */
  lemma FirstMatchIs(s: string, i: nat)
    requires i < |Keys|
    requires Contains(s, Keys[i]) && forall j :: 0 <= j < i ==> !Contains(s, Keys[j])
    ensures FirstMatch(s) == Some(i)
  {
    var m := FirstMatch(s);
    assert m.Some? && m.value <= i;
  }

  /** The keys are short and lower-case; the later ones lack a letter of each earlier one. */
  lemma KeyFacts(i: nat)
    requires i < |Keys|
    ensures |Keys[i]| <= MaxNameLength && forall c :: c in Keys[i] ==> !IsUpper(c)
    ensures forall j :: 0 <= j < |Keys[i]| ==> !IsAstral(Keys[i][j])
    ensures Keys[0][2] == 'x' && Keys[1][0] == 'd'
    ensures i >= 1 ==> 'x' !in Keys[i]
    ensures i >= 2 ==> 'd' !in Keys[i]
  {
  }

  /**
   * A short name with no capital that starts with the `i`-th key and lacks
   * the letter that marks each earlier key ('x' of "box-breathing", 'd' of
   * "diaphragmatic") finds the `i`-th technique.
   */
  lemma NameFinds(i: nat, s: string)
    requires i < |Keys| && StartsWith(s, Keys[i])
    requires forall j :: 0 <= j < |s| ==> !IsUpper(s[j]) && !IsAstral(s[j])
    requires |s| <= MaxNameLength
    requires i >= 1 ==> 'x' !in s
    requires i >= 2 ==> 'd' !in s
    ensures TechniqueDetails(JsString(s)) == Details(TechniqueAt(i))
  {
    KeyFacts(i);
    StartsWithContains(s, Keys[i]);
    forall j | 0 <= j < i
      ensures !Contains(s, Keys[j])
    {
      if j == 0 {
        MissingChar(s, Keys[0], 2);
      } else {
        MissingChar(s, Keys[1], 0);
      }
    }
    FirstMatchIs(s, i);
    Utf16LengthBmp(s);
    assert forall c :: c in s ==> !IsUpper(c);
    DetailsAt(s, i);
  }

  /** Each key, asked for by name, returns its own technique. */
  lemma KeysFindThemselves(i: nat)
    requires i < |Keys|
    ensures TechniqueDetails(JsString(Keys[i])) == Details(TechniqueAt(i))
  {
    var k := Keys[i];
    KeyFacts(i);
    assert forall j :: 0 <= j < |k| ==> k[j] in k;
    assert StartsWith(k, k);
    NameFinds(i, k);
  }

  /** The resource listing's key for a technique: its name lower-cased, every space a dash. */
  function ResourceKey(name: string): (r: string)
    ensures |r| == |name|
  {
    seq(|name|, i requires 0 <= i < |name| => if name[i] == ' ' then '-' else LowerChar(name[i]))
  }

  /**
   * A resource key is `toLowerCase` followed by replacing every space with
   * '-': it has no space and no upper-case letter.
   */
  lemma ResourceKeyShape(name: string)
    ensures var r := ResourceKey(name);
      r == ReplaceChar(Lower(name), ' ', '-') && ' ' !in r &&
      (forall i :: 0 <= i < |r| ==> !IsUpper(r[i]))
  {
  }

  lemma BoxNameKey(n: string)
    requires n == "Box Breathing"
    ensures ResourceKey(n) == Keys[0]
  {
  }

  lemma DiaphragmaticNameKey(n: string)
    requires n == "Diaphragmatic Breathing"
    ensures ResourceKey(n) == Keys[1] + "-breathing"
  {
  }

  lemma AlternateNameKey(n: string)
    requires n == "Alternate Nostril Breathing"
    ensures ResourceKey(n) == Keys[2] + "-breathing"
  {
  }

  /** The characters of "-breathing": none is a capital, astral, 'x' or 'd'. */
  lemma SuffixChars(t: string)
    requires t == "-breathing"
    ensures forall j :: 0 <= j < |t| ==> !IsUpper(t[j]) && !IsAstral(t[j]) && t[j] != 'x' && t[j] != 'd'
  {
  }

  /** A key followed by "-breathing" finds that key's technique: the suffix adds no earlier key. */
  lemma SuffixedKeyFinds(i: nat, s: string)
    requires i < |Keys| && s == Keys[i] + "-breathing"
    ensures TechniqueDetails(JsString(s)) == Details(TechniqueAt(i))
  {
    var k, t := Keys[i], "-breathing";
    KeyFacts(i);
    SuffixChars(t);
    assert forall j :: 0 <= j < |s| ==> s[j] == if j < |k| then k[j] else t[j - |k|];
    assert forall j :: 0 <= j < |k| ==> k[j] in k;
    assert StartsWith(s, k);
    NameFinds(i, s);
  }

  /** Every key the resource listing publishes, passed to the technique tool, finds the technique it was listed with. */
  lemma ResourceKeysFindTechniques(i: nat)
    requires i < |Keys|
    ensures TechniqueDetails(JsString(ResourceKey(TechniqueAt(i).name))) == Details(TechniqueAt(i))
  {
    var n := TechniqueAt(i).name;
    if i == 0 {
      BoxNameKey(n);
      KeysFindThemselves(0);
    } else if i == 1 {
      DiaphragmaticNameKey(n);
      SuffixedKeyFinds(1, Keys[1] + "-breathing");
    } else {
      AlternateNameKey(n);
      SuffixedKeyFinds(2, Keys[2] + "-breathing");
    }
  }

  /** One entry of the resource listing. */
  datatype ResourceEntry = ResourceEntry(name: string, key: string)

  /** ReadResource: the known URI lists every technique with its key; any other URI throws. */
  function ReadResource(uri: string): (r: Result<seq<ResourceEntry>, string>)
    ensures uri != ResourceUri <==> r == Err("Resource not found")
    ensures r.Ok? ==> |r.value| == |Keys|
    ensures r.Ok? ==> forall i :: 0 <= i < |Keys| ==> r.value[i] == ResourceEntry(TechniqueAt(i).name, ResourceKey(TechniqueAt(i).name))
  {
    if uri == ResourceUri then
      Ok(seq(|Keys|, i requires 0 <= i < |Keys| => ResourceEntry(TechniqueAt(i).name, ResourceKey(TechniqueAt(i).name))))
    else Err("Resource not found")
  }

  /** The coaching prompt's technique: a missing or empty argument falls back to box breathing. */
  function CoachTechnique(arg: Option<string>): (r: string)
    ensures arg.Some? && arg.value != [] ==> r == arg.value
    ensures r == DefaultTechnique <==> arg == None || arg == Some([]) || arg == Some(DefaultTechnique)
  {
    if arg.None? || arg.value == [] then DefaultTechnique else arg.value
  }

  /** GetPrompt: the coaching text around the technique; any other prompt name throws. */
  function GetPrompt(prompt: string, arg: Option<string>): (r: Result<string, string>)
    ensures prompt != PromptName <==> r == Err("Prompt not found")
    ensures r.Ok? ==> Contains(r.value, CoachTechnique(arg))
  {
    if prompt == PromptName then
      var t := CoachTechnique(arg);
      var pre := "Please act as a mindful breathing coach. Guide me through a session of ";
      var text := pre + t + ". Use the 'get_technique_details' tool to understand the timing of the phases.";
      assert OccursAt(text, t, |pre|);
      ContainsIff(text, t);
      Ok(text)
    else Err("Prompt not found")
  }
}

=== FILE: obsidian_view.dfy ===
/**
 * The Obsidian plugin's view: `startAnimation` with its fallback to box
 * breathing, the run closure that wraps an index that ran past the table
 * back to 0 before each lookup, and the increment after each phase. The
 * table is the Electron renderer's. Durations are milliseconds.
 */
module ObsidianView {
  import opened Wrappers
  import ElectronRenderer
  import Techniques
  import Cycle

  /** What a run of the closure puts on the element. */
  datatype Styled = Styled(name: string, scale: real, x: int, color: string, transitionMs: nat)

  /** A started animation: the technique captured by the closure, its counter `i`, the pending delay and what is shown. */
  datatype Animation = Animation(phases: seq<ElectronRenderer.ElectronPhase>, i: nat,
                                 timer: Option<nat>, shown: Option<Styled>)

  /** The counter is at most one past the end: it is only ever reset or incremented after an in-bounds lookup. */
  predicate Valid(a: Animation) {
    |a.phases| > 0 && a.i <= |a.phases|
  }

  /**
   * One run of the closure: an index at or past the end becomes 0, then
   * that phase is shown, with a transition as long as the phase, and the
   * next run is scheduled after its duration.
   */
  function Run(a: Animation): (b: Animation)
    requires |a.phases| > 0
    ensures b.phases == a.phases && b.i < |b.phases|
    ensures b.i == if a.i >= |a.phases| then 0 else a.i
    ensures b.shown.Some? && b.shown.value.name == a.phases[b.i].name
    ensures b.shown.value.transitionMs == a.phases[b.i].duration && b.timer == Some(a.phases[b.i].duration)
  {
    var j := if a.i >= |a.phases| then 0 else a.i;
    var p := a.phases[j];
    a.(i := j, shown := Some(Styled(p.name, p.scale, p.x, p.color, p.duration)), timer := Some(p.duration))
  }

  /** `startAnimation(key)`: clear the old timer, capture the technique, start at 0 and run. */
  function StartAnimation(key: string): (a: Animation)
    ensures a.phases == ElectronRenderer.PhasesOrBox(key) && a.i == 0 && Valid(a)
    ensures a.shown == Some(Styled(a.phases[0].name, a.phases[0].scale, a.phases[0].x, a.phases[0].color, a.phases[0].duration))
  {
    Run(Animation(ElectronRenderer.PhasesOrBox(key), 0, None, None))
  }

  /** The timeout fires: `i++`, then run. */
  function Fire(a: Animation): (b: Animation)
    requires Valid(a)
    ensures Valid(b) && b.phases == a.phases
  {
    Run(a.(i := a.i + 1))
  }

  /** Incrementing and wrapping past the end is the cyclic successor of the index shown. */
  lemma FireIsNext(a: Animation)
    requires |a.phases| > 0 && a.i < |a.phases|
    ensures Fire(a).i == Cycle.Next(a.i, |a.phases|)
  {
  }

  function Fires(a: Animation, k: nat): (b: Animation)
    requires Valid(a)
    ensures Valid(b) && b.phases == a.phases
    decreases k
  {
    if k == 0 then a else Fires(Fire(a), k - 1)
  }

  /** After `k` phases from a start the animation shows phase `k mod n`: the table is visited cyclically in order. */
  lemma {:induction false} FiresCycle(a: Animation, k: nat)
    requires Valid(a) && a.i < |a.phases|
    ensures Fires(a, k).i == (a.i + k) % |a.phases|
    ensures Fires(a, k).i < |a.phases|
    decreases k
  {
    var n := |a.phases|;
    if k == 0 {
      Cycle.ModUnique(a.i, n, 0, a.i);
    } else {
      var b := Fire(a);
      FireIsNext(a);
      FiresCycle(b, k - 1);
      Cycle.ModSucc(a.i, n);
      Cycle.ModUnique(a.i, n, 0, a.i);
      Cycle.ModShift(a.i + 1, k - 1, n);
    }
  }

  /** What the running animation shows after `k` phases of the technique started with `key`. */
  lemma ShownAfter(key: string, k: nat)
    ensures var ps := ElectronRenderer.PhasesOrBox(key); var b := Fires(StartAnimation(key), k);
      b.shown.Some? && b.shown.value.name == ps[k % |ps|].name && b.shown.value.transitionMs == ps[k % |ps|].duration
  {
    var a := StartAnimation(key);
    FiresCycle(a, k);
    if k > 0 {
      ShownAfterFire(a, k);
    }
  }

  /** After at least one firing, the phase shown is the one at the counter. */
  lemma {:induction false} ShownAfterFire(a: Animation, k: nat)
    requires Valid(a) && k > 0
    ensures var b := Fires(a, k);
      b.i < |a.phases| && b.shown.Some? && b.shown.value.name == a.phases[b.i].name && b.shown.value.transitionMs == a.phases[b.i].duration
    decreases k
  {
    if k > 1 {
      ShownAfterFire(Fire(a), k - 1);
    }
  }

  /** The view's tone for a phase: the renderer's ramp for the name's kind, or nothing while silent. */
  function SetPhase(muted: bool, playing: bool, ready: bool, name: string): (r: Option<ElectronRenderer.Ramp>)
    ensures r.None? <==> muted || !playing || !ready
    ensures r.Some? ==> r.value == ElectronRenderer.KindRamp(Techniques.KindOf(name))
  {
    ElectronRenderer.SetPhase(muted, playing, ready, name)
  }
}

=== FILE: p5_sketch.dfy ===
/**
 * The p5.js sketch: three key-selectable techniques, a phase clock read on
 * every frame, and a circle whose scale eases in over an inhale, eases out
 * over an exhale and stays put over a hold.
 */
module P5Sketch {
  import opened Wrappers
  import opened Techniques
  import Cycle
  import RealArith

  /** A phase of the sketch's table: its name, length in milliseconds and horizontal offset. */
  datatype SketchPhase = SketchPhase(name: string, duration: nat, x: int)

  const BoxTable: seq<SketchPhase> := [
    SketchPhase("Inhale", 4000, 0), SketchPhase("Hold", 4000, 0),
    SketchPhase("Exhale", 4000, 0), SketchPhase("Hold", 4000, 0)]
  const DiaphragmaticTable: seq<SketchPhase> := [
    SketchPhase("Inhale", 5000, 0), SketchPhase("Exhale", 5000, 0)]
  const AlternateTable: seq<SketchPhase> := [
    SketchPhase("Inhale Left", 4000, -50), SketchPhase("Hold", 4000, 0),
    SketchPhase("Exhale Right", 4000, 50), SketchPhase("Hold", 4000, 0),
    SketchPhase("Inhale Right", 4000, 50), SketchPhase("Hold", 4000, 0),
    SketchPhase("Exhale Left", 4000, -50), SketchPhase("Hold", 4000, 0)]

  /** The sketch's table lookup by technique key. */
  function Lookup(key: string): Option<seq<SketchPhase>> {
    if key == "box" then Some(BoxTable)
    else if key == "diaphragmatic" then Some(DiaphragmaticTable)
    else if key == "alternate" then Some(AlternateTable)
    else None
  }

  /** Dropping the offsets gives the shared tables in milliseconds. */
  function Plain(t: seq<SketchPhase>): (ps: seq<Phase>)
    ensures |ps| == |t|
    ensures forall i :: 0 <= i < |t| ==> ps[i] == Phase(t[i].name, t[i].duration)
  {
    seq(|t|, i requires 0 <= i < |t| => Phase(t[i].name, t[i].duration))
  }

  /** The sketch's tables are the shared box, diaphragmatic and alternate-nostril tables. */
  lemma TablesAreShared()
    ensures Plain(BoxTable) == BoxPhases(1000)
    ensures Plain(DiaphragmaticTable) == DiaphragmaticPhases(1000)
    ensures Plain(AlternateTable) == AlternatePhases(1000)
  {
  }

  /** The sketch's variables: the technique, its phases, the phase index and when the phase began. */
  datatype Sketch = Sketch(technique: string, phases: seq<SketchPhase>, index: nat, lastChange: int)

  /** The table in use is a known technique's and the index points into it. */
  predicate Valid(s: Sketch) {
    Lookup(s.technique) == Some(s.phases) && s.index < |s.phases|
  }

  /** The state after `setup` at time `now`. */
  function Setup(now: int): (s: Sketch)
    ensures Valid(s)
  {
    Sketch("box", BoxTable, 0, now)
  }

  /** `setTechnique`: a known key switches to its table at the first phase and restarts the phase clock. */
  function SetTechnique(s: Sketch, key: string, now: int): (r: Sketch)
    ensures Lookup(key).Some? ==> r == Sketch(key, Lookup(key).value, 0, now)
    ensures Lookup(key).None? ==> r == s
    ensures Valid(s) ==> Valid(r)
  {
    match Lookup(key)
    case Some(t) => Sketch(key, t, 0, now)
    case None => s
  }

  /** `keyPressed`: '1', '2' and '3' pick box, diaphragmatic and alternate; every other key is ignored. */
  function KeyPressed(s: Sketch, key: string, now: int): (r: Sketch)
    ensures key == "1" ==> r == Sketch("box", BoxTable, 0, now)
    ensures key == "2" ==> r == Sketch("diaphragmatic", DiaphragmaticTable, 0, now)
    ensures key == "3" ==> r == Sketch("alternate", AlternateTable, 0, now)
    ensures key != "1" && key != "2" && key != "3" ==> r == s
    ensures Valid(s) ==> Valid(r)
  {
    if key == "1" then SetTechnique(s, "box", now)
    else if key == "2" then SetTechnique(s, "diaphragmatic", now)
    else if key == "3" then SetTechnique(s, "alternate", now)
    else s
  }

  /** The ease-in-out curve `3t² − 2t³`. */
  function SmoothStep(t: real): (r: real)
    ensures 0.0 <= t <= 1.0 ==> 0.0 <= r <= 1.0
  {
    SmoothStepBounds(t);
    t * t * (3.0 - 2.0 * t)
  }

  lemma SmoothStepBounds(t: real)
    ensures 0.0 <= t <= 1.0 ==> 0.0 <= t * t * (3.0 - 2.0 * t) <= 1.0
  {
    if 0.0 <= t <= 1.0 {
      var q := (1.0 - t) * (1.0 - t);
      assert 1.0 - t * t * (3.0 - 2.0 * t) == q * (1.0 + 2.0 * t);
      RealArith.MulNonneg(1.0 - t, 1.0 - t);
      RealArith.MulNonneg(q, 1.0 + 2.0 * t);
      RealArith.MulNonneg(t, t);
      RealArith.MulNonneg(t * t, 3.0 - 2.0 * t);
    }
  }

  /** The difference of two smoothstep values factors through the gap between their arguments. */
  lemma SmoothStepDifference(a: real, b: real)
    ensures SmoothStep(b) - SmoothStep(a) == (b - a) * (3.0 * (a + b) - 2.0 * (a * a + a * b + b * b))
  {
  }

  lemma SlopeNonneg(a: real, b: real)
    requires 0.0 <= a <= b <= 1.0
    ensures 3.0 * (a + b) - 2.0 * (a * a + a * b + b * b) >= 0.0
  {
    RealArith.MulNonneg(a, 1.0 - a);
    RealArith.MulNonneg(b, 1.0 - b);
    RealArith.MulNonneg(a, 1.0 - b);
    assert a * a <= a && b * b <= b && a * b <= a;
  }

  /** The ease-in-out curve never goes back: later progress gives at least as much. */
  lemma SmoothStepMonotone(a: real, b: real)
    requires 0.0 <= a <= b <= 1.0
    ensures SmoothStep(a) <= SmoothStep(b)
  {
    SmoothStepDifference(a, b);
    SlopeNonneg(a, b);
    RealArith.MulNonneg(b - a, 3.0 * (a + b) - 2.0 * (a * a + a * b + b * b));
  }

  /** Scale over an inhale at progress `p`: from 1 up to 1.5. */
  function InhaleScale(p: real): (r: real)
    ensures 0.0 <= p <= 1.0 ==> 1.0 <= r <= 1.5
  {
    1.0 + SmoothStep(p) * 0.5
  }

  /** Scale over an exhale at progress `p`: from 1.5 down to 1. */
  function ExhaleScale(p: real): (r: real)
    ensures 0.0 <= p <= 1.0 ==> 1.0 <= r <= 1.5
  {
    1.5 - SmoothStep(p) * 0.5
  }

  /** The ends of the eased scales, and the exhale mirrors the inhale about 1.25. */
  lemma ScaleEnds(p: real)
    ensures InhaleScale(0.0) == 1.0 && InhaleScale(1.0) == 1.5
    ensures ExhaleScale(0.0) == 1.5 && ExhaleScale(1.0) == 1.0
    ensures InhaleScale(p) + ExhaleScale(p) == 2.5
  {
  }

  /** The circle grows throughout an inhale and shrinks throughout an exhale. */
  lemma ScaleMonotone(a: real, b: real)
    requires 0.0 <= a <= b <= 1.0
    ensures InhaleScale(a) <= InhaleScale(b)
    ensures ExhaleScale(b) <= ExhaleScale(a)
  {
    SmoothStepMonotone(a, b);
  }

  /** The scale held during the hold at `i`: full after an inhale, empty otherwise. */
  function HoldScale(phases: seq<SketchPhase>, i: nat): (r: real)
    requires i < |phases|
    ensures r == 1.5 <==> PrefixKind(phases[Cycle.Prev(i, |phases|)].name) == Inhale
    ensures r == 1.0 || r == 1.5
  {
    if PrefixKind(phases[Cycle.Prev(i, |phases|)].name) == Inhale then 1.5 else 1.0
  }

  /** The scale of a phase of kind `k` at `progress`, holds keeping `hold`. */
  function KindScale(k: Kind, hold: real, progress: real): real {
    match k
    case Inhale => InhaleScale(progress)
    case Exhale => ExhaleScale(progress)
    case Hold => hold
  }

  /** The scale drawn for `phase` at `progress`, a hold taking its scale from the phase before index `i`. */
  function ScaleOf(phases: seq<SketchPhase>, phase: SketchPhase, i: nat, progress: real): real
    requires i < |phases|
  {
    KindScale(PrefixKind(phase.name), HoldScale(phases, i), progress)
  }

  /** What one frame draws: the phase name shown and the circle's scale. */
  datatype Frame = Frame(name: string, scale: real)

  /** The phase clock of one frame: advance past a phase whose time is strictly exceeded. */
  function Tick(s: Sketch, now: int): (r: Sketch)
    requires Valid(s)
    ensures Valid(r)
    ensures r.technique == s.technique && r.phases == s.phases
    ensures now - s.lastChange > s.phases[s.index].duration ==>
      r.index == Cycle.Next(s.index, |s.phases|) && r.lastChange == now
    ensures now - s.lastChange <= s.phases[s.index].duration ==> r == s
  {
    if now - s.lastChange > s.phases[s.index].duration then
      s.(index := Cycle.Next(s.index, |s.phases|), lastChange := now)
    else s
  }

  /** Every table entry lasts a positive time. */
  lemma DurationsPositive(s: Sketch)
    requires Valid(s)
    ensures forall i :: 0 <= i < |s.phases| ==> s.phases[i].duration > 0
  {
  }

  /**
   * `draw` as written: the phase read before the clock advances is the one
   * drawn, at the progress measured after it (0 on the frame that advances),
   * and a hold looks up the phase before the advanced index.
   */
  function DrawAsWritten(s: Sketch, now: int): (r: (Sketch, Frame))
    requires Valid(s)
    ensures r.0 == Tick(s, now)
  {
    DurationsPositive(s);
    var phase := s.phases[s.index];
    var t := Tick(s, now);
    var progress := (now - t.lastChange) as real / phase.duration as real;
    (t, Frame(phase.name, ScaleOf(s.phases, phase, t.index, progress)))
  }

  /** `draw` with the phase read after the clock advances, so a finished phase is never drawn again. */
  function Draw(s: Sketch, now: int): (r: (Sketch, Frame))
    requires Valid(s)
    ensures r.0 == Tick(s, now)
    ensures r.1.name == r.0.phases[r.0.index].name
  {
    var t := Tick(s, now);
    DurationsPositive(t);
    var phase := t.phases[t.index];
    var progress := (now - t.lastChange) as real / phase.duration as real;
    (t, Frame(phase.name, ScaleOf(t.phases, phase, t.index, progress)))
  }

  /** While the clock runs forward, every frame's scale lies in `[1, 1.5]`. */
  lemma DrawScaleInRange(s: Sketch, now: int)
    requires Valid(s) && now >= s.lastChange
    ensures 1.0 <= Draw(s, now).1.scale <= 1.5
    ensures 1.0 <= DrawAsWritten(s, now).1.scale <= 1.5
  {
    DrawInRange(s, now);
    DrawAsWrittenInRange(s, now);
  }

  /** At any progress in `[0, 1]` the scale lies in `[1, 1.5]`. */
  lemma ScaleInRange(phases: seq<SketchPhase>, phase: SketchPhase, i: nat, progress: real)
    requires i < |phases| && 0.0 <= progress <= 1.0
    ensures 1.0 <= ScaleOf(phases, phase, i, progress) <= 1.5
  {
  }

  lemma DrawInRange(s: Sketch, now: int)
    requires Valid(s) && now >= s.lastChange
    ensures 1.0 <= Draw(s, now).1.scale <= 1.5
  {
    var t := Tick(s, now);
    DurationsPositive(t);
    var d := t.phases[t.index].duration as real;
    var e := (now - t.lastChange) as real;
    RealArith.DivUnit(e, d);
    ScaleInRange(t.phases, t.phases[t.index], t.index, e / d);
  }

  lemma DrawAsWrittenInRange(s: Sketch, now: int)
    requires Valid(s) && now >= s.lastChange
    ensures 1.0 <= DrawAsWritten(s, now).1.scale <= 1.5
  {
    var t := Tick(s, now);
    DurationsPositive(s);
    var d := s.phases[s.index].duration as real;
    var e := (now - t.lastChange) as real;
    RealArith.DivUnit(e, d);
    ScaleInRange(s.phases, s.phases[s.index], t.index, e / d);
  }

  /** The scale a phase ends on. */
  function EndScale(phases: seq<SketchPhase>, i: nat): real
    requires i < |phases|
  {
    ScaleOf(phases, phases[i], i, 1.0)
  }

  /** The scale a phase starts on. */
  function StartScale(phases: seq<SketchPhase>, i: nat): real
    requires i < |phases|
  {
    ScaleOf(phases, phases[i], i, 0.0)
  }

  /** In a table the next phase starts on the scale the previous one ended on. */
  predicate Seamless(phases: seq<SketchPhase>)
    requires |phases| > 0
  {
    forall i :: 0 <= i < |phases| ==> EndScale(phases, i) == StartScale(phases, Cycle.Next(i, |phases|))
  }

  /** The scale a hold at `i` keeps: full after an inhale. */
  function KindHold(ks: seq<Kind>, i: nat): real
    requires i < |ks|
  {
    if ks[Cycle.Prev(i, |ks|)] == Inhale then 1.5 else 1.0
  }

  /** The scale a phase of kind `k` ends on, a hold keeping `hold`. */
  function EndOf(k: Kind, hold: real): real {
    match k
    case Inhale => 1.5
    case Exhale => 1.0
    case Hold => hold
  }

  /** The scale a phase of kind `k` starts on, a hold keeping `hold`. */
  function StartOf(k: Kind, hold: real): real {
    match k
    case Inhale => 1.0
    case Exhale => 1.5
    case Hold => hold
  }

  function KindEnd(ks: seq<Kind>, i: nat): real
    requires i < |ks|
  {
    EndOf(ks[i], KindHold(ks, i))
  }

  function KindStart(ks: seq<Kind>, i: nat): real
    requires i < |ks|
  {
    StartOf(ks[i], KindHold(ks, i))
  }

  predicate KindsSeamless(ks: seq<Kind>)
    requires |ks| > 0
  {
    forall i :: 0 <= i < |ks| ==> KindEnd(ks, i) == KindStart(ks, Cycle.Next(i, |ks|))
  }

  /** The start and end scales of phase `i` depend only on the kinds of the phase names. */
  lemma HoldByKind(phases: seq<SketchPhase>, ks: seq<Kind>, i: nat)
    requires |phases| == |ks| && i < |ks|
    requires forall j :: 0 <= j < |ks| ==> PrefixKind(phases[j].name) == ks[j]
    ensures HoldScale(phases, i) == KindHold(ks, i)
  {
    var p := Cycle.Prev(i, |ks|);
    assert PrefixKind(phases[p].name) == ks[p];
  }

  /** A phase ends on its eased scale at progress 1 and starts on it at progress 0. */
  lemma EasedEnds(k: Kind, h: real)
    ensures KindScale(k, h, 1.0) == EndOf(k, h)
    ensures KindScale(k, h, 0.0) == StartOf(k, h)
  {
    assert SmoothStep(1.0) == 1.0;
    assert SmoothStep(0.0) == 0.0;
  }

  lemma ScaleByKind(phases: seq<SketchPhase>, ks: seq<Kind>, i: nat)
    requires |phases| == |ks| && i < |ks|
    requires forall j :: 0 <= j < |ks| ==> PrefixKind(phases[j].name) == ks[j]
    ensures EndScale(phases, i) == KindEnd(ks, i) && StartScale(phases, i) == KindStart(ks, i)
  {
    HoldByKind(phases, ks, i);
    var h := HoldScale(phases, i);
    assert PrefixKind(phases[i].name) == ks[i];
    assert EndScale(phases, i) == KindScale(ks[i], h, 1.0);
    assert StartScale(phases, i) == KindScale(ks[i], h, 0.0);
    EasedEnds(ks[i], h);
  }

  lemma ScalesByKind(phases: seq<SketchPhase>, ks: seq<Kind>)
    requires |phases| == |ks| > 0
    requires forall j :: 0 <= j < |ks| ==> PrefixKind(phases[j].name) == ks[j]
    requires KindsSeamless(ks)
    ensures Seamless(phases)
  {
    forall i | 0 <= i < |ks|
      ensures EndScale(phases, i) == StartScale(phases, Cycle.Next(i, |ks|))
    {
      ScaleByKind(phases, ks, i);
      ScaleByKind(phases, ks, Cycle.Next(i, |ks|));
    }
  }

  function Names(t: seq<SketchPhase>): (ns: seq<string>)
    ensures |ns| == |t|
    ensures forall i :: 0 <= i < |t| ==> ns[i] == t[i].name
  {
    seq(|t|, i requires 0 <= i < |t| => t[i].name)
  }

  /** Each table's phase names carry the kinds of the shared tables. */
  lemma SketchKinds(t: seq<SketchPhase>, names: seq<string>, ks: seq<Kind>)
    requires Names(t) == names && PrefixKindsOf(names) == ks
    ensures |t| == |ks|
    ensures forall j :: 0 <= j < |ks| ==> PrefixKind(t[j].name) == ks[j]
  {
  }

  lemma BoxKindsSeamless()
    ensures KindsSeamless(BoxKinds)
  {
    assert KindEnd(BoxKinds, 0) == KindStart(BoxKinds, 1);
    assert KindEnd(BoxKinds, 1) == KindStart(BoxKinds, 2);
    assert KindEnd(BoxKinds, 2) == KindStart(BoxKinds, 3);
    assert KindEnd(BoxKinds, 3) == KindStart(BoxKinds, 0);
  }

  lemma DiaphragmaticKindsSeamless()
    ensures KindsSeamless(DiaphragmaticKinds)
  {
    assert KindEnd(DiaphragmaticKinds, 0) == KindStart(DiaphragmaticKinds, 1);
    assert KindEnd(DiaphragmaticKinds, 1) == KindStart(DiaphragmaticKinds, 0);
  }

  lemma AlternateKindsSeamless()
    ensures KindsSeamless(AlternateKinds)
  {
    var ks := AlternateKinds;
    assert KindEnd(ks, 0) == KindStart(ks, 1);
    assert KindEnd(ks, 1) == KindStart(ks, 2);
    assert KindEnd(ks, 2) == KindStart(ks, 3);
    assert KindEnd(ks, 3) == KindStart(ks, 4);
    assert KindEnd(ks, 4) == KindStart(ks, 5);
    assert KindEnd(ks, 5) == KindStart(ks, 6);
    assert KindEnd(ks, 6) == KindStart(ks, 7);
    assert KindEnd(ks, 7) == KindStart(ks, 0);
  }

  /** In all three tables every phase change is seamless. */
  lemma TablesSeamless()
    ensures Seamless(BoxTable)
    ensures Seamless(DiaphragmaticTable)
    ensures Seamless(AlternateTable)
  {
    TableKinds();
    assert Names(BoxTable) == BoxNames;
    assert Names(DiaphragmaticTable) == DiaphragmaticNames;
    assert Names(AlternateTable) == AlternateNames;
    SketchKinds(BoxTable, BoxNames, BoxKinds);
    SketchKinds(DiaphragmaticTable, DiaphragmaticNames, DiaphragmaticKinds);
    SketchKinds(AlternateTable, AlternateNames, AlternateKinds);
    BoxKindsSeamless();
    DiaphragmaticKindsSeamless();
    AlternateKindsSeamless();
    ScalesByKind(BoxTable, BoxKinds);
    ScalesByKind(DiaphragmaticTable, DiaphragmaticKinds);
    ScalesByKind(AlternateTable, AlternateKinds);
  }

  /**
   * With the phase read after the clock advances, the frame on which a phase
   * ends shows the scale that phase finished on: the circle never jumps.
   */
  lemma DrawSeamless(s: Sketch, now: int)
    requires Valid(s) && now - s.lastChange > s.phases[s.index].duration
    ensures Draw(s, now).1.scale == EndScale(s.phases, s.index)
  {
    ValidSeamless(s);
    DrawAtChange(s, now);
    assert EndScale(s.phases, s.index) == StartScale(s.phases, Cycle.Next(s.index, |s.phases|));
  }

  /** The table of a valid sketch is one of the three, so it is seamless. */
  lemma ValidSeamless(s: Sketch)
    requires Valid(s)
    ensures Seamless(s.phases)
  {
    TablesSeamless();
  }

  /** On the frame that advances the clock, the next phase is drawn at progress 0. */
  lemma DrawAtChange(s: Sketch, now: int)
    requires Valid(s) && now - s.lastChange > s.phases[s.index].duration
    ensures Draw(s, now).1.scale == StartScale(s.phases, Cycle.Next(s.index, |s.phases|))
  {
    var t := Tick(s, now);
    DurationsPositive(t);
    assert (now - t.lastChange) as real / t.phases[t.index].duration as real == 0.0;
  }

  /**
   * As written, the last frame of box breathing's first inhale (ended at
   * scale 1.5) is drawn at scale 1: the finished inhale at progress 0.
   */
  lemma DrawAsWrittenJumps(s: Sketch, now: int)
    requires s == Setup(0) && now == 4001
    ensures EndScale(s.phases, s.index) == 1.5
    ensures DrawAsWritten(s, now).1 == Frame("Inhale", 1.0)
    ensures Draw(s, now).1 == Frame("Hold", 1.5)
  {
    FirstInhaleEnd();
    AsWrittenFirstChange();
    FixedFirstChange();
  }

  lemma BoxKindsByPrefix()
    ensures PrefixKind(BoxTable[0].name) == Inhale && PrefixKind(BoxTable[1].name) == Hold
  {
    TableKinds();
    assert Names(BoxTable) == BoxNames;
    SketchKinds(BoxTable, BoxNames, BoxKinds);
  }

  lemma FirstInhaleEnd()
    ensures EndScale(BoxTable, 0) == 1.5
  {
    BoxKindsByPrefix();
    assert SmoothStep(1.0) == 1.0;
  }

  lemma AsWrittenFirstChange()
    ensures DrawAsWritten(Setup(0), 4001).1 == Frame("Inhale", 1.0)
  {
    BoxKindsByPrefix();
    assert Tick(Setup(0), 4001).lastChange == 4001;
    assert SmoothStep(0.0) == 0.0;
  }

  lemma FixedFirstChange()
    ensures Draw(Setup(0), 4001).1 == Frame("Hold", 1.5)
  {
    BoxKindsByPrefix();
    var t := Tick(Setup(0), 4001);
    assert t.index == 1;
    assert Cycle.Prev(1, 4) == 0;
    assert HoldScale(BoxTable, 1) == 1.5;
  }
}

=== FILE: patterns.dfy ===
/**
 * The web front end's breathing patterns (a square-ish trapezoid and a
 * triangle wave over a cycle set by a speed in breaths per minute) and the
 * helpers that interpolate a value and sample a pattern once per second.
 */
module Patterns {
  import opened RealArith
  import Waveform

  /** Seconds per square cycle: 60 / speed, negative for a negative speed. */
  function SquareCycle(speed: real): (c: real)
    requires speed != 0.0
    ensures speed > 0.0 ==> c > 0.0
    ensures speed < 0.0 ==> c < 0.0
  {
    QuotientSign(60.0, speed);
    60.0 / speed
  }

  /** Seconds per triangle cycle: 120 / speed, negative for a negative speed. */
  function TriangleCycle(speed: real): (c: real)
    requires speed != 0.0
    ensures speed > 0.0 ==> c > 0.0
    ensures speed < 0.0 ==> c < 0.0
  {
    QuotientSign(120.0, speed);
    120.0 / speed
  }

  /**
   * The square pattern at a given `phase` of a cycle of `c` seconds. With a
   * negative cycle every non-negative phase is past all three marks.
   */
  function SquareShape(phase: real, c: real): (r: real)
    requires c != 0.0
    ensures c > 0.0 && 0.0 <= phase ==> 0.0 <= r <= 1.0
    ensures c < 0.0 && 0.0 <= phase ==> r == 0.0
  {
    if phase < c / 4.0 then
      assert c > 0.0 && 0.0 <= phase ==> phase / (c / 4.0) <= 1.0 by {
        if c > 0.0 && 0.0 <= phase { DivUnit(phase, c / 4.0); }
      }
      phase / (c / 4.0)
    else if phase < c / 2.0 then 1.0
    else if phase < 3.0 * c / 4.0 then
      assert c > 0.0 ==> 0.0 <= (phase - c / 2.0) / (c / 4.0) <= 1.0 by {
        if c > 0.0 { DivUnit(phase - c / 2.0, c / 4.0); }
      }
      1.0 - (phase - c / 2.0) / (c / 4.0)
    else 0.0
  }

  /**
   * `square(time, speed)`: with `phase = time % cycle` (JavaScript remainder),
   * rise over the first quarter, hold 1 to the half, fall over the third
   * quarter, then 0. A negative speed gives a negative cycle, and then the
   * pattern is 0 at every non-negative time.
   */
  function Square(time: real, speed: real): (r: real)
    requires speed != 0.0
    ensures speed > 0.0 && time >= 0.0 ==> 0.0 <= r <= 1.0
    ensures speed < 0.0 && time >= 0.0 ==> r == 0.0
  {
    SquareShape(JsRem(time, SquareCycle(speed)), SquareCycle(speed))
  }

  /**
   * The triangle pattern at a given `phase` of a cycle of `c` seconds. With a
   * negative cycle every non-negative phase falls in the second branch, which
   * then gives 2 or more.
   */
  function TriangleShape(phase: real, c: real): (r: real)
    requires c != 0.0
    ensures c > 0.0 && 0.0 <= phase < c ==> 0.0 <= r <= 1.0
    ensures c < 0.0 && 0.0 <= phase ==> r >= 2.0
  {
    var h := c / 2.0;
    if phase < h then
      assert c > 0.0 && 0.0 <= phase ==> 0.0 <= phase / h <= 1.0 by {
        if c > 0.0 && 0.0 <= phase { DivUnit(phase, h); }
      }
      phase / h
    else
      assert c > 0.0 && phase < c ==> 0.0 <= 1.0 - (phase - h) / h <= 1.0 by {
        if c > 0.0 && phase < c { DivUnit(phase - h, h); }
      }
      assert c < 0.0 && 0.0 <= phase ==> 1.0 - (phase - h) / h >= 2.0 by {
        if c < 0.0 && 0.0 <= phase { NegativeHalfStep(phase, h); }
      }
      1.0 - (phase - h) / h
  }

  /** Past the first half of a negative cycle the falling branch is at least 2. */
  lemma NegativeHalfStep(phase: real, h: real)
    requires h < 0.0 && 0.0 <= phase
    ensures 1.0 - (phase - h) / h >= 2.0
  {
    var g := -h;
    DivNegDivisor(phase - h, g);
    DivMul(phase - h, g);
    var q := (phase - h) / g;
    assert (phase - h) / h == -q;
    if q < 1.0 { MulLt(q, 1.0, g); }
    assert q >= 1.0;
  }

  /**
   * `triangle(time, speed)`: rise over the first half of the cycle, fall over
   * the second. A negative speed gives a negative cycle, and then the pattern
   * is 2 or more at every non-negative time.
   */
  function Triangle(time: real, speed: real): (r: real)
    requires speed != 0.0
    ensures speed > 0.0 && time >= 0.0 ==> 0.0 <= r <= 1.0
    ensures speed < 0.0 && time >= 0.0 ==> r >= 2.0
  {
    TriangleShape(JsRem(time, TriangleCycle(speed)), TriangleCycle(speed))
  }

  /** The time on the 16-second box curve that corresponds to `t` seconds into a cycle of `c` seconds. */
  function BoxTime(t: real, c: real): real
    requires c > 0.0
  {
    t * (Waveform.BoxPeriod / c)
  }

  /** One square cycle of `c` seconds traced at 16/c speed is one cycle of the box segments. */
  lemma SquareShapeIsSegment(p: real, c: real)
    requires c > 0.0 && 0.0 <= p
    ensures SquareShape(p, c) == Waveform.BoxSegment(BoxTime(p, c))
  {
    var s := Waveform.BoxPeriod / c;
    assert c * s == 16.0 by { DivMul(16.0, c); }
    assert (c / 4.0) * s == 4.0 && (c / 2.0) * s == 8.0 && (3.0 * c / 4.0) * s == 12.0;
    var q := p * s;
    ScaledCompare(p, c / 4.0, s, 4.0);
    ScaledCompare(p, c / 2.0, s, 8.0);
    ScaledCompare(p, 3.0 * c / 4.0, s, 12.0);
    assert p / (c / 4.0) == q / 4.0;
    assert (p - c / 2.0) / (c / 4.0) == (q - 8.0) / 4.0;
    assert BoxTime(p, c) == q;
  }

  /** Reducing modulo the cycle, then scaling, is reducing the scaled time modulo 16. */
  lemma ScaledPhase(time: real, c: real)
    requires c > 0.0 && time >= 0.0
    ensures PyMod(BoxTime(time, c), Waveform.BoxPeriod) == BoxTime(JsRem(time, c), c)
  {
    var s := Waveform.BoxPeriod / c;
    DivMul(Waveform.BoxPeriod, c);
    JsRemIsPyMod(time, c);
    var p := PyMod(time, c);
    var f := (time / c).Floor;
    assert time == p + f as real * c;
    assert time * s == p * s + f as real * (c * s);
    MulLe(0.0, p, s);
    MulLt(p, c, s);
    PyModUnique(time * s, Waveform.BoxPeriod, f, p * s);
    assert BoxTime(time, c) == time * s;
    assert BoxTime(JsRem(time, c), c) == p * s;
  }

  /**
   * The square pattern is the box lung-volume curve played at another speed:
   * one square cycle of `60/speed` seconds spans the box curve's 16 seconds.
   */
  lemma SquareIsBox(time: real, speed: real)
    requires speed > 0.0 && time >= 0.0
    ensures Square(time, speed) == Waveform.PiecewiseBox(BoxTime(time, SquareCycle(speed)))
  {
    var c := SquareCycle(speed);
    ScaledPhase(time, c);
    SquareShapeIsSegment(JsRem(time, c), c);
  }

  /** Comparing against `a` is comparing against `a * s` after scaling by a positive `s`. */
  lemma ScaledCompare(p: real, a: real, s: real, v: real)
    requires s > 0.0 && a * s == v
    ensures p * s < v <==> p < a
  {
    if p < a { MulLt(p, a, s); }
    if p >= a { MulLe(a, p, s); }
  }

  /** The square pattern repeats every `60/speed` seconds of non-negative time. */
  lemma SquarePeriodic(time: real, speed: real, k: nat)
    requires speed > 0.0 && time >= 0.0
    ensures Square(time + k as real * SquareCycle(speed), speed) == Square(time, speed)
  {
    SquareShift(time, time + k as real * SquareCycle(speed), speed, k);
  }

  /** A time `later` whole cycles after `time` draws the same value. */
  lemma SquareShift(time: real, later: real, speed: real, k: nat)
    requires speed > 0.0 && time >= 0.0 && later == time + k as real * SquareCycle(speed)
    ensures Square(later, speed) == Square(time, speed)
  {
    var c := SquareCycle(speed);
    JsRemShift(time, later, c, k);
    SamePhaseSameSquare(later, time, c, speed);
  }

  /** Two times at the same phase of the square cycle draw the same value. */
  lemma SamePhaseSameSquare(a: real, b: real, c: real, speed: real)
    requires speed > 0.0 && c == SquareCycle(speed) && JsRem(a, c) == JsRem(b, c)
    ensures Square(a, speed) == Square(b, speed)
  {
  }

  /** A non-negative time already inside the first cycle is its own phase. */
  lemma JsRemId(x: real, m: real)
    requires m > 0.0 && 0.0 <= x < m
    ensures JsRem(x, m) == x
  {
    JsRemIsPyMod(x, m);
    PyModId(x, m);
  }

  /** Whole cycles added to a non-negative time do not change its phase. */
  lemma JsRemShift(x: real, y: real, m: real, k: nat)
    requires m > 0.0 && x >= 0.0 && y == x + k as real * m
    ensures JsRem(y, m) == JsRem(x, m)
  {
    MulLe(0.0, k as real, m);
    JsRemIsPyMod(x, m);
    JsRemIsPyMod(y, m);
    PyModShift(x, m, k);
  }

  /** The triangle pattern repeats every `120/speed` seconds of non-negative time. */
  lemma TrianglePeriodic(time: real, speed: real)
    requires speed > 0.0 && time >= 0.0
    ensures Triangle(time + TriangleCycle(speed), speed) == Triangle(time, speed)
  {
    var c := TriangleCycle(speed);
    JsRemShift(time, time + c, c, 1);
    assert JsRem(time + c, c) == JsRem(time, c);
  }

  /** Within a cycle the triangle is symmetric: as far from the end as from the start gives the same value. */
  lemma TriangleSymmetric(p: real, speed: real)
    requires speed > 0.0 && 0.0 < p < TriangleCycle(speed)
    ensures Triangle(TriangleCycle(speed) - p, speed) == Triangle(p, speed)
  {
    var c := TriangleCycle(speed);
    JsRemId(p, c);
    JsRemId(c - p, c);
    var h := c / 2.0;
    assert (c - p - h) / h == (h - p) / h;
    assert 1.0 - (h - p) / h == p / h;
    assert 1.0 - (p - h) / h == (c - p) / h;
  }

  /** The triangle starts a cycle at 0, is half-way at a quarter and peaks at exactly half a cycle. */
  lemma TriangleMarks(speed: real)
    requires speed > 0.0
    ensures Triangle(0.0, speed) == 0.0
    ensures Triangle(TriangleCycle(speed) / 4.0, speed) == 0.5
    ensures Triangle(TriangleCycle(speed) / 2.0, speed) == 1.0
  {
    var c := TriangleCycle(speed);
    JsRemId(0.0, c);
    JsRemId(c / 4.0, c);
    JsRemId(c / 2.0, c);
  }

  /** The square pattern at the quarter marks of its cycle. */
  lemma SquareMarks(speed: real)
    requires speed > 0.0
    ensures Square(0.0, speed) == 0.0
    ensures Square(SquareCycle(speed) / 4.0, speed) == 1.0
    ensures Square(SquareCycle(speed) / 2.0, speed) == 1.0
    ensures Square(3.0 * SquareCycle(speed) / 4.0, speed) == 0.0
  {
    var c := SquareCycle(speed);
    JsRemId(0.0, c);
    JsRemId(c / 4.0, c);
    JsRemId(c / 2.0, c);
    JsRemId(3.0 * c / 4.0, c);
  }

  /**
   * For negative time the JavaScript remainder is negative and both patterns
   * leave `[0, 1]`: at one breath per second half a second before zero the
   * square pattern gives -2, and the triangle -1 a second before zero.
   */
  lemma NegativeTimeLeavesRange()
    ensures Square(-0.5, 60.0) == -2.0
    ensures Triangle(-1.0, 60.0) == -1.0
  {
    assert SquareCycle(60.0) == 1.0;
    assert Trunc(-0.5 / 1.0) == 0;
    assert JsRem(-0.5, 1.0) == -0.5;
    assert TriangleCycle(60.0) == 2.0;
    assert Trunc(-1.0 / 2.0) == 0;
    assert JsRem(-1.0, 2.0) == -1.0;
  }

  /**
   * A negative speed makes the cycle negative: at 12 breaths per minute
   * backwards the triangle starts at 2, and the square is 0 from the start.
   */
  lemma NegativeSpeedLeavesRange()
    ensures Triangle(0.0, -12.0) == 2.0
    ensures Square(0.0, -12.0) == 0.0
  {
    assert TriangleCycle(-12.0) == -10.0;
    assert JsRem(0.0, -10.0) == 0.0;
  }
}

=== FILE: progress.dfy ===
/**
 * The progress-bar component: a once-a-second counter that runs through one
 * inhale-hold-exhale cycle and stops, the phase read off the counter, and
 * the bar's width as a percentage of the cycle.
 */
module Progress {
  import opened Wrappers
  import opened Techniques
  import Cycle

  /** The three phase lengths in seconds, as given to the component. */
  datatype Durations = Durations(inhale: nat, hold: nat, exhale: nat)

  function Total(d: Durations): nat {
    d.inhale + d.hold + d.exhale
  }

  /** The counter and whether its interval is still running. */
  datatype Counter = Counter(progress: nat, running: bool)

  const Start: Counter := Counter(0, true)

  /**
   * One interval tick: a running counter adds one; going past the total
   * clears the interval and the counter returns to 0. A cleared interval
   * never fires again.
   */
  function Tick(c: Counter, total: nat): (r: Counter)
    ensures !c.running ==> r == c
    ensures c.running && c.progress + 1 <= total ==> r == Counter(c.progress + 1, true)
    ensures c.running && c.progress + 1 > total ==> r == Counter(0, false)
  {
    if !c.running then c
    else if c.progress + 1 > total then Counter(0, false)
    else Counter(c.progress + 1, true)
  }

  function Ticks(c: Counter, total: nat, n: nat): Counter
    decreases n
  {
    if n == 0 then c else Ticks(Tick(c, total), total, n - 1)
  }

  /** The first `k <= total` ticks count up from 0 to `k`. */
  lemma {:induction false} CountsUp(total: nat, k: nat)
    requires k <= total
    ensures Ticks(Start, total, k) == Counter(k, true)
  {
    if k > 0 {
      CountsUp(total, k - 1);
      TicksSplit(Start, total, k - 1, 1);
    }
  }

  /** Running `m + n` ticks is running `m` and then `n`. */
  lemma {:induction false} TicksSplit(c: Counter, total: nat, m: nat, n: nat)
    ensures Ticks(c, total, m + n) == Ticks(Ticks(c, total, m), total, n)
    decreases m
  {
    if m > 0 {
      TicksSplit(Tick(c, total), total, m - 1, n);
    }
  }

  /** A stopped counter stays where it is however many ticks arrive. */
  lemma {:induction false} StoppedStays(c: Counter, total: nat, n: nat)
    requires !c.running
    ensures Ticks(c, total, n) == c
  {
    if n > 0 {
      StoppedStays(c, total, n - 1);
    }
  }

  /** Only one cycle runs: from tick `total + 1` on the counter rests at 0, stopped. */
  lemma OneCycle(total: nat, n: nat)
    requires n > total
    ensures Ticks(Start, total, n) == Counter(0, false)
  {
    CountsUp(total, total);
    TicksSplit(Start, total, total, n - total);
    TicksSplit(Counter(total, true), total, 1, n - total - 1);
    StoppedStays(Counter(0, false), total, n - total - 1);
  }

  /** `progress % total` in JavaScript: NaN, here None, when the total is 0. */
  function PhaseProgress(progress: nat, total: nat): (r: Option<nat>)
    ensures total == 0 <==> r.None?
    ensures r.Some? ==> r.value < total
    ensures r.Some? && progress < total ==> r.value == progress
  {
    if total == 0 then None else Some(progress % total)
  }

  /** The position repeats with the cycle. */
  lemma PhaseProgressPeriodic(progress: nat, total: nat)
    ensures PhaseProgress(progress + total, total) == PhaseProgress(progress, total)
  {
    if total > 0 {
      Cycle.ModAddPeriod(progress, total);
    }
  }

  /**
   * The phase shown for a position in the cycle: before the end of the
   * inhale, before the end of the hold, else exhale. A NaN position fails
   * both comparisons and reads as exhale.
   */
  function Classify(pos: Option<nat>, d: Durations): (k: Kind)
    ensures k == Inhale <==> pos.Some? && pos.value < d.inhale
    ensures k == Hold <==> pos.Some? && d.inhale <= pos.value < d.inhale + d.hold
    ensures k == Exhale <==> pos.None? || pos.value >= d.inhale + d.hold
  {
    match pos
    case None => Exhale
    case Some(p) =>
      if p < d.inhale then Inhale
      else if p < d.inhale + d.hold then Hold
      else Exhale
  }

  /** The phase shown at a counter value. */
  function PhaseAt(progress: nat, d: Durations): Kind {
    Classify(PhaseProgress(progress, Total(d)), d)
  }

  /** Order of the phases within a cycle. */
  function Rank(k: Kind): nat {
    match k
    case Inhale => 0
    case Hold => 1
    case Exhale => 2
  }

  /** Over one cycle the phases come in order: inhale, then hold, then exhale. */
  lemma PhasesInOrder(a: nat, b: nat, d: Durations)
    requires a <= b < Total(d)
    ensures Rank(PhaseAt(a, d)) <= Rank(PhaseAt(b, d))
  {
    PhaseSpans(a, d);
    PhaseSpans(b, d);
  }

  /** Every phase of positive length is shown for exactly that many counter values of a cycle. */
  lemma PhaseSpans(p: nat, d: Durations)
    requires p < Total(d)
    ensures PhaseAt(p, d) == Inhale <==> p < d.inhale
    ensures PhaseAt(p, d) == Hold <==> d.inhale <= p < d.inhale + d.hold
    ensures PhaseAt(p, d) == Exhale <==> d.inhale + d.hold <= p
  {
    assert p % Total(d) == p;
  }

  /** At the end of the cycle the position wraps to 0, which shows inhale when the inhale is not empty. */
  lemma EndShowsInhale(d: Durations)
    requires d.inhale > 0
    ensures PhaseProgress(Total(d), Total(d)) == Some(0)
    ensures PhaseAt(Total(d), d) == Inhale
  {
  }

  /** With no hold the hold phase is never shown. */
  lemma NoHoldNeverShown(progress: nat, d: Durations)
    requires d.hold == 0
    ensures PhaseAt(progress, d) != Hold
  {
  }

  /** The bar width `phaseProgress / total * 100`, None when it is NaN. */
  function Percentage(progress: nat, total: nat): (r: Option<real>)
    ensures r.Some? <==> total > 0
    ensures r.Some? ==> 0.0 <= r.value < 100.0
    ensures r.Some? && progress < total ==> r.value == progress as real * 100.0 / total as real
  {
    match PhaseProgress(progress, total)
    case None => None
    case Some(p) =>
      var q := p as real / total as real;
      assert q * total as real == p as real;
      assert q < 1.0;
      assert q * 100.0 == p as real * 100.0 / total as real;
      Some(q * 100.0)
  }
}

=== FILE: react_visualizer.dfy ===
/**
 * The React visualiser: the technique with its fallback to box breathing,
 * the phase index advanced by a timeout, the reset of the index when the
 * technique changes, and the shape's border radius. React's order of work
 * matters here: a state change re-renders first and runs effects after.
 */
module ReactVisualizer {
  import opened Wrappers
  import ElectronRenderer
  import Shapes
  import Cycle

  /** The component's state: selected technique, shape and phase index. */
  datatype View = View(technique: string, shape: string, index: nat)

  /** What one render draws. */
  datatype Frame = Frame(name: string, scale: real, x: int, color: string, transitionMs: nat, radius: string)

  /** One render: reading `phase.duration` of a missing phase throws a TypeError. */
  function Render(v: View): (f: Result<Frame, string>)
    ensures f.Ok? <==> v.index < |ElectronRenderer.PhasesOrBox(v.technique)|
    ensures f.Ok? ==> f.value.name == ElectronRenderer.PhasesOrBox(v.technique)[v.index].name
    ensures f.Ok? ==> f.value.radius == Shapes.BorderRadius(v.shape)
  {
    var ps := ElectronRenderer.PhasesOrBox(v.technique);
    if v.index < |ps| then
      var p := ps[v.index];
      Ok(Frame(p.name, p.scale, p.x, p.color, p.duration, Shapes.BorderRadius(v.shape)))
    else Err("TypeError")
  }

  /** The timeout fires: `(prev + 1) % technique.phases.length`. */
  function Tick(v: View): (w: View)
    ensures w.technique == v.technique && w.shape == v.shape
    ensures w.index == (v.index + 1) % |ElectronRenderer.PhasesOrBox(v.technique)|
  {
    v.(index := (v.index + 1) % |ElectronRenderer.PhasesOrBox(v.technique)|)
  }

  /** The index points into the current technique's phases. */
  predicate InBounds(v: View) {
    v.index < |ElectronRenderer.PhasesOrBox(v.technique)|
  }

  /**
   * Choosing a technique as written: `setSelectedTechnique` re-renders with
   * the old index, and only the effect that runs after that render resets
   * the index to 0. The result is the first render's outcome and the state
   * after the effect.
   */
  function SelectAsWritten(v: View, key: string): (r: (Result<Frame, string>, View))
    ensures r.1 == View(key, v.shape, 0)
    ensures r.0 == Render(v.(technique := key))
  {
    var shown := v.(technique := key);
    (Render(shown), shown.(index := 0))
  }

  /** Choosing a technique with the index reset in the same update, so no render sees the old index. */
  function Select(v: View, key: string): (w: View)
    ensures w == View(key, v.shape, 0)
  {
    View(key, v.shape, 0)
  }

  /** The initial state: box breathing, a circle, phase 0. */
  const Initial := View("box", "circle", 0)

  /**
   * Switching from alternate-nostril breathing after two ticks to
   * diaphragmatic breathing (two phases) renders index 2 and throws.
   */
  lemma SwitchCrashes()
    ensures var v := Tick(Tick(Select(Initial, "alternate")));
      v.index == 2 && SelectAsWritten(v, "diaphragmatic").0.Err?
  {
    var v := Tick(Tick(Select(Initial, "alternate")));
    assert |ElectronRenderer.PhasesOrBox("alternate")| == 8;
    assert |ElectronRenderer.PhasesOrBox("diaphragmatic")| == 2;
  }

  /** With the reset made part of the selection, every reachable state renders. */
  lemma SelectKeepsInBounds(v: View, key: string)
    ensures InBounds(Select(v, key))
    ensures Render(Select(v, key)).Ok?
  {
  }

  /** Ticks keep the index in bounds and step it cyclically through the phases. */
  lemma TickKeepsInBounds(v: View)
    requires InBounds(v)
    ensures InBounds(Tick(v)) && Render(Tick(v)).Ok?
    ensures Tick(v).index == Cycle.Next(v.index, |ElectronRenderer.PhasesOrBox(v.technique)|)
  {
    var n := |ElectronRenderer.PhasesOrBox(v.technique)|;
    Cycle.ModUnique(v.index + 1, n, if v.index + 1 == n then 1 else 0, if v.index + 1 == n then 0 else v.index + 1);
  }

  /** The user's actions on the corrected component. */
  datatype Action = Choose(key: string) | Wait | Reshape(shape: string)

  function Step(v: View, a: Action): View {
    match a
    case Choose(key) => Select(v, key)
    case Wait => Tick(v)
    case Reshape(shape) => v.(shape := shape)
  }

  /** Any sequence of actions from an in-bounds state leaves it renderable. */
  lemma {:induction false} NeverCrashes(v: View, actions: seq<Action>)
    requires InBounds(v)
    ensures InBounds(Run(v, actions)) && Render(Run(v, actions)).Ok?
    decreases |actions|
  {
    if actions != [] {
      var w := Step(v, actions[0]);
      match actions[0] {
        case Choose(key) => SelectKeepsInBounds(v, key);
        case Wait => TickKeepsInBounds(v);
        case Reshape(_) =>
      }
      NeverCrashes(w, actions[1..]);
    }
  }

  function Run(v: View, actions: seq<Action>): View
    decreases |actions|
  {
    if actions == [] then v else Run(Step(v, actions[0]), actions[1..])
  }
}

=== FILE: real_arith.dfy ===
/**
 * Remainders on real numbers as the host languages define them. Python's
 * float `%` with a positive divisor is the floored remainder and never
 * negative; JavaScript's `%` truncates the quotient toward zero, so its
 * remainder takes the sign of the dividend.
 */
module RealArith {

  lemma DivMul(x: real, m: real)
    requires m != 0.0
    ensures (x / m) * m == x
  {
  }

  lemma DivOfMul(a: real, m: real)
    requires m != 0.0
    ensures (a * m) / m == a
  {
  }

  lemma MulLe(a: real, b: real, m: real)
    requires a <= b && m > 0.0
    ensures a * m <= b * m
  {
    assert b * m - a * m == (b - a) * m;
  }

  lemma MulLt(a: real, b: real, m: real)
    requires a < b && m > 0.0
    ensures a * m < b * m
  {
    assert b * m - a * m == (b - a) * m;
  }

  lemma MulNonneg(a: real, b: real)
    requires a >= 0.0 && b >= 0.0
    ensures a * b >= 0.0
  {
  }

  /** A part over a positive whole is a fraction in `[0, 1]`. */
  lemma DivUnit(e: real, d: real)
    requires d > 0.0 && 0.0 <= e <= d
    ensures 0.0 <= e / d <= 1.0
  {
    var q := e / d;
    DivMul(e, d);
    if q < 0.0 { MulLt(q, 0.0, d); }
    if q > 1.0 { MulLt(1.0, q, d); }
  }

  /** Dividing by a positive number keeps the order. */
  lemma DivLe(x: real, y: real, m: real)
    requires x <= y && m > 0.0
    ensures x / m <= y / m
  {
    var a, b := x / m, y / m;
    DivMul(x, m);
    DivMul(y, m);
    if a > b { MulLt(b, a, m); }
  }

  /** A product divided by `d` is the first factor times the second divided by `d`. */
  lemma MulDiv(a: real, t: real, d: real)
    requires d != 0.0
    ensures a * t / d == a * (t / d)
  {
    var q := t / d;
    DivMul(t, d);
    assert a * t == (a * q) * d;
    DivOfMul(a * q, d);
  }

  /** `x` minus the largest multiple of `m` not above it lies in `[0, m)`. */
  lemma FloorRemainder(x: real, m: real)
    requires m > 0.0
    ensures 0.0 <= x - (x / m).Floor as real * m < m
  {
    var y := x / m;
    var q := y.Floor as real;
    DivMul(x, m);
    MulLe(q, y, m);
    MulLt(y, q + 1.0, m);
    assert (q + 1.0) * m == q * m + m;
    assert x < q * m + m;
  }

  /** Python's `x % m` on floats, for a positive divisor. */
  function PyMod(x: real, m: real): (r: real)
    requires m > 0.0
    ensures 0.0 <= r < m
  {
    FloorRemainder(x, m);
    x - (x / m).Floor as real * m
  }

  /** Shifting the dividend by whole multiples of the divisor leaves the floored remainder alone. */
  lemma PyModShift(x: real, m: real, k: int)
    requires m > 0.0
    ensures PyMod(x + k as real * m, m) == PyMod(x, m)
  {
    var y := x / m;
    var x2 := x + k as real * m;
    DivMul(x, m);
    assert (y + k as real) * m == x2;
    assert x2 / m == y + k as real by {
      DivOfMul(y + k as real, m);
    }
    var f := y.Floor;
    assert (x2 / m).Floor == f + k;
    calc {
      PyMod(x2, m);
      x2 - (f + k) as real * m;
      { assert (f + k) as real * m == f as real * m + k as real * m; }
      x - f as real * m;
      PyMod(x, m);
    }
  }

  /** The floored remainder is the unique `r` in `[0, m)` that differs from `x` by a whole multiple of `m`. */
  lemma PyModUnique(x: real, m: real, k: int, r: real)
    requires m > 0.0 && 0.0 <= r < m && x == r + k as real * m
    ensures PyMod(x, m) == r
  {
    PyModShift(r, m, k);
    PyModId(r, m);
  }

  /** A dividend already in `[0, m)` is its own remainder. */
  lemma PyModId(x: real, m: real)
    requires m > 0.0 && 0.0 <= x < m
    ensures PyMod(x, m) == x
  {
    var y := x / m;
    DivMul(x, m);
    if y < 0.0 { MulLt(y, 0.0, m); }
    if y >= 1.0 { MulLe(1.0, y, m); }
    assert y.Floor == 0;
  }

  /** The integer part of `y`, rounded toward zero. */
  function Trunc(y: real): (k: int)
    ensures y >= 0.0 ==> k as real <= y < k as real + 1.0
    ensures y < 0.0 ==> k as real - 1.0 < y <= k as real
  {
    if y >= 0.0 then y.Floor else -((-y).Floor)
  }

  /** Dividing a negated dividend negates the quotient. */
  lemma NegDiv(x: real, m: real)
    requires m != 0.0
    ensures (-x) / m == -(x / m)
  {
    DivMul(x, m);
    assert -(x / m) * m == -x;
    DivOfMul(-(x / m), m);
  }

  /** The quotient by a positive divisor has the dividend's sign. */
  lemma DivSign(x: real, m: real)
    requires m > 0.0
    ensures x >= 0.0 <==> x / m >= 0.0
  {
    var y := x / m;
    DivMul(x, m);
    if y < 0.0 { MulLt(y, 0.0, m); }
    if y >= 0.0 { MulLe(0.0, y, m); }
  }

  /** The truncated remainder lies strictly within one divisor of zero, on the dividend's side. */
  lemma TruncRemainder(x: real, m: real)
    requires m > 0.0
    ensures x >= 0.0 ==> 0.0 <= x - Trunc(x / m) as real * m < m
    ensures x < 0.0 ==> -m < x - Trunc(x / m) as real * m <= 0.0
  {
    DivSign(x, m);
    if x >= 0.0 {
      FloorRemainder(x, m);
    } else {
      NegDiv(x, m);
      FloorRemainder(-x, m);
      var f := ((-x) / m).Floor;
      assert Trunc(x / m) == -f;
      assert (-f) as real * m == -(f as real * m);
    }
  }

  /** The magnitude of `a`. */
  function Abs(a: real): real {
    if a < 0.0 then -a else a
  }

  /** Negating the divisor negates the quotient. */
  lemma DivNegDivisor(x: real, m: real)
    requires m != 0.0
    ensures x / (-m) == -(x / m)
  {
    DivMul(x, m);
    assert -(x / m) * (-m) == x;
    DivOfMul(-(x / m), -m);
  }

  /** Rounding toward zero commutes with negation. */
  lemma TruncNeg(y: real)
    ensures Trunc(-y) == -Trunc(y)
  {
    if y < 0.0 {
      assert -y > 0.0;
    } else if y > 0.0 {
      assert -y < 0.0;
    }
  }

  /** A positive dividend's quotient has the divisor's sign. */
  lemma QuotientSign(a: real, m: real)
    requires a > 0.0 && m != 0.0
    ensures m > 0.0 ==> a / m > 0.0
    ensures m < 0.0 ==> a / m < 0.0
  {
    DivMul(a, m);
    if m > 0.0 {
      DivSign(a, m);
    } else {
      DivNegDivisor(a, -m);
      DivSign(a, -m);
      DivMul(a, -m);
    }
  }

  /** The truncated remainder by a divisor of either sign lies within the divisor's magnitude, on the dividend's side. */
  lemma TruncRemainderAnySign(x: real, m: real)
    requires m != 0.0
    ensures x >= 0.0 ==> 0.0 <= x - Trunc(x / m) as real * m < Abs(m)
    ensures x < 0.0 ==> -Abs(m) < x - Trunc(x / m) as real * m <= 0.0
  {
    if m > 0.0 {
      TruncRemainder(x, m);
    } else {
      var n := -m;
      TruncRemainder(x, n);
      DivNegDivisor(x, n);
      var q := x / n;
      assert x / m == -q;
      TruncNeg(q);
      var t := Trunc(q);
      assert Trunc(x / m) == -t;
      assert (-t) as real * m == t as real * n;
    }
  }

  /**
   * JavaScript's `x % m`: `x` minus `m` times the quotient rounded toward
   * zero. The result has the dividend's sign and a magnitude below the
   * divisor's, whichever sign the divisor has.
   */
  function JsRem(x: real, m: real): (r: real)
    requires m != 0.0
    ensures x >= 0.0 ==> 0.0 <= r < Abs(m)
    ensures x < 0.0 ==> -Abs(m) < r <= 0.0
  {
    TruncRemainderAnySign(x, m);
    x - Trunc(x / m) as real * m
  }

  /** The divisor's sign does not matter: `x % m` and `x % -m` agree. */
  lemma JsRemNegDivisor(x: real, m: real)
    requires m != 0.0
    ensures JsRem(x, -m) == JsRem(x, m)
  {
    DivNegDivisor(x, m);
    var q := x / m;
    TruncNeg(q);
    var t := Trunc(q);
    assert Trunc(x / (-m)) == -t;
    assert (-t) as real * (-m) == t as real * m;
  }

  /** For a non-negative dividend JavaScript's and Python's remainders coincide. */
  lemma JsRemIsPyMod(x: real, m: real)
    requires m > 0.0 && x >= 0.0
    ensures JsRem(x, m) == PyMod(x, m)
  {
    DivSign(x, m);
  }
}

=== FILE: session_timer.dfy ===
/**
 * The session countdown of the two vanilla web front ends: the timer starts
 * at `minutes · 60` seconds and once a second writes the seconds left as
 * `mm:ss`, ending the session, which clears the display, on the tick that
 * reaches zero.
 */
module SessionTimer {
  import opened Clock
  import opened Text
  import opened Wrappers

  /** The text one tick writes with `left` seconds remaining, and whether the session ends. */
  function Tick(left: int): (r: (string, bool))
    requires left >= 0
    ensures r.0 == ClockText(left)
    ensures r.1 <==> left == 0
  {
    (ClockText(left), left <= 0)
  }

  /**
   * What a session of `minutes` leaves on screen, one entry per second: the
   * `mm:ss` text from the full length down to one second, then nothing. The
   * last update writes "00:00" but ends the session in the same callback,
   * and ending the session clears the display (the vanilla front end
   * empties it, the web front end removes it), so "00:00" is never left on
   * screen.
   */
  method Countdown(minutes: nat) returns (shown: seq<string>)
    ensures |shown| == minutes * 60 + 1
    ensures forall k :: 0 <= k < minutes * 60 ==> shown[k] == ClockText(minutes * 60 - k)
    ensures shown[minutes * 60] == ""
    ensures "00:00" !in shown
  {
    var total := minutes * 60;
    var left: nat := total;
    shown := [];
    while true
      invariant left <= total
      invariant |shown| == total - left
      invariant CountsDown(shown, total, ClockText)
      decreases left
    {
      var step := Tick(left);
      if step.1 {
        break;
      }
      Extend(shown, total, left, ClockText);
      shown := shown + [step.0];
      left := left - 1;
    }
    forall j | 0 < j <= total
      ensures ClockText(j) != "00:00"
    {
      OnlyZeroReadsZero(j);
    }
    Clear(shown, total, ClockText, "00:00");
    shown := shown + [""];
  }

  /**
   * Clearing the display after a countdown that never showed `zero` leaves
   * the texts in place and adds an empty one, so `zero` is still never shown.
   */
  lemma Clear(shown: seq<string>, total: nat, text: nat -> string, zero: string)
    requires CountsDown(shown, total, text) && |shown| == total
    requires zero != ""
    requires forall j :: 0 < j <= total ==> text(j) != zero
    ensures forall k :: 0 <= k < total ==> (shown + [""])[k] == text(total - k)
    ensures zero !in shown + [""]
  {
    var s := shown + [""];
    forall k | 0 <= k < |s|
      ensures s[k] != zero
    {
      if k < total {
        assert s[k] == text(total - k);
      }
    }
  }

  /** Only zero seconds read "00:00": the text of any other count differs. */
  lemma OnlyZeroReadsZero(secs: nat)
    requires secs > 0
    ensures ClockText(secs) != "00:00"
  {
    ZeroText();
    assert ParseClock(ClockText(0)) == Some(0);
  }

  /** `shown` holds the texts `text` gives for `total`, `total - 1`, ... seconds, in order. */
  predicate CountsDown(shown: seq<string>, total: nat, text: nat -> string) {
    |shown| <= total + 1 &&
    forall k :: 0 <= k < |shown| ==> shown[k] == text(total - k)
  }

  /** Appending the text for the next second keeps the countdown in order. */
  lemma Extend(shown: seq<string>, total: nat, left: nat, text: nat -> string)
    requires CountsDown(shown, total, text) && left <= total && |shown| == total - left
    ensures CountsDown(shown + [text(left)], total, text)
  {
    var s := shown + [text(left)];
    forall k | 0 <= k < |s|
      ensures s[k] == text(total - k)
    {
      if k < |shown| {
        assert s[k] == shown[k];
      } else {
        assert total - k == left;
      }
    }
  }

  /** Zero padded to two digits. */
  lemma PadZero()
    ensures Pad2(0) == "00"
  {
    assert NatText(0) == "0";
    assert PadStart("0", 2, '0') == PadStart("00", 2, '0');
  }

  /** The text shown on the last tick. */
  lemma ZeroText()
    ensures ClockText(0) == "00:00"
  {
    PadZero();
    assert ClockText(0) == Pad2(0) + ":" + Pad2(0);
  }
}

=== FILE: shapes.dfy ===
/**
 * The shape selector shared by the desktop and framework front ends: a
 * shape name chooses the visualiser's CSS border radius.
 */
module Shapes {

  const Round := "50%"
  const Petal := "40% 60% 70% 30% / 40% 50% 60% 50%"
  const Squared := "12px"

  /** "circle" rounds fully, "lotus" gets the petal outline, anything else a square with 12px corners. */
  function BorderRadius(shape: string): (r: string)
    ensures r == Round <==> shape == "circle"
    ensures r == Petal <==> shape == "lotus"
    ensures r == Squared <==> shape != "circle" && shape != "lotus"
  {
    if shape == "circle" then Round
    else if shape == "lotus" then Petal
    else Squared
  }
}

=== FILE: shopify_component.dfy ===
/**
 * The Shopify theme's custom element: a fixed box-breathing loop written
 * as four nested timeout callbacks, each showing one phase for 4000 ms.
 * The four states are those of the class-based front ends.
 */
module ShopifyComponent {
  import opened FourPhase
  import Cycle

  /** The CSS class each state puts after "visualizer". */
  function ClassOf(s: Stage): (c: string)
    ensures c == "inhale" <==> s == Inhale
    ensures c == "hold" <==> s == Hold
    ensures c == "exhale" <==> s == Exhale
    ensures c == "hold-empty" <==> s == HoldAfterExhale
  {
    match s
    case Inhale => "inhale"
    case Hold => "hold"
    case Exhale => "exhale"
    case HoldAfterExhale => "hold-empty"
  }

  /** The text each state shows; both holds read "Hold". */
  function TextOf(s: Stage): (t: string)
    ensures t == "Inhale" <==> s == Inhale
    ensures t == "Exhale" <==> s == Exhale
    ensures t == "Hold" <==> s == Hold || s == HoldAfterExhale
  {
    match s
    case Inhale => "Inhale"
    case Hold => "Hold"
    case Exhale => "Exhale"
    case HoldAfterExhale => "Hold"
  }

  /** Every callback waits 4000 ms; the element's `phaseDurations` field is never consulted. */
  const PhaseMillis: nat := 4000

  /** What `setPhase` writes: the visualiser's class and text, and the status line. */
  datatype View = View(className: string, text: string, status: string)

  function SetPhase(s: Stage): (v: View)
    ensures v.className == "visualizer " + ClassOf(s)
    ensures v.text == TextOf(s) && v.status == v.text
  {
    View("visualizer " + ClassOf(s), TextOf(s), TextOf(s))
  }

  /** The class tells the state back, while the text cannot tell the two holds apart. */
  lemma ClassIdentifiesState(s: Stage, t: Stage)
    ensures SetPhase(s).className == SetPhase(t).className <==> s == t
    ensures SetPhase(Hold).text == SetPhase(HoldAfterExhale).text
  {
    if SetPhase(s).className == SetPhase(t).className {
      var p := "visualizer ";
      assert ClassOf(s) == SetPhase(s).className[|p|..];
      assert ClassOf(t) == SetPhase(t).className[|p|..];
    }
  }

  /** The view `k` callbacks after `animate()` starts, that is `4000 * k` ms later. */
  function ViewAfter(k: nat): View {
    SetPhase(After(Inhale, k))
  }

  /** The callbacks run inhale, hold, exhale, hold-empty and start over, four seconds each. */
  lemma Loop(k: nat)
    ensures ViewAfter(k) == SetPhase(AtIndex(k % 4))
    ensures ViewAfter(k + 4) == ViewAfter(k)
  {
    AfterIndex(Inhale, k);
    IndexBijection(After(Inhale, k));
    AfterIndex(Inhale, k + 4);
    IndexBijection(After(Inhale, k + 4));
    Cycle.ModAddPeriod(k, 4);
  }
}

=== FILE: techniques.dfy ===
/**
 * The three breathing techniques every port ships — box, diaphragmatic and
 * alternate-nostril — and the way the ports recognise what a phase asks of
 * the user from its name alone.
 */
module Techniques {
  import opened Text

  /** One phase of a technique: the text shown and how long it lasts, in the port's time unit. */
  datatype Phase = Phase(name: string, duration: nat)

  /** What a phase asks of the user. */
  datatype Kind = Inhale | Hold | Exhale

  const BoxNames: seq<string> := ["Inhale", "Hold", "Exhale", "Hold"]
  const DiaphragmaticNames: seq<string> := ["Inhale", "Exhale"]
  const AlternateNames: seq<string> :=
    ["Inhale Left", "Hold", "Exhale Right", "Hold", "Inhale Right", "Hold", "Exhale Left", "Hold"]

  /** The kinds the three tables are meant to have, phase by phase. */
  const BoxKinds: seq<Kind> := [Inhale, Hold, Exhale, Hold]
  const DiaphragmaticKinds: seq<Kind> := [Inhale, Exhale]
  const AlternateKinds: seq<Kind> := [Inhale, Hold, Exhale, Hold, Inhale, Hold, Exhale, Hold]

  /**
   * The property names every JavaScript object literal inherits from
   * `Object.prototype`. A technique table written as an object literal
   * answers `TABLE[name]` under each of them with a truthy value (a
   * function, or the prototype itself) that has no `phases`, so a
   * truthiness test on the lookup lets them through.
   */
  const InheritedNames: set<string> := {"constructor", "__proto__", "toString", "toLocaleString",
    "valueOf", "hasOwnProperty", "isPrototypeOf", "propertyIsEnumerable",
    "__defineGetter__", "__defineSetter__", "__lookupGetter__", "__lookupSetter__"}

  /** Phases with the given names, all of the same length. */
  function Uniform(names: seq<string>, d: nat): (ps: seq<Phase>)
    ensures |ps| == |names|
    ensures forall i :: 0 <= i < |ps| ==> ps[i] == Phase(names[i], d)
  {
    seq(|names|, i requires 0 <= i < |names| => Phase(names[i], d))
  }

  /** Box breathing: four phases of four seconds each, `unit` being one second in the port's unit. */
  function BoxPhases(unit: nat): seq<Phase> {
    Uniform(BoxNames, 4 * unit)
  }

  /** Diaphragmatic breathing: in and out, five seconds each. */
  function DiaphragmaticPhases(unit: nat): seq<Phase> {
    Uniform(DiaphragmaticNames, 5 * unit)
  }

  /** Alternate-nostril breathing: eight phases of four seconds each. */
  function AlternatePhases(unit: nat): seq<Phase> {
    Uniform(AlternateNames, 4 * unit)
  }

  /** The length of one full cycle of a technique. */
  function Total(ps: seq<Phase>): nat {
    if ps == [] then 0 else Total(ps[..|ps| - 1]) + ps[|ps| - 1].duration
  }

  /** A cycle of equal phases lasts the number of phases times the phase length. */
  lemma {:induction false} TotalUniform(names: seq<string>, d: nat)
    ensures Total(Uniform(names, d)) == |names| * d
  {
    if names != [] {
      var ps := Uniform(names, d);
      assert ps[..|ps| - 1] == Uniform(names[..|names| - 1], d);
      TotalUniform(names[..|names| - 1], d);
    }
  }

  /**
   * The whole seconds a port shows for a duration in milliseconds, by
   * integer division of a non-negative duration.
   */
  function Seconds(ms: nat): (s: nat)
    ensures s * 1000 <= ms < (s + 1) * 1000
  {
    ms / 1000
  }

  /** Whole seconds survive the round trip through milliseconds, so the tables show 4 s and 5 s. */
  lemma SecondsRoundTrip(s: nat)
    ensures Seconds(s * 1000) == s
  {
  }

  /** Cycle lengths: box 16 s, diaphragmatic 10 s, alternate-nostril 32 s. */
  lemma CycleLengths(unit: nat)
    ensures Total(BoxPhases(unit)) == 16 * unit
    ensures Total(DiaphragmaticPhases(unit)) == 10 * unit
    ensures Total(AlternatePhases(unit)) == 32 * unit
  {
    TotalUniform(BoxNames, 4 * unit);
    TotalUniform(DiaphragmaticNames, 5 * unit);
    TotalUniform(AlternateNames, 4 * unit);
  }

  /**
   * The substring classifier of the desktop and Angular front ends: the
   * lower-cased name mentioning "inhale" wins, then "exhale"; anything
   * else is a hold.
   */
  function KindOf(name: string): Kind {
    var l := Lower(name);
    if Contains(l, "inhale") then Inhale
    else if Contains(l, "exhale") then Exhale
    else Hold
  }

  /** The prefix classifier of the p5 sketch and the Go CLI: case-sensitive `startsWith`. */
  function PrefixKind(name: string): Kind {
    if StartsWith(name, "Inhale") then Inhale
    else if StartsWith(name, "Exhale") then Exhale
    else Hold
  }

  /** The substring classifier ignores case. */
  lemma KindOfIgnoresCase(name: string)
    ensures KindOf(Lower(name)) == KindOf(name)
  {
    LowerIdempotent(name);
  }

  /** A name that begins with "Inhale" is an inhale for both classifiers. */
  lemma InhalePrefixIsInhale(name: string)
    requires StartsWith(name, "Inhale")
    ensures PrefixKind(name) == Inhale
    ensures KindOf(name) == Inhale
  {
    var l := Lower(name);
    assert l[..6] == "inhale";
    assert StartsWith(l, "inhale");
    StartsWithContains(l, "inhale");
  }

  /** Kinds of a list of names under the substring classifier. */
  function KindsOf(names: seq<string>): (ks: seq<Kind>)
    ensures |ks| == |names|
    ensures forall i :: 0 <= i < |names| ==> ks[i] == KindOf(names[i])
  {
    seq(|names|, i requires 0 <= i < |names| => KindOf(names[i]))
  }

  /** Kinds of a list of names under the prefix classifier. */
  function PrefixKindsOf(names: seq<string>): (ks: seq<Kind>)
    ensures |ks| == |names|
    ensures forall i :: 0 <= i < |names| ==> ks[i] == PrefixKind(names[i])
  {
    seq(|names|, i requires 0 <= i < |names| => PrefixKind(names[i]))
  }

  /** The substring classifier decided from facts about the lower-cased name. */
  lemma KindOfFrom(name: string, l: string, inhale: bool, exhale: bool)
    requires Lower(name) == l
    requires Contains(l, "inhale") == inhale && Contains(l, "exhale") == exhale
    ensures KindOf(name) == if inhale then Inhale else if exhale then Exhale else Hold
  {
  }

  lemma HoldKind(n: string)
    requires n == "Hold"
    ensures KindOf(n) == Hold
  {
    assert Lower("Hold") == "hold";
    MissingChar("hold", "inhale", 0);
    MissingChar("hold", "exhale", 0);
    KindOfFrom(n, "hold", false, false);
  }

  /** A name whose lower-cased form starts with "exhale" and has no `n` is an exhale. */
  lemma ExhaleNamed(name: string, l: string)
    requires Lower(name) == l
    requires StartsWith(l, "exhale") && 'n' !in l
    ensures KindOf(name) == Exhale
  {
    MissingChar(l, "inhale", 1);
    StartsWithContains(l, "exhale");
    KindOfFrom(name, l, false, true);
  }

  /** A name that begins with "Exhale" and has no letter n is an exhale for both classifiers. */
  lemma ExhalePrefixIsExhale(name: string)
    requires StartsWith(name, "Exhale") && 'n' !in name && 'N' !in name
    ensures PrefixKind(name) == Exhale
    ensures KindOf(name) == Exhale
  {
    var l := Lower(name);
    assert l[..6] == "exhale";
    forall i | 0 <= i < |l|
      ensures l[i] != 'n'
    {
      assert name[i] in name;
    }
    ExhaleNamed(name, l);
  }

  /**
   * Both classifiers read every phase name of the three tables as the kind
   * the table intends, so the two families of front ends colour and scale
   * the same phases alike.
   */
  lemma TableKinds()
    ensures KindsOf(BoxNames) == BoxKinds
    ensures KindsOf(DiaphragmaticNames) == DiaphragmaticKinds
    ensures KindsOf(AlternateNames) == AlternateKinds
    ensures PrefixKindsOf(BoxNames) == BoxKinds
    ensures PrefixKindsOf(DiaphragmaticNames) == DiaphragmaticKinds
    ensures PrefixKindsOf(AlternateNames) == AlternateKinds
  {
    TableNameKinds(AlternateNames, AlternateKinds);
    TableNameKinds(BoxNames, BoxKinds);
    TableNameKinds(DiaphragmaticNames, DiaphragmaticKinds);
  }

  /** Both classifiers on a list of table names, given each name's intended kind. */
  lemma TableNameKinds(names: seq<string>, kinds: seq<Kind>)
    requires |names| == |kinds|
    requires forall i :: 0 <= i < |names| ==> NameHasKind(names[i], kinds[i])
    ensures KindsOf(names) == kinds
    ensures PrefixKindsOf(names) == kinds
  {
    forall i | 0 <= i < |names|
      ensures KindOf(names[i]) == kinds[i] && PrefixKind(names[i]) == kinds[i]
    {
      NameKind(names[i], kinds[i]);
    }
  }

  /** The seven names the tables use, each with the kind it is meant to have. */
  predicate NameHasKind(n: string, k: Kind) {
    (k == Inhale && (n == "Inhale" || n == "Inhale Left" || n == "Inhale Right")) ||
    (k == Hold && n == "Hold") ||
    (k == Exhale && (n == "Exhale" || n == "Exhale Left" || n == "Exhale Right"))
  }

  lemma NameKind(n: string, k: Kind)
    requires NameHasKind(n, k)
    ensures KindOf(n) == k && PrefixKind(n) == k
  {
    if k == Hold { HoldKind(n); }
    else if k == Exhale { ExhalePrefixIsExhale(n); }
    else { InhalePrefixIsInhale(n); }
  }
}

=== FILE: text.dfy ===
/**
 * String helpers shared by the front ends: whitespace trimming, ASCII case
 * mapping, substring search, decimal rendering and padding. Strings are
 * sequences of characters; only the ASCII behaviour of the host languages'
 * string functions is modelled.
 */
module Text {

  /**
   * The ASCII whitespace that `trim`, `strings.TrimSpace` and `str::trim`
   * all remove: space, tab, line feed, vertical tab, form feed and carriage
   * return. The non-ASCII spaces they also remove are not modelled.
   */
  predicate IsWhite(c: char) {
    c == ' ' || c == '\t' || c == '\n' || c == '\U{000B}' || c == '\U{000C}' || c == '\r'
  }

  predicate IsDigit(c: char) {
    '0' <= c <= '9'
  }

  predicate IsUpper(c: char) {
    'A' <= c <= 'Z'
  }

  predicate IsLower(c: char) {
    'a' <= c <= 'z'
  }

  predicate AllDigits(s: string) {
    forall i :: 0 <= i < |s| ==> IsDigit(s[i])
  }

  predicate StartsWith(s: string, prefix: string) {
    |prefix| <= |s| && s[..|prefix|] == prefix
  }

  /** Drops leading whitespace: the result is a suffix of `s`, everything dropped is whitespace. */
  function TrimStart(s: string): (r: string)
    ensures |r| <= |s| && r == s[|s| - |r|..]
    ensures forall i :: 0 <= i < |s| - |r| ==> IsWhite(s[i])
    ensures r == [] || !IsWhite(r[0])
  {
    if s != [] && IsWhite(s[0]) then TrimStart(s[1..]) else s
  }

  /** Drops trailing whitespace: the result is a prefix of `s`, everything dropped is whitespace. */
  function TrimEnd(s: string): (r: string)
    ensures |r| <= |s| && r == s[..|r|]
    ensures forall i :: |r| <= i < |s| ==> IsWhite(s[i])
    ensures r == [] || !IsWhite(r[|r| - 1])
  {
    if s != [] && IsWhite(s[|s| - 1]) then TrimEnd(s[..|s| - 1]) else s
  }

  /** Both ends trimmed: a contiguous slice of `s` that neither starts nor ends with whitespace. */
  function Trim(s: string): (r: string)
    ensures r == [] || (!IsWhite(r[0]) && !IsWhite(r[|r| - 1]))
    ensures exists k :: OccursAt(s, r, k)
  {
    var t := TrimStart(s);
    var r := TrimEnd(t);
    assert OccursAt(s, r, |s| - |t|);
    r
  }

  /** A string with no whitespace at either end is its own trim. */
  lemma TrimTidy(s: string)
    requires s == [] || (!IsWhite(s[0]) && !IsWhite(s[|s| - 1]))
    ensures Trim(s) == s
  {
  }

  /** Trimming whitespace wrapped around a tidy string recovers it. */
  lemma {:induction false} TrimPadded(pre: string, s: string, post: string)
    requires forall i :: 0 <= i < |pre| ==> IsWhite(pre[i])
    requires forall i :: 0 <= i < |post| ==> IsWhite(post[i])
    requires s != [] && !IsWhite(s[0]) && !IsWhite(s[|s| - 1])
    ensures Trim(pre + s + post) == s
  {
    var sp := s + post;
    assert pre + s + post == pre + sp;
    assert sp[0] == s[0];
    TrimStartPadded(pre, sp);
    TrimEndPadded(s, post);
    assert Trim(pre + sp) == TrimEnd(TrimStart(pre + sp));
  }

  lemma {:induction false} TrimStartPadded(pre: string, s: string)
    requires forall i :: 0 <= i < |pre| ==> IsWhite(pre[i])
    requires s != [] && !IsWhite(s[0])
    ensures TrimStart(pre + s) == s
    decreases |pre|
  {
    var w := pre + s;
    if pre != [] {
      assert w[0] == pre[0];
      assert w[1..] == pre[1..] + s;
      TrimStartPadded(pre[1..], s);
      assert TrimStart(w) == TrimStart(w[1..]);
    } else {
      assert w == s;
    }
  }

  lemma {:induction false} TrimEndPadded(s: string, post: string)
    requires forall i :: 0 <= i < |post| ==> IsWhite(post[i])
    requires s != [] && !IsWhite(s[|s| - 1])
    ensures TrimEnd(s + post) == s
    decreases |post|
  {
    if post != [] {
      var k := |post| - 1;
      assert (s + post)[..|s + post| - 1] == s + post[..k];
      TrimEndPadded(s, post[..k]);
    } else {
      assert s + post == s;
    }
  }

  /** Ruby's `chomp`: removes one trailing line terminator ("\r\n", "\n" or "\r") and nothing else. */
  function Chomp(s: string): (r: string)
    ensures |s| - 2 <= |r| <= |s|
    ensures r == s[..|r|]
    ensures |r| < |s| ==> s[|s| - 1] == '\n' || s[|s| - 1] == '\r'
    ensures r == s <==> s == [] || (s[|s| - 1] != '\n' && s[|s| - 1] != '\r')
  {
    if |s| >= 2 && s[|s| - 2..] == "\r\n" then s[..|s| - 2]
    else if s != [] && (s[|s| - 1] == '\n' || s[|s| - 1] == '\r') then s[..|s| - 1]
    else s
  }

  function LowerChar(c: char): (r: char)
    ensures !IsUpper(r)
    ensures !IsUpper(c) ==> r == c
  {
    if IsUpper(c) then (c as int + 32) as char else c
  }

  function UpperChar(c: char): (r: char)
    ensures !IsLower(r)
    ensures !IsLower(c) ==> r == c
  {
    if IsLower(c) then (c as int - 32) as char else c
  }

  /**
   * ASCII `toLowerCase`: same length, every character mapped through
   * LowerChar. Letters outside ASCII are left as they are.
   */
  function Lower(s: string): (r: string)
    ensures |r| == |s|
    ensures forall i :: 0 <= i < |s| ==> r[i] == LowerChar(s[i])
  {
    if s == [] then [] else [LowerChar(s[0])] + Lower(s[1..])
  }

  /** Lower-casing is idempotent: a lowered string has no upper-case letters left. */
  lemma LowerIdempotent(s: string)
    ensures Lower(Lower(s)) == Lower(s)
  {
    var l := Lower(s);
    assert forall i :: 0 <= i < |l| ==> LowerChar(l[i]) == l[i];
  }

  /** Does the character take two UTF-16 code units (a surrogate pair)? */
  predicate IsAstral(c: char) {
    c as int >= 0x1_0000
  }

  /**
   * JavaScript's `length`: the number of UTF-16 code units, which is the
   * number of characters plus one for each character outside the Basic
   * Multilingual Plane.
   */
  function Utf16Length(s: string): (n: nat)
    ensures |s| <= n <= 2 * |s|
  {
    if s == [] then 0 else (if IsAstral(s[0]) then 2 else 1) + Utf16Length(s[1..])
  }

  /** Without astral characters the code-unit count is the character count. */
  lemma {:induction false} Utf16LengthBmp(s: string)
    requires forall i :: 0 <= i < |s| ==> !IsAstral(s[i])
    ensures Utf16Length(s) == |s|
  {
    if s != [] {
      Utf16LengthBmp(s[1..]);
    }
  }

  /** Code units add up over concatenation. */
  lemma {:induction false} Utf16LengthAppend(a: string, b: string)
    ensures Utf16Length(a + b) == Utf16Length(a) + Utf16Length(b)
  {
    if a == [] {
      assert a + b == b;
    } else {
      var ab := a + b;
      assert ab[0] == a[0];
      assert ab[1..] == a[1..] + b;
      Utf16LengthAppend(a[1..], b);
      assert Utf16Length(ab) == (if IsAstral(a[0]) then 2 else 1) + Utf16Length(a[1..] + b);
    }
  }

  /** `k` copies of an astral character are `2k` code units. */
  lemma {:induction false} Utf16LengthAstralRun(c: char, k: nat)
    requires IsAstral(c)
    ensures Utf16Length(seq(k, _ => c)) == 2 * k
  {
    if k > 0 {
      var s := seq(k, _ => c);
      assert s[1..] == seq(k - 1, _ => c);
      Utf16LengthAstralRun(c, k - 1);
    }
  }

  /** Lower-casing keeps the code-unit count: only ASCII letters change. */
  lemma {:induction false} LowerKeepsUtf16Length(s: string)
    ensures Utf16Length(Lower(s)) == Utf16Length(s)
  {
    if s != [] {
      assert Lower(s)[1..] == Lower(s[1..]);
      LowerKeepsUtf16Length(s[1..]);
    }
  }

  /** Every character of `s` with `from` replaced by `to` (JavaScript `replace(/x/g, y)` on one character). */
  function ReplaceChar(s: string, from: char, to: char): (r: string)
    ensures |r| == |s|
    ensures forall i :: 0 <= i < |s| ==> r[i] == (if s[i] == from then to else s[i])
  {
    if s == [] then [] else [if s[0] == from then to else s[0]] + ReplaceChar(s[1..], from, to)
  }

  /** JavaScript `s.charAt(0).toUpperCase() + s.slice(1)`. */
  function Capitalize(s: string): (r: string)
    ensures |r| == |s|
    ensures s != [] ==> r[0] == UpperChar(s[0]) && r[1..] == s[1..]
  {
    if s == [] then [] else [UpperChar(s[0])] + s[1..]
  }

  /** Lower-casing a capitalised word with no upper-case letters gives the word back. */
  lemma LowerCapitalize(s: string)
    requires forall i :: 0 <= i < |s| ==> !IsUpper(s[i])
    ensures Lower(Capitalize(s)) == s
  {
    var l := Lower(Capitalize(s));
    if s != [] {
      assert l[0] == LowerChar(UpperChar(s[0]));
      assert forall i :: 1 <= i < |s| ==> l[i] == LowerChar(s[i]);
    }
  }

  /** `t` occurs in `s` as a contiguous block (JavaScript `includes`, Go `strings.Contains`). */
  predicate Contains(s: string, t: string)
    decreases |s|
  {
    |t| <= |s| && (s[..|t|] == t || Contains(s[1..], t))
  }

  /** `t` occurs in `s` starting at position `i`. */
  predicate OccursAt(s: string, t: string, i: int) {
    0 <= i && i + |t| <= |s| && s[i..i + |t|] == t
  }

  /** Contains agrees with the positional definition of a substring. */
  lemma {:induction false} ContainsIff(s: string, t: string)
    ensures Contains(s, t) <==> exists i :: OccursAt(s, t, i)
    decreases |s|
  {
    if |t| <= |s| {
      if s[..|t|] == t {
        assert OccursAt(s, t, 0);
      } else {
        ContainsIff(s[1..], t);
        forall i | OccursAt(s[1..], t, i)
          ensures OccursAt(s, t, i + 1)
        {
          assert s[1..][i..i + |t|] == s[i + 1..i + 1 + |t|];
        }
        forall i | OccursAt(s, t, i)
          ensures OccursAt(s[1..], t, i - 1)
        {
          assert s[1..][i - 1..i - 1 + |t|] == s[i..i + |t|];
        }
      }
    }
  }

  /** A prefix is in particular a contained block. */
  lemma StartsWithContains(s: string, t: string)
    requires StartsWith(s, t)
    ensures Contains(s, t)
  {
  }

  /** If some character of `t` never occurs in `s`, then `t` is not contained in `s`. */
  lemma {:induction false} MissingChar(s: string, t: string, k: nat)
    requires k < |t|
    requires t[k] !in s
    ensures !Contains(s, t)
    decreases |s|
  {
    if |t| <= |s| {
      assert s[..|t|][k] == s[k];
      MissingChar(s[1..], t, k);
    }
  }

  function DigitChar(d: nat): (c: char)
    requires d < 10
    ensures IsDigit(c)
  {
    ('0' as int + d) as char
  }

  /** The value of a run of decimal digits. */
  function DigitsValue(s: string): nat
    requires AllDigits(s)
  {
    if s == [] then 0 else DigitsValue(s[..|s| - 1]) * 10 + (s[|s| - 1] as int - '0' as int)
  }

  /** Decimal rendering of a natural number (`n.toString()`), no sign, no leading zero. */
  function NatText(n: nat): (r: string)
    ensures 1 <= |r|
    ensures AllDigits(r)
    ensures |r| > 1 ==> r[0] != '0'
    ensures n < 10 <==> |r| == 1
    ensures n < 100 ==> |r| <= 2
  {
    if n < 10 then [DigitChar(n)] else NatText(n / 10) + [DigitChar(n % 10)]
  }

  /** Rendering a number and reading its digits back gives the number. */
  lemma {:induction false} NatTextRoundTrip(n: nat)
    ensures DigitsValue(NatText(n)) == n
  {
    if n >= 10 {
      var s := NatText(n);
      assert s[..|s| - 1] == NatText(n / 10);
      NatTextRoundTrip(n / 10);
    }
  }

  /** Leading zeros do not change the value of a digit run. */
  lemma {:induction false} LeadingZero(s: string)
    requires AllDigits(s)
    ensures AllDigits("0" + s)
    ensures DigitsValue("0" + s) == DigitsValue(s)
    decreases |s|
  {
    if s != [] {
      var z := "0" + s;
      assert z[..|z| - 1] == "0" + s[..|s| - 1];
      LeadingZero(s[..|s| - 1]);
    }
  }

  /** JavaScript `padStart(width, c)` with a one-character pad. */
  function PadStart(s: string, width: nat, c: char): (r: string)
    ensures |r| == if |s| >= width then |s| else width
    ensures r[|r| - |s|..] == s
    ensures forall i :: 0 <= i < |r| - |s| ==> r[i] == c
    decreases width - |s|
  {
    if |s| >= width then s else PadStart([c] + s, width, c)
  }
}

=== FILE: ts_exercise.dfy ===
/**
 * The TypeScript front end's box exercise: duration validation in `start`,
 * the transform-string builder, the four-state `animate` and `stop`.
 * Durations are numbers of seconds and are modelled as reals.
 */
module TsExercise {
  import opened Wrappers
  import opened Text
  import opened FourPhase

  /** Phase lengths in milliseconds as JavaScript numbers. */
  datatype RealDurations = RealDurations(inhale: real, hold: real, exhale: real)

  /** The timer delay of each state, the holds sharing the hold duration. */
  function RealDelay(s: Stage, d: RealDurations): real {
    match s
    case Inhale => d.inhale
    case Exhale => d.exhale
    case _ => d.hold
  }

  /** The durations `start` accepts: inhale and exhale in (0, 60], hold in [0, 60]. */
  predicate Acceptable(inhale: real, hold: real, exhale: real) {
    0.0 < inhale <= 60.0 && 0.0 <= hold <= 60.0 && 0.0 < exhale <= 60.0
  }

  /** `getPhaseDurations`: seconds to milliseconds. */
  function GetPhaseDurations(inhale: real, hold: real, exhale: real): (d: RealDurations)
    ensures d.inhale / 1000.0 == inhale && d.hold / 1000.0 == hold && d.exhale / 1000.0 == exhale
  {
    RealDurations(inhale * 1000.0, hold * 1000.0, exhale * 1000.0)
  }

  /** A character JavaScript uses when it prints a finite number. */
  predicate IsNumberChar(c: char) {
    IsDigit(c) || c == '.' || c == '-' || c == '+' || c == 'e'
  }

  /** The decimal text of a finite number. */
  predicate NumberText(t: string) {
    t != [] && forall i :: 0 <= i < |t| ==> IsNumberChar(t[i])
  }

  /** The pieces `applyTransform` appends, each followed by a space. */
  function RotatePiece(style: string): string {
    if style == "lotus" then "rotate(45deg) " else ""
  }

  function ScalePiece(scale: Option<string>): string {
    if scale.Some? then "scale(" + scale.value + ") " else ""
  }

  function TranslatePiece(x: real, xText: string): string {
    if x != 0.0 then "translateX(" + xText + "px) " else ""
  }

  function RawTransform(style: string, scale: Option<string>, x: real, xText: string): string {
    RotatePiece(style) + ScalePiece(scale) + TranslatePiece(x, xText)
  }

  /** A piece is empty, or begins with a letter and ends with ") ". */
  predicate Piece(p: string) {
    p == [] || (|p| >= 2 && IsLower(p[0]) && p[|p| - 2] == ')' && p[|p| - 1] == ' ')
  }

  lemma PiecesArePieces(style: string, scale: Option<string>, x: real, xText: string)
    ensures Piece(RotatePiece(style)) && Piece(ScalePiece(scale)) && Piece(TranslatePiece(x, xText))
  {
  }

  /** Joining pieces gives a piece. */
  lemma JoinPieces(a: string, b: string)
    requires Piece(a) && Piece(b)
    ensures Piece(a + b)
  {
    if a != [] && b != [] {
      assert (a + b)[0] == a[0];
      assert (a + b)[|a + b| - 1] == b[|b| - 1];
      assert (a + b)[|a + b| - 2] == b[|b| - 2];
    } else if a == [] {
      assert a + b == b;
    } else {
      assert a + b == a;
    }
  }

  /** Trimming a non-empty piece drops exactly its final space. */
  lemma TrimPiece(p: string)
    requires Piece(p) && p != []
    ensures Trim(p) == p[..|p| - 1]
  {
    var core := p[..|p| - 1];
    assert core[0] == p[0] && core[|core| - 1] == ')';
    assert [] + core + [' '] == p;
    TrimPadded([], core, [' ']);
  }

  /** The joined pieces form one piece. */
  lemma RawIsPiece(style: string, scale: Option<string>, x: real, xText: string)
    ensures Piece(RawTransform(style, scale, x, xText))
  {
    var rp, sp, tp := RotatePiece(style), ScalePiece(scale), TranslatePiece(x, xText);
    PiecesArePieces(style, scale, x, xText);
    JoinPieces(rp, sp);
    JoinPieces(rp + sp, tp);
  }

  /**
   * `applyTransform(scale?, translateX = 0)`: a rotation for the lotus style,
   * then the scale when one is given, then the shift when it is not zero,
   * separated by single spaces. `scale` and `xText` are the numbers' texts.
   * The code builds each piece with a trailing space and trims the result;
   * here the final space is dropped, and TrimDropsFinalSpace shows that this
   * is what the trim does.
   */
  function ApplyTransform(style: string, scale: Option<string>, x: real, xText: string): (r: string)
    ensures r == [] || (!IsWhite(r[0]) && !IsWhite(r[|r| - 1]))
  {
    var raw := RawTransform(style, scale, x, xText);
    RawIsPiece(style, scale, x, xText);
    if raw == [] then [] else raw[..|raw| - 1]
  }

  /** The output is JavaScript's `trim()` of the joined pieces: trimming removes exactly the final space. */
  lemma TrimDropsFinalSpace(style: string, scale: Option<string>, x: real, xText: string)
    ensures Trim(RawTransform(style, scale, x, xText)) == ApplyTransform(style, scale, x, xText)
  {
    var raw := RawTransform(style, scale, x, xText);
    RawIsPiece(style, scale, x, xText);
    if raw != [] {
      TrimPiece(raw);
    } else {
      TrimTidy(raw);
    }
  }

  /** The output begins with the rotation exactly for the lotus style. */
  lemma RotateFirstIffLotus(style: string, scale: Option<string>, x: real, xText: string)
    requires scale.Some? ==> NumberText(scale.value)
    requires x != 0.0 ==> NumberText(xText)
    ensures StartsWith(ApplyTransform(style, scale, x, xText), "rotate(45deg)") <==> style == "lotus"
  {
    var raw := RawTransform(style, scale, x, xText);
    var r := ApplyTransform(style, scale, x, xText);
    if style == "lotus" {
      assert raw[..13] == "rotate(45deg)";
      assert r[..13] == raw[..13];
    } else if r != [] {
      assert r[0] == raw[0];
      assert raw[0] == 's' || raw[0] == 't';
    }
  }

  /** No character of a number's text is `c`. */
  lemma NumberLacks(t: string, c: char)
    requires NumberText(t) && !IsNumberChar(c)
    ensures c !in t
  {
  }

  /** A block that ends before the final character survives its removal. */
  lemma OccursBeforeLast(raw: string, t: string, i: nat)
    requires OccursAt(raw, t, i) && i + |t| < |raw|
    ensures Contains(raw[..|raw| - 1], t)
  {
    var r := raw[..|raw| - 1];
    assert r[i..i + |t|] == raw[i..i + |t|];
    assert OccursAt(r, t, i);
    ContainsIff(r, t);
  }

  /** A string without `t[k]` does not contain `t`, nor does any prefix of it. */
  lemma AbsentBeforeLast(raw: string, t: string, k: nat)
    requires raw != [] && k < |t| && t[k] !in raw
    ensures !Contains(raw[..|raw| - 1], t)
  {
    MissingChar(raw[..|raw| - 1], t, k);
  }

  /** A block found in the pieces before the final space is in the output. */
  lemma PresentInOutput(style: string, scale: Option<string>, x: real, xText: string, t: string, i: nat)
    requires var raw := RawTransform(style, scale, x, xText); OccursAt(raw, t, i) && i + |t| < |raw|
    ensures Contains(ApplyTransform(style, scale, x, xText), t)
  {
    var raw := RawTransform(style, scale, x, xText);
    OutputDropsLast(style, scale, x, xText, raw);
    OccursBeforeLast(raw, t, i);
  }

  /** The output is the joined pieces without their last character. */
  lemma OutputDropsLast(style: string, scale: Option<string>, x: real, xText: string, raw: string)
    requires raw == RawTransform(style, scale, x, xText) && raw != []
    ensures ApplyTransform(style, scale, x, xText) == raw[..|raw| - 1]
  {
  }

  /** A block with a character missing from the pieces is not in the output. */
  lemma AbsentFromOutput(style: string, scale: Option<string>, x: real, xText: string, t: string, k: nat)
    requires k < |t| && t[k] !in RawTransform(style, scale, x, xText)
    ensures !Contains(ApplyTransform(style, scale, x, xText), t)
  {
    var raw := RawTransform(style, scale, x, xText);
    if raw == [] {
      MissingChar(ApplyTransform(style, scale, x, xText), t, k);
    } else {
      OutputDropsLast(style, scale, x, xText, raw);
      AbsentBeforeLast(raw, t, k);
    }
  }

  /** The output holds a scale exactly when a scale is given. */
  lemma ScaleIffGiven(style: string, scale: Option<string>, x: real, xText: string)
    requires scale.Some? ==> NumberText(scale.value)
    requires x != 0.0 ==> NumberText(xText)
    ensures Contains(ApplyTransform(style, scale, x, xText), "scale(") <==> scale.Some?
  {
    var rp, sp, tp := RotatePiece(style), ScalePiece(scale), TranslatePiece(x, xText);
    var raw := rp + sp + tp;
    if scale.Some? {
      assert sp[..6] == "scale(";
      assert raw[|rp|..|rp| + 6] == sp[..6];
      assert OccursAt(raw, "scale(", |rp|);
      PresentInOutput(style, scale, x, xText, "scale(", |rp|);
    } else {
      if x != 0.0 {
        NumberLacks(xText, 'c');
        assert tp == "translateX(" + xText + "px) ";
      }
      assert 'c' !in rp && 'c' !in tp;
      assert raw == rp + tp;
      assert "scale("[1] == 'c';
      AbsentFromOutput(style, scale, x, xText, "scale(", 1);
    }
  }

  /** The output holds a shift exactly when the shift is not zero. */
  lemma TranslateIffNonzero(style: string, scale: Option<string>, x: real, xText: string)
    requires scale.Some? ==> NumberText(scale.value)
    requires x != 0.0 ==> NumberText(xText)
    ensures Contains(ApplyTransform(style, scale, x, xText), "translateX(") <==> x != 0.0
  {
    var rp, sp, tp := RotatePiece(style), ScalePiece(scale), TranslatePiece(x, xText);
    var raw := rp + sp + tp;
    var n := |rp| + |sp|;
    if x != 0.0 {
      assert tp[..11] == "translateX(";
      assert raw[n..n + 11] == tp[..11];
      assert OccursAt(raw, "translateX(", n);
      PresentInOutput(style, scale, x, xText, "translateX(", n);
    } else {
      if scale.Some? {
        NumberLacks(scale.value, 'X');
        assert sp == "scale(" + scale.value + ") ";
      }
      assert 'X' !in rp && 'X' !in sp;
      assert raw == rp + sp;
      assert "translateX("[9] == 'X';
      AbsentFromOutput(style, scale, x, xText, "translateX(", 9);
    }
  }

  /** The exercise: style, the two elements' presence, state, durations, and what is shown. */
  datatype Exercise = Exercise(
    style: string, hasElement: bool, hasPrompt: bool,
    stage: Option<Stage>, durations: Option<RealDurations>,
    classes: set<string>, transform: string,
    prompt: string, promptClasses: set<string>, timer: Option<real>)

  /** The scale text of a breathing state: 1.5 on the inhale, 1 on the exhale; holds keep the transform. */
  function StageScale(s: Stage): Option<string> {
    match s
    case Inhale => Some("1.5")
    case Exhale => Some("1")
    case _ => None
  }

  /**
   * `animate`: with both elements and the durations present, show the
   * state's class and prompt, apply the transform of a breathing state and
   * set the state's timer; otherwise nothing happens.
   */
  function Animate(x: Exercise): (r: Exercise)
    ensures !(x.hasElement && x.hasPrompt && x.durations.Some?) ==> r == x
    ensures x.hasElement && x.hasPrompt && x.durations.Some? && x.stage.Some? ==>
      r.classes == ShowClass(x.classes, x.stage.value) &&
      r.prompt == BoxPrompt(x.stage.value) &&
      r.timer == Some(RealDelay(x.stage.value, x.durations.value)) &&
      r.stage == x.stage && r.durations == x.durations
    ensures r.hasElement == x.hasElement && r.hasPrompt == x.hasPrompt && r.style == x.style
  {
    if !(x.hasElement && x.hasPrompt && x.durations.Some?) then x
    else
      var classes := x.classes - StageClasses;
      match x.stage
      case None => x.(classes := classes)
      case Some(s) =>
        var scale := StageScale(s);
        x.(classes := classes + {ClassName(s)}, prompt := BoxPrompt(s),
           transform := if scale.Some? then ApplyTransform(x.style, scale, 0.0, "0") else x.transform,
           timer := Some(RealDelay(s, x.durations.value)))
  }

  /**
   * `start`: reject a non-positive inhale or exhale, a negative hold, or
   * anything over 60 s, leaving everything as it was; otherwise store the
   * durations in milliseconds, enter inhale and animate.
   */
  function Start(x: Exercise, inhale: real, hold: real, exhale: real): (r: Exercise)
    ensures !Acceptable(inhale, hold, exhale) ==> r == x
    ensures Acceptable(inhale, hold, exhale) ==>
      r.durations == Some(GetPhaseDurations(inhale, hold, exhale)) && r.stage == Some(Inhale)
    ensures Acceptable(inhale, hold, exhale) && x.hasElement && x.hasPrompt ==>
      r.timer == Some(inhale * 1000.0) && r.prompt == "Inhale"
  {
    if inhale <= 0.0 || hold < 0.0 || exhale <= 0.0 then x
    else if inhale > 60.0 || hold > 60.0 || exhale > 60.0 then x
    else Animate(x.(durations := Some(GetPhaseDurations(inhale, hold, exhale)), stage := Some(Inhale)))
  }

  /** The pending timer fires: the next state, animated. */
  function Fire(x: Exercise): Exercise {
    if x.timer.None? || x.stage.None? then x else Animate(x.(stage := Some(Next(x.stage.value))))
  }

  /** `stop`: no timer; with the element, no state class and an empty transform; with the prompt, empty text and only the base class. */
  function Stop(x: Exercise): (r: Exercise)
    ensures r.timer == None
    ensures x.hasElement ==> r.classes * StageClasses == {} && r.transform == ""
    ensures !x.hasElement ==> r.classes == x.classes && r.transform == x.transform
    ensures x.hasPrompt ==> r.prompt == "" && r.promptClasses == {"prompt-text"}
    ensures !x.hasPrompt ==> r.prompt == x.prompt && r.promptClasses == x.promptClasses
  {
    var y := x.(timer := None);
    var y := if x.hasElement then y.(classes := y.classes - StageClasses, transform := "") else y;
    if x.hasPrompt then y.(prompt := "", promptClasses := {"prompt-text"}) else y
  }

  /** A started exercise follows the box cycle, each timer the length of its state. */
  lemma {:induction false} FiresFollowCycle(x: Exercise, n: nat)
    requires x.hasElement && x.hasPrompt && x.durations.Some? && x.stage.Some? && x.timer.Some?
    ensures var y := Fires(x, n);
      y.stage == Some(After(x.stage.value, n)) &&
      y.timer.Some? && (n > 0 ==> y.timer == Some(RealDelay(y.stage.value, x.durations.value)))
    decreases n
  {
    if n > 0 {
      var y := Fire(x);
      assert y == Animate(x.(stage := Some(Next(x.stage.value))));
      assert y.stage == Some(Next(x.stage.value)) && y.durations == x.durations;
      FiresFollowCycle(y, n - 1);
      assert Fires(x, n) == Fires(y, n - 1);
    }
  }

  function Fires(x: Exercise, n: nat): Exercise
    decreases n
  {
    if n == 0 then x else Fires(Fire(x), n - 1)
  }
}

=== FILE: vanilla_exercise.dfy ===
/**
 * The class-based vanilla web front end: clamped phase durations, the
 * three exercises' timer-driven state machines, the allowlists for the
 * exercise and animation-style selectors.
 */
module VanillaExercise {
  import opened Wrappers
  import opened FourPhase

  function Min(a: int, b: int): int {
    if a <= b then a else b
  }

  function Max(a: int, b: int): int {
    if a >= b then a else b
  }

  /** `Number(x) || 4` on a value read by `parseInt`: NaN (None) and 0 are falsy and become 4. */
  function OrFour(x: Option<int>): (r: int)
    ensures r == 4 <==> x == None || x == Some(0) || x == Some(4)
    ensures x.Some? && x.value != 0 ==> r == x.value
  {
    match x
    case None => 4
    case Some(v) => if v == 0 then 4 else v
  }

  /** `Math.max(lo, Math.min(60, Number(x) || 4))` in seconds. */
  function ClampSeconds(x: Option<int>, lo: int): int {
    Max(lo, Min(60, OrFour(x)))
  }

  /**
   * `getPhaseDurations`: each input clamped to at most 60 s and at least
   * 1 s (0 s for the hold) after the `|| 4` default, then made milliseconds.
   */
  function GetPhaseDurations(inhale: Option<int>, hold: Option<int>, exhale: Option<int>): (d: Durations)
    ensures 1000 <= d.inhale <= 60000 && 1000 <= d.exhale <= 60000 && 0 <= d.hold <= 60000
    ensures d.inhale % 1000 == 0 && d.hold % 1000 == 0 && d.exhale % 1000 == 0
    ensures inhale.Some? && 1 <= inhale.value <= 60 ==> d.inhale == inhale.value * 1000
    ensures exhale.Some? && 1 <= exhale.value <= 60 ==> d.exhale == exhale.value * 1000
    ensures hold.Some? && 1 <= hold.value <= 60 ==> d.hold == hold.value * 1000
    ensures (inhale == None || inhale == Some(0)) ==> d.inhale == 4000
    ensures (hold == None || hold == Some(0)) ==> d.hold == 4000
    ensures (exhale == None || exhale == Some(0)) ==> d.exhale == 4000
    ensures inhale.Some? && inhale.value < 0 ==> d.inhale == 1000
    ensures exhale.Some? && exhale.value < 0 ==> d.exhale == 1000
    ensures hold.Some? && hold.value < 0 ==> d.hold == 0
    ensures inhale.Some? && inhale.value > 60 ==> d.inhale == 60000
    ensures hold.Some? && hold.value > 60 ==> d.hold == 60000
    ensures exhale.Some? && exhale.value > 60 ==> d.exhale == 60000
  {
    Durations(ClampSeconds(inhale, 1) * 1000, ClampSeconds(hold, 0) * 1000, ClampSeconds(exhale, 1) * 1000)
  }

  /**
   * The clamp is not idempotent on holds: a negative hold becomes 0 s, and
   * 0 s fed back in becomes the 4 s default.
   */
  lemma HoldClampNotIdempotent(i: Option<int>, e: Option<int>)
    ensures GetPhaseDurations(i, Some(-5), e).hold == 0
    ensures GetPhaseDurations(i, Some(GetPhaseDurations(i, Some(-5), e).hold / 1000), e).hold == 4000
  {
  }

  /** Durations already in range pass through unchanged, whole seconds to milliseconds. */
  lemma InRangeRoundTrip(d: Durations)
    requires 1000 <= d.inhale <= 60000 && 1000 <= d.hold <= 60000 && 1000 <= d.exhale <= 60000
    requires d.inhale % 1000 == 0 && d.hold % 1000 == 0 && d.exhale % 1000 == 0
    ensures GetPhaseDurations(Some(d.inhale / 1000), Some(d.hold / 1000), Some(d.exhale / 1000)) == d
  {
  }

  /** `safeKey`: the exercise a selector value names; any value that is not a key picks box breathing. */
  function SafeKey(value: string): (k: ExerciseKind)
    ensures KeyOf(value).Some? ==> k == KeyOf(value).value
    ensures KeyOf(value).None? ==> k == BoxBreathing
  {
    match KeyOf(value)
    case Some(k) => k
    case None => BoxBreathing
  }

  /** The selector's own keys are read back unchanged, and only they are. */
  lemma SafeKeyOfKey(k: ExerciseKind, value: string)
    ensures SafeKey(KindKey(k)) == k
    ensures SafeKey(value) != BoxBreathing ==> KindKey(SafeKey(value)) == value
  {
    KeyOfKey(k);
  }

  const Styles: seq<string> := ["circle", "square", "lotus", "sun", "alternate-nostril"]

  /** The animation style used for the element class: a listed style, else "circle". */
  function SafeStyle(style: string): (r: string)
    ensures r in Styles
    ensures style in Styles ==> r == style
    ensures style !in Styles ==> r == "circle"
  {
    if style in Styles then style else "circle"
  }

  /** The element classes the diaphragmatic exercise manages. */
  const BreathClasses: set<string> := {"inhale", "exhale"}

  /** An exercise: its kind, state, durations, the element's classes, the prompt text and the pending timer's delay. */
  datatype Exercise = Exercise(
    kind: ExerciseKind, stage: Stage, durations: Durations,
    classes: set<string>, prompt: string, timer: Option<int>)

  /**
   * `animate`: show the current state and set the timer for it. The
   * diaphragmatic exercise handles only inhale and exhale; in any other
   * state it clears its two classes and sets no timer.
   */
  function Animate(x: Exercise): (r: Exercise)
    ensures r.kind == x.kind && r.stage == x.stage && r.durations == x.durations
    ensures x.kind != DiaphragmaticBreathing ==>
      r.classes == ShowClass(x.classes, x.stage) &&
      r.prompt == Prompt(x.kind, x.stage) &&
      r.timer == Some(Delay(x.stage, x.durations))
    ensures x.kind == DiaphragmaticBreathing && (x.stage == Inhale || x.stage == Exhale) ==>
      r.classes * BreathClasses == {ClassName(x.stage)} &&
      r.classes - BreathClasses == x.classes - BreathClasses &&
      r.prompt == Prompt(x.kind, x.stage) &&
      r.timer == Some(Delay(x.stage, x.durations))
    ensures x.kind == DiaphragmaticBreathing && !(x.stage == Inhale || x.stage == Exhale) ==>
      r.classes == x.classes - BreathClasses && r.prompt == x.prompt && r.timer == None
  {
    match x.kind
    case DiaphragmaticBreathing =>
      var cleared := x.classes - BreathClasses;
      if x.stage == Inhale || x.stage == Exhale then
        x.(classes := cleared + {ClassName(x.stage)}, prompt := Prompt(x.kind, x.stage),
           timer := Some(Delay(x.stage, x.durations)))
      else
        x.(classes := cleared, timer := None)
    case _ =>
      x.(classes := ShowClass(x.classes, x.stage), prompt := Prompt(x.kind, x.stage),
         timer := Some(Delay(x.stage, x.durations)))
  }

  /** The pending timer fires: move to the next state and animate it. Without a timer nothing happens. */
  function Fire(x: Exercise): Exercise {
    if x.timer.None? then x else Animate(x.(stage := Successor(x.kind, x.stage)))
  }

  /** `start`: clamp the durations, enter inhale and animate. */
  function Start(k: ExerciseKind, classes: set<string>, prompt: string,
                 inhale: Option<int>, hold: Option<int>, exhale: Option<int>): (r: Exercise)
    ensures r.kind == k && r.stage == Inhale
    ensures r.durations == GetPhaseDurations(inhale, hold, exhale)
    ensures r.timer == Some(r.durations.inhale)
  {
    Animate(Exercise(k, Inhale, GetPhaseDurations(inhale, hold, exhale), classes, prompt, None))
  }

  /** `stop`: cancel the timer, drop the state classes and clear the prompt. */
  function Stop(x: Exercise): (r: Exercise)
    ensures r.timer == None && r.prompt == ""
    ensures r.classes * StageClasses == {} && r.classes - StageClasses == x.classes - StageClasses
  {
    x.(classes := x.classes - StageClasses, prompt := "", timer := None)
  }

  /**
   * What a running exercise looks like between timers: the element shows
   * the current state's class, the prompt matches it and the timer waits
   * that state's duration; the diaphragmatic exercise stays in inhale or
   * exhale.
   */
  predicate Running(x: Exercise) {
    x.prompt == Prompt(x.kind, x.stage) &&
    x.timer == Some(Delay(x.stage, x.durations)) &&
    (x.kind != DiaphragmaticBreathing ==> x.classes * StageClasses == {ClassName(x.stage)}) &&
    (x.kind == DiaphragmaticBreathing ==>
      (x.stage == Inhale || x.stage == Exhale) && x.classes * BreathClasses == {ClassName(x.stage)})
  }

  /** Every start is running. */
  lemma StartRunning(k: ExerciseKind, classes: set<string>, prompt: string,
                     i: Option<int>, h: Option<int>, e: Option<int>)
    ensures Running(Start(k, classes, prompt, i, h, e))
  {
  }

  /** Every timer keeps a running exercise running. */
  lemma FireRunning(x: Exercise)
    requires Running(x)
    ensures Running(Fire(x))
  {
  }

  /** The exercise after `n` timers. */
  function Fires(x: Exercise, n: nat): Exercise
    decreases n
  {
    if n == 0 then x else Fires(Fire(x), n - 1)
  }

  /**
   * Box and alternate-nostril visit the four states in cycle order;
   * diaphragmatic alternates inhale and exhale and never waits a hold.
   */
  lemma {:induction false} FiresFollowCycle(x: Exercise, n: nat)
    requires Running(x)
    ensures Running(Fires(x, n))
    ensures x.kind != DiaphragmaticBreathing ==> Fires(x, n).stage == After(x.stage, n)
    ensures x.kind == DiaphragmaticBreathing ==>
      Fires(x, n).stage == (if n % 2 == 0 then x.stage else Successor(x.kind, x.stage))
    decreases n
  {
    if n > 0 {
      FireRunning(x);
      FiresFollowCycle(Fire(x), n - 1);
    }
  }

  /** A running diaphragmatic exercise waits only the inhale or the exhale duration. */
  lemma DiaphragmaticSkipsHold(x: Exercise)
    requires Running(x) && x.kind == DiaphragmaticBreathing
    ensures x.timer == Some(x.durations.inhale) || x.timer == Some(x.durations.exhale)
  {
  }

  /** The alternate-nostril prompts never swap sides: inhale is always left and exhale always right. */
  lemma AlternateNeverSwaps(x: Exercise)
    requires Running(x) && x.kind == AlternateNostrilBreathing
    ensures x.stage == Inhale ==> x.prompt == "Inhale Left"
    ensures x.stage == Exhale ==> x.prompt == "Exhale Right"
    ensures x.prompt in {"Inhale Left", "Hold", "Exhale Right"}
  {
  }
}

=== FILE: vscode_extension.dfy ===
/**
 * The VS Code extension's status-bar pacer: the icon chosen from the
 * shape and whether the phase is a hold, `startBreathing` with its own
 * table and fallback to box breathing, the self-rescheduling tick, and
 * the quick-pick menus. Durations are milliseconds.
 */
module VscodeExtension {
  import opened Wrappers
  import opened Text
  import Techniques
  import Cycle
  import IosContentView

  /** The three icon families the shape picker offers; anything but square or lotus draws circles. */
  datatype Family = SquareIcons | LotusIcons | CircleIcons

  function FamilyOf(shape: string): (f: Family)
    ensures f == SquareIcons <==> shape == "square"
    ensures f == LotusIcons <==> shape == "lotus"
  {
    if shape == "square" then SquareIcons else if shape == "lotus" then LotusIcons else CircleIcons
  }

  /** The codicon for a family, filled for a hold and outlined otherwise. */
  function FamilyIcon(f: Family, hold: bool): string {
    match f
    case SquareIcons => if hold then "$(primitive-square)" else "$(primitive-square-outlined)"
    case LotusIcons => if hold then "$(heart)" else "$(heart-filled)"
    case CircleIcons => if hold then "$(circle-filled)" else "$(circle-outline)"
  }

  /** `getIcon(phaseName)` under the current shape: a hold is any name containing "Hold", case and all. */
  function GetIcon(shape: string, name: string): (icon: string)
    ensures icon == FamilyIcon(FamilyOf(shape), Contains(name, "Hold"))
  {
    var hold := Contains(name, "Hold");
    if shape == "square" then (if hold then "$(primitive-square)" else "$(primitive-square-outlined)")
    else if shape == "lotus" then (if hold then "$(heart)" else "$(heart-filled)")
    else if hold then "$(circle-filled)" else "$(circle-outline)"
  }

  /** Reading an icon back: which family and whether it marks a hold. */
  function DecodeIcon(icon: string): (r: Option<(Family, bool)>)
    ensures r.Some? ==> FamilyIcon(r.value.0, r.value.1) == icon
  {
    if icon == "$(primitive-square)" then Some((SquareIcons, true))
    else if icon == "$(primitive-square-outlined)" then Some((SquareIcons, false))
    else if icon == "$(heart)" then Some((LotusIcons, true))
    else if icon == "$(heart-filled)" then Some((LotusIcons, false))
    else if icon == "$(circle-filled)" then Some((CircleIcons, true))
    else if icon == "$(circle-outline)" then Some((CircleIcons, false))
    else None
  }

  /** The six icons are distinct: the icon alone tells the shape family and whether the phase holds. */
  lemma IconDecodes(shape: string, name: string)
    ensures DecodeIcon(GetIcon(shape, name)) == Some((FamilyOf(shape), Contains(name, "Hold")))
  {
  }

  /** A phase of the extension's table. */
  datatype VsPhase = VsPhase(name: string, color: string, duration: nat)

  const Green := IosContentView.Green
  const Blue := IosContentView.Blue
  const Rose := IosContentView.Rose

  const BoxTable: seq<VsPhase> := [
    VsPhase("Inhale", Green, 4000), VsPhase("Hold", Blue, 4000), VsPhase("Exhale", Rose, 4000), VsPhase("Hold", Blue, 4000)]
  const DiaphragmaticTable: seq<VsPhase> := [VsPhase("Inhale", Green, 5000), VsPhase("Exhale", Rose, 5000)]
  const AlternateTable: seq<VsPhase> := [
    VsPhase("Inhale Left", Green, 4000), VsPhase("Hold", Blue, 4000),
    VsPhase("Exhale Right", Rose, 4000), VsPhase("Hold", Blue, 4000),
    VsPhase("Inhale Right", Green, 4000), VsPhase("Hold", Blue, 4000),
    VsPhase("Exhale Left", Rose, 4000), VsPhase("Hold", Blue, 4000)]

  /** `techniques[technique] || techniques['box']`. */
  function PhasesFor(key: string): (ps: seq<VsPhase>)
    ensures |ps| > 0
    ensures key == "diaphragmatic" <==> ps == DiaphragmaticTable
    ensures key == "alternate" <==> ps == AlternateTable
    ensures key != "diaphragmatic" && key != "alternate" <==> ps == BoxTable
  {
    if key == "diaphragmatic" then DiaphragmaticTable
    else if key == "alternate" then AlternateTable
    else BoxTable
  }

  function Plain(t: seq<VsPhase>): (ps: seq<Techniques.Phase>)
    ensures |ps| == |t|
    ensures forall i :: 0 <= i < |t| ==> ps[i] == Techniques.Phase(t[i].name, t[i].duration)
  {
    seq(|t|, i requires 0 <= i < |t| => Techniques.Phase(t[i].name, t[i].duration))
  }

  /** The extension's tables are the shared ones in milliseconds. */
  lemma TablesAgree()
    ensures Plain(BoxTable) == Techniques.BoxPhases(1000)
    ensures Plain(DiaphragmaticTable) == Techniques.DiaphragmaticPhases(1000)
    ensures Plain(AlternateTable) == Techniques.AlternatePhases(1000)
  {
  }

  /** The status-bar item: text, colour and tooltip. */
  datatype StatusBar = StatusBar(text: string, color: string, tooltip: string)

  const TooltipPrefix := "Mindful Breathing: "

  /** What one tick writes to the status bar for a phase under a shape. */
  function Show(shape: string, p: VsPhase): (s: StatusBar)
    ensures s.text == GetIcon(shape, p.name) + " " + p.name
    ensures |s.tooltip| >= |TooltipPrefix| && s.tooltip[..|TooltipPrefix|] == TooltipPrefix
    ensures s.tooltip[|TooltipPrefix|..] == p.name && s.color == p.color
  {
    StatusBar(GetIcon(shape, p.name) + " " + p.name, p.color, TooltipPrefix + p.name)
  }

  /** The phase name can be read back from the status text after the icon and a space. */
  lemma NameAfterIcon(shape: string, p: VsPhase)
    ensures var icon := GetIcon(shape, p.name);
      Show(shape, p).text[..|icon|] == icon && Show(shape, p).text[|icon| + 1..] == p.name
  {
  }

  /** A running pacer: its table, index, the shape read at each tick, the pending delay and the status bar. */
  datatype Pacer = Pacer(phases: seq<VsPhase>, index: nat, shape: string, timer: Option<nat>, bar: Option<StatusBar>)

  predicate Valid(p: Pacer) {
    p.index < |p.phases|
  }

  /** `tick`: show the current phase and schedule the next after its duration. */
  function Tick(p: Pacer): (q: Pacer)
    requires Valid(p)
    ensures Valid(q) && q.phases == p.phases && q.index == p.index && q.shape == p.shape
    ensures q.bar == Some(Show(p.shape, p.phases[p.index])) && q.timer == Some(p.phases[p.index].duration)
  {
    var ph := p.phases[p.index];
    p.(bar := Some(Show(p.shape, ph)), timer := Some(ph.duration))
  }

  /** `startBreathing(technique)`: clear the timer, pick the table with the fallback, tick phase 0. */
  function StartBreathing(shape: string, key: string): (p: Pacer)
    ensures Valid(p) && p.phases == PhasesFor(key) && p.index == 0
  {
    Tick(Pacer(PhasesFor(key), 0, shape, None, None))
  }

  /** The timeout fires: the index moves on cyclically and the next tick runs. */
  function Fire(p: Pacer): (q: Pacer)
    requires Valid(p)
    ensures Valid(q) && q.phases == p.phases
    ensures q.index == Cycle.Next(p.index, |p.phases|)
  {
    Tick(p.(index := Cycle.Next(p.index, |p.phases|)))
  }

  /** `setShape`: the new shape is read at the next tick. */
  function SetShape(p: Pacer, shape: string): (q: Pacer)
    ensures q == p.(shape := shape)
  {
    p.(shape := shape)
  }

  /** A shape change takes effect on the next tick and leaves the phase alone. */
  lemma ShapeAtNextTick(p: Pacer, shape: string)
    requires Valid(p)
    ensures Fire(SetShape(p, shape)).index == Fire(p).index
    ensures Fire(SetShape(p, shape)).bar.value.text ==
      GetIcon(shape, p.phases[Fire(p).index].name) + " " + p.phases[Fire(p).index].name
  {
  }

  /** The technique quick-pick: each label starts its technique, anything else (or a dismissed menu) does nothing. */
  function PickTechnique(choice: Option<string>): (key: Option<string>)
    ensures key.Some? <==> choice == Some("Box Breathing") || choice == Some("Diaphragmatic Breathing") ||
                           choice == Some("Alternate Nostril Breathing")
    ensures choice == Some("Box Breathing") ==> key.Some? && PhasesFor(key.value) == BoxTable
    ensures choice == Some("Diaphragmatic Breathing") ==> key.Some? && PhasesFor(key.value) == DiaphragmaticTable
    ensures choice == Some("Alternate Nostril Breathing") ==> key.Some? && PhasesFor(key.value) == AlternateTable
  {
    if choice == Some("Box Breathing") then Some("box")
    else if choice == Some("Diaphragmatic Breathing") then Some("diaphragmatic")
    else if choice == Some("Alternate Nostril Breathing") then Some("alternate")
    else None
  }

  /** The shape quick-pick: a chosen label becomes the shape in lower case. */
  function PickShape(p: Pacer, choice: Option<string>): (q: Pacer)
    ensures choice.None? ==> q == p
    ensures choice.Some? ==> q == p.(shape := Lower(choice.value))
  {
    if choice.Some? then SetShape(p, Lower(choice.value)) else p
  }

  /** Picking "Square" draws square icons and picking "Lotus" draws lotus icons from the next tick on. */
  lemma PickedShapeFamily(p: Pacer)
    ensures FamilyOf(PickShape(p, Some("Square")).shape) == SquareIcons
    ensures FamilyOf(PickShape(p, Some("Lotus")).shape) == LotusIcons
    ensures FamilyOf(PickShape(p, Some("Circle")).shape) == CircleIcons
  {
    PickedSquare(p);
    PickedLotus(p);
    PickedCircle(p);
  }

  lemma PickedSquare(p: Pacer)
    ensures FamilyOf(PickShape(p, Some("Square")).shape) == SquareIcons
  {
    assert Lower("Square") == "square";
  }

  lemma PickedLotus(p: Pacer)
    ensures FamilyOf(PickShape(p, Some("Lotus")).shape) == LotusIcons
  {
    assert Lower("Lotus") == "lotus";
  }

  lemma PickedCircle(p: Pacer)
    ensures FamilyOf(PickShape(p, Some("Circle")).shape) == CircleIcons
  {
    assert Lower("Circle") == "circle";
  }
}

=== FILE: waveform.dfy ===
/**
 * The numerical lung-volume model: a 16-second trapezoid for box breathing,
 * and the generator that samples a curve after checking its inputs against
 * fixed limits.
 */
module Waveform {
  import opened Wrappers
  import opened RealArith

  const BoxPeriod: real := 16.0

  /** The four quarters of the box cycle on `u` in `[0, 16)`: rise, hold full, fall, hold empty. */
  function BoxSegment(u: real): real {
    if u < 4.0 then u / 4.0
    else if u < 8.0 then 1.0
    else if u < 12.0 then 1.0 - (u - 8.0) / 4.0
    else 0.0
  }

  /** Lung volume at time `t` of a box-breathing session, the input first reduced modulo 16. */
  function PiecewiseBox(t: real): (v: real)
    ensures 0.0 <= v <= 1.0
  {
    BoxSegment(PyMod(t, BoxPeriod))
  }

  function Min(a: real, b: real): real {
    if a <= b then a else b
  }

  function Clamp01(a: real): real {
    if a < 0.0 then 0.0 else if a > 1.0 then 1.0 else a
  }

  /**
   * An independent description of one box cycle: the lesser of a line rising
   * from 0 at slope 1/4 and a line falling to 0 at 12, cut to `[0, 1]`.
   */
  function Trapezoid(u: real): real {
    Clamp01(Min(u / 4.0, (12.0 - u) / 4.0))
  }

  /** The box curve is the trapezoid applied to the time reduced modulo 16. */
  lemma BoxIsTrapezoid(t: real)
    ensures PiecewiseBox(t) == Trapezoid(PyMod(t, BoxPeriod))
  {
  }

  /** The box curve repeats every 16 seconds, forwards and backwards. */
  lemma BoxPeriodic(t: real, k: int)
    ensures PiecewiseBox(t + k as real * BoxPeriod) == PiecewiseBox(t)
  {
    PyModShift(t, BoxPeriod, k);
  }

  /** Within one period no reduction happens and the four segments are as drawn. */
  lemma BoxSegments(u: real)
    requires 0.0 <= u < BoxPeriod
    ensures u < 4.0 ==> PiecewiseBox(u) == u / 4.0
    ensures 4.0 <= u < 8.0 ==> PiecewiseBox(u) == 1.0
    ensures 8.0 <= u < 12.0 ==> PiecewiseBox(u) == 1.0 - (u - 8.0) / 4.0
    ensures 12.0 <= u ==> PiecewiseBox(u) == 0.0
  {
    PyModId(u, BoxPeriod);
  }

  /** The trapezoid never changes faster than a quarter per second. */
  lemma TrapezoidLipschitz(a: real, b: real)
    ensures Abs(Trapezoid(a) - Trapezoid(b)) <= Abs(a - b) / 4.0
  {
  }

  /** The floored remainder after a step `d` in `[0, m)`: either it moved by `d`, or it wrapped once. */
  lemma PyModStep(a: real, d: real, m: real)
    requires m > 0.0 && 0.0 <= d < m
    ensures PyMod(a + d, m) == PyMod(a, m) + d || PyMod(a + d, m) == PyMod(a, m) + d - m
  {
    var u := PyMod(a, m);
    var f := (a / m).Floor;
    assert a == u + f as real * m;
    if u + d < m {
      PyModUnique(a + d, m, f, u + d);
    } else {
      assert (f + 1) as real * m == f as real * m + m;
      PyModUnique(a + d, m, f + 1, u + d - m);
    }
  }

  /**
   * The box curve is continuous everywhere, including at 4, 8, 12 and the
   * wrap from 16 back to 0: two times `d` apart give volumes at most `d/4` apart.
   */
  lemma BoxLipschitz(a: real, b: real)
    ensures Abs(PiecewiseBox(a) - PiecewiseBox(b)) <= Abs(a - b) / 4.0
  {
    if a <= b {
      BoxLipschitzOrdered(a, b);
    } else {
      BoxLipschitzOrdered(b, a);
    }
  }

  lemma BoxLipschitzOrdered(a: real, b: real)
    requires a <= b
    ensures Abs(PiecewiseBox(a) - PiecewiseBox(b)) <= (b - a) / 4.0
  {
    var d := b - a;
    if d < 4.0 {
      var ua := PyMod(a, BoxPeriod);
      assert a + d == b;
      PyModStep(a, d, BoxPeriod);
      var ub := PyMod(b, BoxPeriod);
      BoxIsTrapezoid(a);
      BoxIsTrapezoid(b);
      if ub == ua + d {
        TrapezoidLipschitz(ua, ub);
      } else {
        assert ub == ua + d - BoxPeriod;
      }
    }
  }

  /** The volumes at the quarter marks of the first cycle, and half-way up and down. */
  lemma BoxMarks()
    ensures PiecewiseBox(0.0) == 0.0 && PiecewiseBox(2.0) == 0.5
    ensures PiecewiseBox(4.0) == 1.0 && PiecewiseBox(8.0) == 1.0
    ensures PiecewiseBox(10.0) == 0.5 && PiecewiseBox(12.0) == 0.0
  {
    BoxSegments(0.0);
    BoxSegments(2.0);
    BoxSegments(4.0);
    BoxSegments(8.0);
    BoxSegments(10.0);
    BoxSegments(12.0);
  }

  /** Why the generator refused its arguments. */
  datatype CurveError =
    | DurationTooLong      // more than an hour
    | SampleRateTooHigh    // more than 1000 samples per second
    | TooManySamples       // more than ten million samples in total
    | NegativeSampleCount  // the sample count handed to linspace is negative

  const MaxDuration: int := 3600
  const MaxSampleRate: int := 1000
  const MaxSamples: int := 10_000_000

  /** A sampled curve: the time axis and the lung volume at each time. */
  datatype Curve = Curve(times: seq<real>, volumes: seq<real>)

  /**
   * `n` evenly spaced points from 0 to `stop`, both ends included when
   * there are at least two points (numpy's `linspace`); one point is 0.
   */
  function Linspace(stop: real, n: nat): (ts: seq<real>)
    ensures |ts| == n
    ensures n >= 1 ==> ts[0] == 0.0
    ensures n >= 2 ==> ts[n - 1] == stop
    ensures n >= 2 ==> forall i :: 0 <= i < n - 1 ==> ts[i + 1] - ts[i] == stop / (n - 1) as real
  {
    if n == 1 then [0.0]
    else
      var step := stop / (n - 1) as real;
      var ts := seq(n, i requires 0 <= i < n => i as real * step);
      assert n >= 2 ==> ts[n - 1] == stop by {
        if n >= 2 {
          DivMul(stop, (n - 1) as real);
        }
      }
      assert forall i :: 0 <= i < n - 1 ==> ts[i + 1] - ts[i] == step by {
        forall i | 0 <= i < n - 1
          ensures ts[i + 1] - ts[i] == step
        {
          assert (i + 1) as real * step == i as real * step + step;
        }
      }
      ts
  }

  /**
   * `generate_breathing_curve`: the limit checks in their fixed order, then
   * `duration * rate` samples. Box breathing maps PiecewiseBox over every
   * sample; "diaphragmatic" uses `cosine` and every other technique `sine`,
   * the two transcendental waves being given as parameters.
   */
  function GenerateCurve(duration: int, rate: int, technique: string,
                         cosine: real -> real, sine: real -> real): (r: Result<Curve, CurveError>)
    ensures r == Err(DurationTooLong) <==> duration > MaxDuration
    ensures r == Err(SampleRateTooHigh) <==> duration <= MaxDuration && rate > MaxSampleRate
    ensures r == Err(TooManySamples) <==>
      duration <= MaxDuration && rate <= MaxSampleRate && duration * rate > MaxSamples
    ensures r == Err(NegativeSampleCount) <==>
      duration <= MaxDuration && rate <= MaxSampleRate && duration * rate < 0
    ensures r.Ok? ==> |r.value.times| == duration * rate && |r.value.volumes| == duration * rate
    ensures r.Ok? ==> r.value.times == Linspace(duration as real, duration * rate)
    ensures r.Ok? && technique == "box" ==>
      forall i :: 0 <= i < |r.value.volumes| ==> r.value.volumes[i] == PiecewiseBox(r.value.times[i])
    ensures r.Ok? && technique == "diaphragmatic" ==>
      forall i :: 0 <= i < |r.value.volumes| ==> r.value.volumes[i] == cosine(r.value.times[i])
    ensures r.Ok? && technique != "box" && technique != "diaphragmatic" ==>
      forall i :: 0 <= i < |r.value.volumes| ==> r.value.volumes[i] == sine(r.value.times[i])
  {
    if duration > MaxDuration then Err(DurationTooLong)
    else if rate > MaxSampleRate then Err(SampleRateTooHigh)
    else if duration * rate > MaxSamples then Err(TooManySamples)
    else if duration * rate < 0 then Err(NegativeSampleCount)
    else
      var n := duration * rate;
      var ts := Linspace(duration as real, n);
      var wave := if technique == "box" then PiecewiseBox else if technique == "diaphragmatic" then cosine else sine;
      Ok(Curve(ts, seq(n, i requires 0 <= i < n => wave(ts[i]))))
  }

  /** Inputs that pass the first two checks keep the product under 3,600,000 unless both are negative. */
  lemma ProductBound(duration: int, rate: int)
    requires duration <= MaxDuration && rate <= MaxSampleRate
    ensures duration >= 0 && rate >= 0 ==> duration * rate <= MaxDuration * MaxSampleRate
    ensures duration * rate > MaxSamples ==> duration < 0 && rate < 0
  {
    if duration >= 0 && rate >= 0 {
      assert duration * rate <= MaxDuration * rate;
      assert MaxDuration * rate <= MaxDuration * MaxSampleRate;
    } else if duration >= 0 {
      assert duration * rate <= 0;
    } else if rate >= 0 {
      assert duration * rate <= 0;
    }
  }

  /** The total-sample limit can refuse only a pair of negative arguments. */
  lemma SampleLimitNeedsNegatives(duration: int, rate: int, technique: string,
                                  cosine: real -> real, sine: real -> real)
    requires GenerateCurve(duration, rate, technique, cosine, sine) == Err(TooManySamples)
    ensures duration < 0 && rate < 0
  {
    ProductBound(duration, rate);
  }

  /** The duration check comes first: ten thousand seconds at 1001 Hz is refused for its duration. */
  lemma DurationCheckedFirst(cosine: real -> real, sine: real -> real)
    ensures GenerateCurve(10000, 1001, "box", cosine, sine) == Err(DurationTooLong)
    ensures GenerateCurve(-4000, -4000, "box", cosine, sine) == Err(TooManySamples)
  {
  }
}

=== FILE: web_component.dfy ===
/**
 * The `<breathing-visualizer>` custom element: its own technique table
 * (phases carry a display text and a CSS class), the observed `technique`
 * attribute with its allowlist, and the self-rescheduling `runAnimation`.
 * Durations are milliseconds.
 */
module WebComponent {
  import opened Wrappers
  import Techniques
  import Cycle

  datatype WcPhase = WcPhase(name: string, text: string, duration: nat, className: string)

  const BoxTable: seq<WcPhase> := [
    WcPhase("Inhale", "Inhale", 4000, "inhale"), WcPhase("Hold", "Hold", 4000, "hold"),
    WcPhase("Exhale", "Exhale", 4000, "exhale"), WcPhase("Hold", "Hold", 4000, "hold")]

  const DiaphragmaticTable: seq<WcPhase> := [
    WcPhase("Inhale", "Inhale", 5000, "inhale"), WcPhase("Exhale", "Exhale", 5000, "exhale")]

  const AlternateTable: seq<WcPhase> := [
    WcPhase("Inhale Left", "Inhale Left", 4000, "inhale-left"), WcPhase("Hold", "Hold", 4000, "hold"),
    WcPhase("Exhale Right", "Exhale Right", 4000, "exhale-right"), WcPhase("Hold", "Hold", 4000, "hold"),
    WcPhase("Inhale Right", "Inhale Right", 4000, "inhale-right"), WcPhase("Hold", "Hold", 4000, "hold"),
    WcPhase("Exhale Left", "Exhale Left", 4000, "exhale-left"), WcPhase("Hold", "Hold", 4000, "hold")]

  /** `TECHNIQUES[key]`, undefined for any other key (including a removed attribute, `null`). */
  function Lookup(key: Option<string>): (t: Option<seq<WcPhase>>)
    ensures t.Some? <==> key == Some("box") || key == Some("diaphragmatic") || key == Some("alternate")
    ensures t.Some? ==> |t.value| > 0
  {
    if key == Some("box") then Some(BoxTable)
    else if key == Some("diaphragmatic") then Some(DiaphragmaticTable)
    else if key == Some("alternate") then Some(AlternateTable)
    else None
  }

  function Plain(t: seq<WcPhase>): (ps: seq<Techniques.Phase>)
    ensures |ps| == |t|
    ensures forall i :: 0 <= i < |t| ==> ps[i] == Techniques.Phase(t[i].name, t[i].duration)
  {
    seq(|t|, i requires 0 <= i < |t| => Techniques.Phase(t[i].name, t[i].duration))
  }

  /** The element's tables are the shared ones in milliseconds, and every phase displays its own name. */
  lemma TablesAgree()
    ensures Plain(BoxTable) == Techniques.BoxPhases(1000)
    ensures Plain(DiaphragmaticTable) == Techniques.DiaphragmaticPhases(1000)
    ensures Plain(AlternateTable) == Techniques.AlternatePhases(1000)
    ensures forall i :: 0 <= i < |BoxTable| ==> BoxTable[i].text == BoxTable[i].name
    ensures forall i :: 0 <= i < |DiaphragmaticTable| ==> DiaphragmaticTable[i].text == DiaphragmaticTable[i].name
    ensures forall i :: 0 <= i < |AlternateTable| ==> AlternateTable[i].text == AlternateTable[i].name
  {
  }

  /** What the shadow DOM shows: the visualiser's text and class, the status line, the transition length. */
  datatype View = View(text: string, status: string, className: string, transitionMs: nat)

  /**
   * The element: technique key, phase index, pending timer delay, whether
   * it is in the document, whether `render` has built the shadow DOM, and
   * what it shows.
   */
  datatype Element = Element(technique: string, index: nat, timer: Option<nat>,
                             connected: bool, rendered: bool, view: Option<View>)

  /** The key names a technique and the index points into it. */
  predicate Valid(e: Element) {
    Lookup(Some(e.technique)).Some? && e.index < |Lookup(Some(e.technique)).value|
  }

  function Phases(e: Element): (ps: seq<WcPhase>)
    requires Valid(e)
    ensures |ps| > 0 && e.index < |ps|
  {
    Lookup(Some(e.technique)).value
  }

  /**
   * `runAnimation`: nothing before the shadow DOM exists; otherwise show
   * the phase's text in both places, its class after the base class, and
   * schedule the next phase after its duration.
   */
  function RunAnimation(e: Element): (f: Element)
    requires Valid(e)
    ensures Valid(f) && f.technique == e.technique && f.index == e.index && f.connected == e.connected
    ensures !e.rendered ==> f == e
    ensures e.rendered ==> var p := Phases(e)[e.index];
      f.view == Some(View(p.text, p.text, "visualizer " + p.className, p.duration)) && f.timer == Some(p.duration)
  {
    if !e.rendered then e
    else
      var p := Phases(e)[e.index];
      e.(view := Some(View(p.text, p.text, "visualizer " + p.className, p.duration)), timer := Some(p.duration))
  }

  /** The timeout fires: the index moves on cyclically and the next phase runs. */
  function Fire(e: Element): (f: Element)
    requires Valid(e)
    ensures Valid(f) && f.technique == e.technique
    ensures f.index == Cycle.Next(e.index, |Phases(e)|)
  {
    RunAnimation(e.(index := Cycle.Next(e.index, |Phases(e)|)))
  }

  /**
   * `attributeChangedCallback(name, old, new)`: only a change of the
   * `technique` attribute matters. An unknown value selects box; either
   * way the index returns to 0, the timer is cleared and, when the element
   * is in the document, the animation restarts.
   */
  function AttributeChanged(e: Element, name: string, oldValue: Option<string>, newValue: Option<string>): (f: Element)
    requires Valid(e)
    ensures Valid(f)
    ensures name != "technique" || oldValue == newValue ==> f == e
    ensures name == "technique" && oldValue != newValue ==>
      f.index == 0 &&
      f.technique == (if Lookup(newValue).Some? then newValue.value else "box") &&
      (f.connected ==> f == RunAnimation(e.(technique := f.technique, index := 0, timer := None))) &&
      (!f.connected ==> f == e.(technique := f.technique, index := 0, timer := None))
  {
    if name == "technique" && oldValue != newValue then
      var key := if Lookup(newValue).Some? then newValue.value else "box";
      var cleared := e.(technique := key, index := 0, timer := None);
      if e.connected then RunAnimation(cleared) else cleared
    else e
  }

  /** Only the `technique` attribute is observed. */
  const ObservedAttributes: seq<string> := ["technique"]

  /** Whatever value the attribute takes, the element ends on a known technique at phase 0. */
  lemma AttributeAlwaysKnown(e: Element, oldValue: Option<string>, newValue: Option<string>)
    requires Valid(e) && oldValue != newValue
    ensures var f := AttributeChanged(e, "technique", oldValue, newValue);
      f.index == 0 && Lookup(Some(f.technique)).Some? &&
      (Lookup(newValue).None? ==> f.technique == "box")
  {
  }

  /** The allowlist test `if (TECHNIQUES[newValue])` as written: an own key or an inherited property name passes. */
  predicate PassesAsWritten(key: Option<string>) {
    Lookup(key).Some? || (key.Some? && key.value in Techniques.InheritedNames)
  }

  /**
   * `runAnimation` on whatever key is stored. With no shadow tree it
   * returns at once; otherwise a key that is not a technique has no
   * `phases`, and indexing them throws.
   */
  function RunAnimationAsWritten(e: Element): (r: Result<Element, string>)
    ensures Valid(e) ==> r == Ok(RunAnimation(e))
    ensures !e.rendered ==> r == Ok(e)
    ensures e.rendered && Lookup(Some(e.technique)).None? ==> r.Err?
  {
    if !e.rendered then Ok(e)
    else if Valid(e) then Ok(RunAnimation(e))
    else Err("TypeError: technique.phases is undefined")
  }

  /**
   * `attributeChangedCallback` as written: any value that passes the
   * truthiness check is stored, then the animation restarts when the
   * element is connected.
   */
  function AttributeChangedAsWritten(e: Element, name: string, oldValue: Option<string>,
                                     newValue: Option<string>): (r: Result<Element, string>)
    requires Valid(e)
    ensures name != "technique" || oldValue == newValue ==> r == Ok(e)
    ensures !(newValue.Some? && newValue.value in Techniques.InheritedNames) ==>
      r == Ok(AttributeChanged(e, name, oldValue, newValue))
  {
    if name == "technique" && oldValue != newValue then
      var key := if PassesAsWritten(newValue) then newValue.value else "box";
      var cleared := e.(technique := key, index := 0, timer := None);
      if e.connected then RunAnimationAsWritten(cleared) else Ok(cleared)
    else Ok(e)
  }

  /**
   * An inherited property name as the attribute value is stored as the
   * technique. On a connected, rendered element the restart throws; on any
   * other element the stored key names no technique, so the next
   * `runAnimation` throws instead.
   */
  lemma InheritedNameCrashes(e: Element, oldValue: Option<string>, v: string)
    requires Valid(e) && v in Techniques.InheritedNames && oldValue != Some(v)
    ensures var r := AttributeChangedAsWritten(e, "technique", oldValue, Some(v));
      (e.connected && e.rendered ==> r.Err?) &&
      (!(e.connected && e.rendered) ==> r.Ok? && r.value.technique == v && !Valid(r.value))
    ensures RunAnimationAsWritten(e.(technique := v, index := 0, timer := None, rendered := true)).Err?
  {
    assert Lookup(Some(v)).None?;
  }

  /** The visualiser text and the status line say the same thing, or nothing is shown yet. */
  predicate TextAgrees(e: Element) {
    e.view.Some? ==> e.view.value.text == e.view.value.status
  }

  /** Running a phase keeps the text and the status line in agreement, and a rendered element shows something. */
  lemma TextMatchesStatus(e: Element)
    requires Valid(e)
    ensures TextAgrees(e) ==> TextAgrees(RunAnimation(e))
    ensures e.rendered ==> RunAnimation(e).view.Some? && TextAgrees(RunAnimation(e))
  {
  }

  function Fires(e: Element, k: nat): (f: Element)
    requires Valid(e)
    ensures Valid(f) && f.technique == e.technique
    decreases k
  {
    if k == 0 then e else Fires(Fire(e), k - 1)
  }

  /** After `k` firings the element shows phase `(i + k) mod n` of the same technique. */
  lemma {:induction false} FiresCycle(e: Element, k: nat)
    requires Valid(e)
    ensures Fires(e, k).index == (e.index + k) % |Phases(e)|
    decreases k
  {
    var n := |Phases(e)|;
    if k == 0 {
      Cycle.ModUnique(e.index, n, 0, e.index);
    } else {
      var f := Fire(e);
      FiresCycle(f, k - 1);
      Cycle.ModSucc(e.index, n);
      Cycle.ModUnique(e.index, n, 0, e.index);
      Cycle.ModShift(e.index + 1, k - 1, n);
    }
  }
}

=== FILE: web_exercise.dfy ===
/**
 * The older vanilla web front end: unclamped phase durations, the three
 * exercises' state machines with their element transforms and the
 * alternate-nostril prompt side classes, the option lists of the duration
 * selectors and the exercise selector.
 */
module WebExercise {
  import opened Wrappers
  import opened FourPhase

  /** `getPhaseDurations`: whole seconds made milliseconds, nothing clamped. */
  function GetPhaseDurations(inhale: int, hold: int, exhale: int): (d: Durations)
    ensures d.inhale % 1000 == 0 && d.hold % 1000 == 0 && d.exhale % 1000 == 0
    ensures d.inhale / 1000 == inhale && d.hold / 1000 == hold && d.exhale / 1000 == exhale
  {
    Durations(inhale * 1000, hold * 1000, exhale * 1000)
  }

  /** Every whole-second duration triple comes from exactly one input. */
  lemma DurationsRoundTrip(d: Durations)
    requires d.inhale % 1000 == 0 && d.hold % 1000 == 0 && d.exhale % 1000 == 0
    ensures GetPhaseDurations(d.inhale / 1000, d.hold / 1000, d.exhale / 1000) == d
  {
  }

  /** The side classes of the prompt. */
  const SideClasses: set<string> := {"prompt-left", "prompt-right"}

  /** Left while breathing in and holding full, right while breathing out and holding empty. */
  function Side(s: Stage): string {
    if s == Inhale || s == Hold then "prompt-left" else "prompt-right"
  }

  /**
   * An exercise: kind, state, durations, the element's classes and
   * transform, the prompt's text and classes, and the pending timer's delay.
   */
  datatype Exercise = Exercise(
    kind: ExerciseKind, stage: Stage, durations: Durations,
    classes: set<string>, transform: string,
    prompt: string, promptClasses: set<string>, timer: Option<int>)

  /** The transform set on entering a breathing state, if any; the holds leave it alone. */
  function Transform(k: ExerciseKind, s: Stage): Option<string> {
    match (k, s)
    case (BoxBreathing, Inhale) => Some("scale(2)")
    case (BoxBreathing, Exhale) => Some("scale(1)")
    case (DiaphragmaticBreathing, Inhale) => Some("scale(1.5)")
    case (DiaphragmaticBreathing, Exhale) => Some("scale(1)")
    case (AlternateNostrilBreathing, Inhale) => Some("translateX(-50px)")
    case (AlternateNostrilBreathing, Exhale) => Some("translateX(50px)")
    case _ => None
  }

  /** Whether `animate` has a branch for the state: the diaphragmatic exercise knows only inhale and exhale. */
  predicate Handles(k: ExerciseKind, s: Stage) {
    k != DiaphragmaticBreathing || s == Inhale || s == Exhale
  }

  /**
   * `animate`: add the state's class and drop the others, show the prompt,
   * set the transform of a breathing state, mark the alternate-nostril
   * prompt's side, and set the timer. A state without a branch changes nothing.
   */
  function Animate(x: Exercise): (r: Exercise)
    ensures !Handles(x.kind, x.stage) ==> r == x
    ensures Handles(x.kind, x.stage) ==>
      r.kind == x.kind && r.stage == x.stage && r.durations == x.durations &&
      r.prompt == Prompt(x.kind, x.stage) &&
      r.timer == Some(Delay(x.stage, x.durations)) &&
      ClassName(x.stage) in r.classes &&
      r.transform == (if Transform(x.kind, x.stage).Some? then Transform(x.kind, x.stage).value else x.transform)
    ensures Handles(x.kind, x.stage) && x.kind != DiaphragmaticBreathing ==>
      r.classes == ShowClass(x.classes, x.stage)
    ensures Handles(x.kind, x.stage) && x.kind == DiaphragmaticBreathing ==>
      r.classes * {"inhale", "exhale"} == {ClassName(x.stage)} &&
      r.classes - {"inhale", "exhale"} == x.classes - {"inhale", "exhale"}
    ensures x.kind == AlternateNostrilBreathing ==>
      r.promptClasses == x.promptClasses - SideClasses + {Side(x.stage)}
    ensures x.kind != AlternateNostrilBreathing ==> r.promptClasses == x.promptClasses
  {
    if !Handles(x.kind, x.stage) then x
    else
      var classes :=
        if x.kind == DiaphragmaticBreathing then x.classes - {"inhale", "exhale"} + {ClassName(x.stage)}
        else ShowClass(x.classes, x.stage);
      var promptClasses :=
        if x.kind == AlternateNostrilBreathing then x.promptClasses - SideClasses + {Side(x.stage)}
        else x.promptClasses;
      var t := Transform(x.kind, x.stage);
      x.(classes := classes, transform := if t.Some? then t.value else x.transform,
         prompt := Prompt(x.kind, x.stage), promptClasses := promptClasses,
         timer := Some(Delay(x.stage, x.durations)))
  }

  /** The pending timer fires: move to the next state and animate it. */
  function Fire(x: Exercise): Exercise {
    if x.timer.None? then x else Animate(x.(stage := Successor(x.kind, x.stage)))
  }

  /** `start`: milliseconds, inhale, animate. */
  function Start(x: Exercise, inhale: int, hold: int, exhale: int): (r: Exercise)
    ensures r.stage == Inhale && r.kind == x.kind
    ensures r.durations == GetPhaseDurations(inhale, hold, exhale)
    ensures r.timer == Some(inhale * 1000)
  {
    Animate(x.(stage := Inhale, durations := GetPhaseDurations(inhale, hold, exhale)))
  }

  /** `stop`: cancel the timer, drop the state classes, clear the transform and the prompt text. */
  function Stop(x: Exercise): (r: Exercise)
    ensures r.timer == None && r.prompt == "" && r.transform == ""
    ensures r.classes * StageClasses == {} && r.classes - StageClasses == x.classes - StageClasses
    ensures r.promptClasses == x.promptClasses
  {
    x.(classes := x.classes - StageClasses, transform := "", prompt := "", timer := None)
  }

  /** A running alternate-nostril exercise: exactly one side class, the one for its state. */
  predicate OneSide(x: Exercise) {
    x.promptClasses * SideClasses == {Side(x.stage)}
  }

  /** Starting marks the left side, and every timer keeps exactly one side class, the right one. */
  lemma SideInvariant(x: Exercise, i: int, h: int, e: int)
    requires x.kind == AlternateNostrilBreathing
    ensures OneSide(Start(x, i, h, e)) && Side(Start(x, i, h, e).stage) == "prompt-left"
    ensures OneSide(x) && x.timer.Some? ==> OneSide(Fire(x))
  {
  }

  /**
   * The values of `populateSelectOptions`: the options already present
   * followed by 1, 2, ..., `maxValue`. (The newer front end empties the
   * selector first, which is the case `existing == []`.)
   */
  method PopulateSelectOptions(existing: seq<int>, maxValue: int) returns (options: seq<int>)
    ensures |options| == |existing| + (if maxValue > 0 then maxValue else 0)
    ensures options[..|existing|] == existing
    ensures forall j :: |existing| <= j < |options| ==> options[j] == j - |existing| + 1
  {
    options := existing;
    var i := 1;
    while i <= maxValue
      invariant 1 <= i && (maxValue >= 1 ==> i <= maxValue + 1)
      invariant maxValue < 1 ==> i == 1
      invariant |options| == |existing| + i - 1
      invariant options[..|existing|] == existing
      invariant forall j :: |existing| <= j < |options| ==> options[j] == j - |existing| + 1
    {
      options := options + [i];
      i := i + 1;
    }
  }

  /** The instruction texts of the exercise selector. */
  datatype Instructions = BoxInstructions | DiaphragmaticInstructions | AlternateInstructions | DefaultInstructions

  /**
   * The selector page: the selected exercise, the instructions shown, and
   * whether an exercise is running (its timer and the session timer live,
   * the Start button disabled).
   */
  datatype Page = Page(exercise: ExerciseKind, instructions: Instructions, running: bool)

  /**
   * A change of the exercise selector. Every change first stops whatever is
   * running (`stopBreathing`); then the three keys show their own
   * instructions and replace the exercise, and any other value shows the
   * default instructions and keeps the (now stopped) current exercise.
   */
  function ChangeExercise(p: Page, value: string): (r: Page)
    ensures !r.running
    ensures KeyOf(value).Some? ==> r.exercise == KeyOf(value).value
    ensures KeyOf(value).None? ==> r == Page(p.exercise, DefaultInstructions, false)
    ensures r.instructions == DefaultInstructions <==> forall k :: KindKey(k) != value
  {
    match KeyOf(value)
    case Some(BoxBreathing) => Page(BoxBreathing, BoxInstructions, false)
    case Some(DiaphragmaticBreathing) => Page(DiaphragmaticBreathing, DiaphragmaticInstructions, false)
    case Some(AlternateNostrilBreathing) => Page(AlternateNostrilBreathing, AlternateInstructions, false)
    case None => Page(p.exercise, DefaultInstructions, false)
  }

  /** The page after a change depends only on the value and, for an unknown value, the exercise; so repeating a change changes nothing. */
  lemma ChangeIdempotent(p: Page, q: Page, value: string)
    requires p.exercise == q.exercise
    ensures ChangeExercise(p, value) == ChangeExercise(q, value)
    ensures ChangeExercise(ChangeExercise(p, value), value) == ChangeExercise(p, value)
  {
  }
}

=== FILE: wordpress_widget.dfy ===
/**
 * The WordPress shortcode's inline script: its own technique table (the
 * alternate-nostril offsets are ±30 px), a `tick` that reads phase
 * `idx mod length` of the current technique with a fallback to box
 * breathing, an index that only ever grows, and the technique buttons.
 * Durations are milliseconds.
 */
module WordpressWidget {
  import opened Wrappers
  import opened Text
  import Techniques
  import Cycle
  import ElectronRenderer

  datatype WpPhase = WpPhase(name: string, scale: real, color: string, dur: nat, x: int)

  const Green := ElectronRenderer.Green
  const Blue := ElectronRenderer.Blue
  const Rose := ElectronRenderer.Rose

  const BoxTable: seq<WpPhase> := [
    WpPhase("Inhale", 1.5, Green, 4000, 0), WpPhase("Hold", 1.5, Blue, 4000, 0),
    WpPhase("Exhale", 1.0, Rose, 4000, 0), WpPhase("Hold", 1.0, Blue, 4000, 0)]
  const DiaphragmaticTable: seq<WpPhase> := [
    WpPhase("Inhale", 1.5, Green, 5000, 0), WpPhase("Exhale", 1.0, Rose, 5000, 0)]
  const AlternateTable: seq<WpPhase> := [
    WpPhase("Inhale Left", 1.0, Green, 4000, -30), WpPhase("Hold", 1.0, Blue, 4000, 0),
    WpPhase("Exhale Right", 1.0, Rose, 4000, 30), WpPhase("Hold", 1.0, Blue, 4000, 0),
    WpPhase("Inhale Right", 1.0, Green, 4000, 30), WpPhase("Hold", 1.0, Blue, 4000, 0),
    WpPhase("Exhale Left", 1.0, Rose, 4000, -30), WpPhase("Hold", 1.0, Blue, 4000, 0)]

  /** `TECHNIQUES[key]`. */
  function Lookup(key: string): (t: Option<seq<WpPhase>>)
    ensures t.Some? <==> key == "box" || key == "diaphragmatic" || key == "alternate"
  {
    match key
    case "box" => Some(BoxTable)
    case "diaphragmatic" => Some(DiaphragmaticTable)
    case "alternate" => Some(AlternateTable)
    case _ => None
  }

  /** `TECHNIQUES[currentTech] || TECHNIQUES['box']`. */
  function PhasesFor(key: string): (ps: seq<WpPhase>)
    ensures |ps| > 0
    ensures Lookup(key).Some? ==> ps == Lookup(key).value
    ensures Lookup(key).None? ==> ps == BoxTable
  {
    Lookup(key).GetOr(BoxTable)
  }

  /**
   * The widget's table matches the renderer's except that the
   * alternate-nostril offsets are three fifths as wide: ±30 px instead
   * of ±50 px.
   */
  lemma TablesAgree()
    ensures |AlternateTable| == |ElectronRenderer.AlternateTable|
    ensures forall i :: 0 <= i < |BoxTable| ==>
      var (w, e) := (BoxTable[i], ElectronRenderer.BoxTable[i]);
      w.name == e.name && w.dur == e.duration && w.scale == e.scale && w.color == e.color && w.x == e.x
    ensures forall i :: 0 <= i < |AlternateTable| ==>
      var (w, e) := (AlternateTable[i], ElectronRenderer.AlternateTable[i]);
      w.name == e.name && w.dur == e.duration && w.color == e.color && 5 * w.x == 3 * e.x
    ensures forall i :: 0 <= i < |AlternateTable| ==> AlternateTable[i].x == 30 || AlternateTable[i].x == -30 || AlternateTable[i].x == 0
  {
  }

  /** What a tick puts on the page: phase name, transform parts, colour and transition length. */
  datatype Shown = Shown(name: string, scale: real, x: int, color: string, transitionMs: nat)

  /** The script's variables: current technique, the ever-growing index, the pending delay and what is shown. */
  datatype Widget = Widget(currentTech: string, idx: nat, timeout: Option<nat>, shown: Option<Shown>)

  /** `tick`: phase `idx mod length`, always in bounds however large `idx` has grown. */
  function Tick(w: Widget): (v: Widget)
    ensures v.currentTech == w.currentTech && v.idx == w.idx
    ensures var ps := PhasesFor(w.currentTech); var p := ps[w.idx % |ps|];
      v.shown == Some(Shown(p.name, p.scale, p.x, p.color, p.dur)) && v.timeout == Some(p.dur)
  {
    var ps := PhasesFor(w.currentTech);
    var p := ps[w.idx % |ps|];
    w.(shown := Some(Shown(p.name, p.scale, p.x, p.color, p.dur)), timeout := Some(p.dur))
  }

  /** The timeout fires: `idx++`, then tick. */
  function Fire(w: Widget): (v: Widget)
    ensures v.currentTech == w.currentTech && v.idx == w.idx + 1
  {
    Tick(w.(idx := w.idx + 1))
  }

  function Fires(w: Widget, k: nat): (v: Widget)
    ensures v.currentTech == w.currentTech && v.idx == w.idx + k
    decreases k
  {
    if k == 0 then w else Fires(Fire(w), k - 1)
  }

  /** How a tick shows a phase. */
  function ShownOf(p: WpPhase): Shown {
    Shown(p.name, p.scale, p.x, p.color, p.dur)
  }

  /** After `k > 0` firings the widget shows phase `(idx + k) mod n`. */
  lemma {:induction false} ShownAt(w: Widget, k: nat)
    requires k > 0
    ensures var ps := PhasesFor(w.currentTech); Fires(w, k).shown == Some(ShownOf(ps[(w.idx + k) % |ps|]))
    decreases k
  {
    if k > 1 {
      ShownAt(Fire(w), k - 1);
    }
  }

  /** The phase shown steps through the table cyclically: it is the one `Cycle.After` reaches from the start. */
  lemma ShowsCyclically(w: Widget, k: nat)
    requires k > 0
    ensures var ps := PhasesFor(w.currentTech); Fires(w, k).shown == Some(ShownOf(ps[Cycle.After(w.idx % |ps|, |ps|, k)]))
  {
    var n := |PhasesFor(w.currentTech)|;
    ShownAt(w, k);
    Cycle.AfterIsModular(w.idx % n, n, k);
    Cycle.ModShift(w.idx, k, n);
  }

  /** A technique button: a known key is taken, the index restarts at 0, the timeout is cancelled and a tick runs. */
  function Click(w: Widget, tech: string): (v: Widget)
    ensures Lookup(tech).None? ==> v == w
    ensures Lookup(tech).Some? ==> v == Tick(Widget(tech, 0, None, w.shown))
  {
    if Lookup(tech).Some? then Tick(w.(currentTech := tech, idx := 0, timeout := None)) else w
  }

  /** After a click the widget shows the first phase of the chosen technique. */
  lemma ClickShowsFirst(w: Widget, tech: string)
    requires Lookup(tech).Some?
    ensures var p := Lookup(tech).value[0]; Click(w, tech).shown == Some(Shown(p.name, p.scale, p.x, p.color, p.dur))
  {
  }

  /**
   * The widget's pending `tick` timers, counted by chain: each chain is one
   * pending timer that, when it fires, runs `tick`, which schedules the
   * chain's next timer and stores it in `timeoutId`. `untracked` counts the
   * chains whose pending timer is not the one `timeoutId` names; `tracked`
   * says whether `timeoutId` names a pending timer. Every chain fires once
   * per phase and each firing advances `idx`.
   */
  datatype Timers = Timers(untracked: nat, tracked: bool)

  /** The events that touch the timers: a technique button, and a tracked or an untracked timer firing. */
  datatype TimerEvent = ButtonClick | TrackedFires | UntrackedFires

  /** The number of tick chains running. */
  function Chains(t: Timers): nat {
    t.untracked + (if t.tracked then 1 else 0)
  }

  /**
   * One event. A click cancels the timer `timeoutId` names and starts a
   * new chain whose timer it stores. A firing chain's next timer replaces
   * whatever `timeoutId` named, which keeps running untracked. An event
   * whose timer is not pending changes nothing.
   */
  function TimerStep(t: Timers, e: TimerEvent): (u: Timers)
    ensures u.tracked || u == t
    ensures e == ButtonClick ==> Chains(u) == Chains(t) + (if t.tracked then 0 else 1)
    ensures e != ButtonClick ==> Chains(u) == Chains(t)
  {
    match e
    case ButtonClick => Timers(t.untracked, true)
    case TrackedFires => t
    case UntrackedFires =>
      if t.untracked > 0 then Timers(t.untracked - 1 + (if t.tracked then 1 else 0), true) else t
  }

  function RunTimers(t: Timers, es: seq<TimerEvent>): Timers
    decreases |es|
  {
    if es == [] then t else RunTimers(TimerStep(t, es[0]), es[1..])
  }

  /** Once `timeoutId` names a pending timer, no sequence of events changes the number of chains. */
  lemma {:induction false} ChainsKept(t: Timers, es: seq<TimerEvent>)
    requires t.tracked
    ensures RunTimers(t, es).tracked
    ensures Chains(RunTimers(t, es)) == Chains(t)
    decreases |es|
  {
    if es != [] {
      ChainsKept(TimerStep(t, es[0]), es[1..]);
    }
  }

  /** As written: the start-up `setTimeout(tick, 100)` is pending and `timeoutId` is still null. */
  const StartAsWritten: Timers := Timers(1, false)

  /** Corrected: the start-up timer is stored in `timeoutId` like every later one. */
  const StartTracked: Timers := Timers(0, true)

  /**
   * A click before the start-up tick fires cancels nothing, so two chains
   * run from then on, whatever happens later: `idx` advances twice per
   * phase. Had the start-up tick fired first, one chain would run.
   */
  lemma EarlyClickTwoChains(es: seq<TimerEvent>)
    ensures Chains(RunTimers(TimerStep(StartAsWritten, ButtonClick), es)) == 2
    ensures Chains(RunTimers(TimerStep(StartAsWritten, UntrackedFires), es)) == 1
  {
    ChainsKept(TimerStep(StartAsWritten, ButtonClick), es);
    ChainsKept(TimerStep(StartAsWritten, UntrackedFires), es);
  }

  /** With the start-up timer tracked exactly one chain runs after any events, as `Widget`'s single `timeout` assumes. */
  lemma OneChainAlways(es: seq<TimerEvent>)
    ensures Chains(RunTimers(StartTracked, es)) == 1
  {
    ChainsKept(StartTracked, es);
  }

  /** The buttons, one per key, each labelled with the key's first letter upper-cased. */
  const ButtonKeys: seq<string> := ["box", "diaphragmatic", "alternate"]

  function Label(key: string): (l: string)
    ensures |l| == |key| && (key != [] ==> l[1..] == key[1..])
  {
    Capitalize(key)
  }

  /** Every button's key is in the table, so a click always applies; lower-casing its label gives the key back. */
  lemma ButtonsAreKnown(i: nat)
    requires i < |ButtonKeys|
    ensures Lookup(ButtonKeys[i]).Some?
    ensures Lower(Label(ButtonKeys[i])) == ButtonKeys[i]
  {
    var k := ButtonKeys[i];
    assert forall j :: 0 <= j < |k| ==> !IsUpper(k[j]);
    LowerCapitalize(k);
  }
}

=== FILE: wrappers.dfy ===
/** Failure-carrying result types shared by the whole model. */
module Wrappers {

  /** An optional value: the source's `undefined`/`null`/`nil` lookups. */
  datatype Option<+T> = None | Some(value: T) {
    /** The wrapped value, or `default` when there is none (the `||` / `??` idiom). */
    function GetOr(default: T): (r: T)
      ensures Some? ==> r == value
      ensures None? ==> r == default
    {
      match this
      case Some(v) => v
      case None => default
    }
  }

  /** Either a value or an error; a thrown exception or an error return in the source. */
  datatype Result<+R, +E> = Ok(value: R) | Err(error: E)
}
